=== FILE: README.md ===
# Monopoly rules engine, modelled in Dafny

This project models the rules engine of a chat-bot Monopoly game and proves
properties of that model. The engine exists in four parallel variants that
share names but not behaviour, and each variant is modelled against the
fields it actually touches.

- **The class-based engine** (`src/structures/monopoly/classes/`) has:
  - property cards with rent, mortgage and houses/hotels;
  - a player with money and a property list;
  - auctions, a round-robin turn manager, a FIFO deck, trades and a bank;
  - card actions, a game loop, an AI player and a channel registry;
  - colour-group helpers (`functions/rewards.ts` and the top of `property.ts`).
- **The guarded player** (`classes/player.ts`) only pays when the balance
  covers the amount. It has its own chance and community handlers
  (`classes/chance.ts`, `classes/community.ts`).
- **The dice game** (`src/utils/monopoly/classes/`):
  - a `Monopoly` class with the doubles and jail state machine;
  - a player that credits the Go bonus to `cash`;
  - synchronous card handlers.
  Its game class and handlers call methods that only the guarded player has,
  so they are modelled over that player.
- **The chat session engine** (`src/utils/monopoly/`):
  - a `Session` with a turn toggler, a dice-roll loop and tile resolution;
  - its `Player`, with wrap-around moves, jail cards and property release;
  - a card stack of two generators sharing one counter;
  - chance and community card tables built by factories (one chance copy
    is repeated in `src/utils/functions.ts`).

## Modelling choices

Modules (all in `model/`):

| module | source file(s) |
|---|---|
| `PropertyLedger` | `property.ts` |
| `Players` | `players.ts` |
| `Rewards` | `functions/rewards.ts` and the group helpers at the top of `property.ts` |
| `Auctions`, `TurnManagers`, `Decks`, `Trades`, `Banks`, `Cards`, `MonopolyGames`, `AIPlayers`, `GameManagers`, `BoardSpaces`, `BoardProperties` | the class files of the same names |
| `GuardedPlayers`, `GuardedCards` | `classes/player.ts`, `classes/chance.ts`, `classes/community.ts`, and the `utils/monopoly/classes` chance and community handlers |
| `CashPlayers`, `DiceGames` | `src/utils/monopoly/classes/player.ts` and `monopoly.ts` |
| `Sessions` | `session.ts` and `src/utils/monopoly/player.ts` (they refer to each other) |
| `CardStacks`, `ChanceCards`, `CommunityCards` | `abstractStack.ts`, `chance.ts` and `functions.ts`, `community.ts` |
| `Common` | shared helpers |

Each object whose fields the source updates in place is a Dafny `class`, and
its methods state the new state in full. Pure queries are functions, and the
promised properties are lemmas about them.

Modelling conventions:
- **Money.** Class-engine money is `real`, because the source multiplies by
  1.1 and 1.2 and halves refunds. Guarded and dice-game balances are `int`.
  Session cash is `real`.
- **Exceptions.** A JavaScript exception is an `Outcome.Threw` or a
  `Result.Err`. Any update the source makes before the throw is kept.
- **Randomness.** `Math.random` becomes explicit parameters: dice values in
  [0, 1), shuffle indices, and drawn card indices.

## Model

| member | source | states |
|---|---|---|
| PropertyLedger.HouseBuilt | src/structures/monopoly/classes/property.ts:166-172 | building a house on a well-built property adds exactly one house, marks it developed, and never exceeds four houses or adds a hotel |
| PropertyLedger.HotelBuilt | src/structures/monopoly/classes/property.ts:177-184 | a hotel replaces exactly four houses: afterwards hotel is set, houses are 0, and the property is well built |
| PropertyLedger.HouseSold | src/structures/monopoly/classes/property.ts:189-197 | selling removes one house and keeps the hotel flag and the well-built invariant; the property becomes undeveloped iff no house and no hotel remain |
| PropertyLedger.HotelSold | src/structures/monopoly/classes/property.ts:202-209 | selling a hotel leaves four houses, no hotel and an undeveloped flag |
| PropertyLedger.HotelRoundTrip | src/structures/monopoly/classes/property.ts:177-209 | building a hotel and selling it restores the four houses and no hotel |
| PropertyLedger.RentAlwaysDefined | src/structures/monopoly/classes/property.ts:102-110 | with five multiplied rents, a well-built property always has a defined rent, and once it has houses or a hotel that rent is one of the multiplied rents |
| PropertyLedger.HotelAndBaseRent | src/structures/monopoly/classes/property.ts:102-110 | with the five multiplied rents, a hotel charges the last of them and a property without houses or hotel charges the base rent |
| PropertyLedger.RentMonotone | src/structures/monopoly/classes/property.ts:102-110 | when the rent table never falls, building more houses or a hotel never lowers the rent charged |
| PropertyLedger.RentNonNegative | src/structures/monopoly/classes/property.ts:102-110 | with non-negative rents, a defined rent is never negative |
| PropertyLedger.GroupMatchCount | src/structures/monopoly/classes/property.ts:155-157 | it throws iff some listed property has no group; otherwise the count is exactly the number of listed properties with the same first and third group numbers and the same owner, at most the list length, and positive only when some listed property has that owner |
| PropertyLedger.Property.constructor | src/structures/monopoly/classes/property.ts:73-88 | copies the data fields, uses the `house` price for both houses and hotels, and starts unowned, undeveloped and unmortgaged, with the group left unset |
| PropertyLedger.Property.IsMortgaged | src/structures/monopoly/classes/property.ts:94-96 | returns the mortgage flag |
| PropertyLedger.Property.CalculateRent | src/structures/monopoly/classes/property.ts:102-110 | the rent of the current development, always defined for a valid property with five multiplied rents |
| PropertyLedger.Property.BuyProperty | src/structures/monopoly/classes/property.ts:116-128 | an unowned property passes to the buyer, who pays exactly `cost` and gains one entry; an owned property and its would-be buyer are unchanged |
| PropertyLedger.Property.MortgageProperty | src/structures/monopoly/classes/property.ts:133-138 | an unmortgaged property becomes mortgaged and credits its owner `mortgage` once; a second call changes no money; with no owner it throws after setting the flag |
| PropertyLedger.Property.UnmortgageProperty | src/structures/monopoly/classes/property.ts:143-148 | a mortgaged property is released and its owner pays `mortgage` back, so mortgage then unmortgage restores the owner's money; otherwise nothing changes |
| PropertyLedger.Property.OwnsEntireGroup | src/structures/monopoly/classes/property.ts:152-160 | true iff the count of listed properties with the same first and third group numbers and the same owner equals the third group number; throws iff a group is missing |
| PropertyLedger.Property.BuildHouse | src/structures/monopoly/classes/property.ts:166-172 | builds and charges `houseCost` only with fewer than four houses, no hotel and the whole group owned; otherwise nothing changes; houses never exceed four and a hotel keeps houses at 0 |
| PropertyLedger.Property.BuildHotel | src/structures/monopoly/classes/property.ts:177-184 | needs exactly four houses, no hotel and the whole group; then sets the hotel, clears the houses and charges `hotelCost`; otherwise nothing changes |
| PropertyLedger.Property.SellHouse | src/structures/monopoly/classes/property.ts:189-197 | with at least one house, removes one and refunds half of `houseCost`; with none, nothing changes |
| PropertyLedger.Property.SellHotel | src/structures/monopoly/classes/property.ts:202-209 | a hotel turns back into four houses and refunds half of `hotelCost`; without a hotel, nothing changes |
| Players.NewHolding | src/structures/monopoly/classes/players.ts:42-44 | the entry `addProperty` appends carries the name and an unset mortgage flag only: its group, prices and house and hotel counts are undefined |
| Players.MortgagedIn | src/structures/monopoly/classes/players.ts:38-41 | true only if some entry with that name is mortgaged, so a name the player does not own is never mortgaged |
| Players.FirstWithFlag | src/structures/monopoly/classes/players.ts:51-61 | the index of the first entry with that name and flag, or -1 exactly when there is none |
| Players.Mortgage | src/structures/monopoly/classes/players.ts:50-58 | succeeds iff an unmortgaged entry with that name exists; it then credits the value once and flips exactly the first such entry to mortgaged, every other entry unchanged; otherwise nothing changes |
| Players.Unmortgage | src/structures/monopoly/classes/players.ts:60-68 | succeeds iff a mortgaged entry with that name exists and the money covers 1.1 times the value; it then deducts 1.1 times the value and clears exactly the first such entry, every other entry unchanged; otherwise nothing changes |
| Players.MortgageRoundTrip | src/structures/monopoly/classes/players.ts:50-68 | with distinct names, mortgaging then buying back restores the list and costs exactly one tenth of the value |
| Players.Transferred | src/structures/monopoly/classes/players.ts:20-22 | a bankrupt player's entries are handed over one for one, by name and unmortgaged |
| Players.TransferredSnoc | src/structures/monopoly/classes/players.ts:20-22 | handing over one more entry appends exactly that entry's name |
| Players.Player.constructor | src/structures/monopoly/classes/players.ts:11-16 | a new human player is at position 0 with 1500 and no properties; the jail flag and the card count are left undefined |
| Players.Player.AI | src/structures/monopoly/classes/AIPlayer.ts:12-15 | an AI player starts from the same record as a human player, with the jail flag and the card count undefined |
| Players.Player.DeclareBankruptcy | src/structures/monopoly/classes/players.ts:17-31 | the beneficiary gains every property name, unmortgaged, and all the money, so the pair's money is conserved; the debtor ends with no properties, 0 money, out of jail and with 0 cards, with or without a beneficiary |
| Players.Player.CurrentBoardSpaceName | src/structures/monopoly/classes/players.ts:32-34 | the name of the space at the position, and an error exactly when the position is off the board |
| Players.Player.Move | src/structures/monopoly/classes/players.ts:35-37 | the new position is the JavaScript remainder of position plus steps by the board length; it lies on the board whenever the sum is non-negative; no Go bonus; callers report an empty board themselves |
| Players.Player.IsPropertyMortgaged | src/structures/monopoly/classes/players.ts:38-41 | true only for an owned, mortgaged name; false for names the player does not own |
| Players.Player.AddProperty | src/structures/monopoly/classes/players.ts:42-44 | appends exactly one unmortgaged entry |
| Players.Player.UpdateMoney | src/structures/monopoly/classes/players.ts:46-48 | money changes by exactly the amount |
| Players.Player.MortgageProperty | src/structures/monopoly/classes/players.ts:50-58 | the new money and list are `Mortgage` of the old ones, and the result is whether it succeeded |
| Players.Player.UnmortgageProperty | src/structures/monopoly/classes/players.ts:60-68 | the new money and list are `Unmortgage` of the old ones, and the result is whether it succeeded |
| Rewards.CountKey | src/structures/monopoly/functions/rewards.ts:12-18 | the number of records with a given group key is at most the number of records |
| Rewards.GroupSizes | src/structures/monopoly/functions/rewards.ts:9-21 | the dictionary holds exactly the keys that occur, each mapped to its number of records |
| Rewards.GroupSizesSumToCount | src/structures/monopoly/functions/rewards.ts:9-21 | the group sizes, over their distinct keys, sum to the number of records |
| Rewards.CalculateGroupSizes | src/structures/monopoly/functions/rewards.ts:9-21 | the loop builds a dictionary whose keys are the occurring keys and whose values are their counts |
| Rewards.TotalPropertiesInGroup | src/structures/monopoly/functions/rewards.ts:27-30 | the size recorded for the group's key, and 0 for a key no record has |
| Rewards.NoMatchNoCount | src/structures/monopoly/functions/rewards.ts:27-30 | a key no record has counts zero |
| Rewards.OwnsWholeGroup | src/structures/monopoly/functions/rewards.ts:33-41 | true iff the number of records matching the first and third group numbers equals the third number |
| Rewards.CountMatching | src/structures/monopoly/functions/rewards.ts:36-38 | the filter's length equals the number of records with the group's key |
| Rewards.OwnsWholeGroupBySizes | src/structures/monopoly/functions/rewards.ts:27-41 | owning the whole group means the recorded size of the group equals its third number |
| Rewards.FindGroupArray | src/structures/monopoly/functions/rewards.ts:44-47 | the group of the first record with that name, or None exactly when no record has it |
| Auctions.AfterBid | src/structures/monopoly/classes/auctions.ts:42-50 | a strictly higher bid takes over bid and bidder; a bid not above the standing one changes nothing; the standing bid never decreases; funds are not checked |
| Auctions.AfterBidsIsHighest | src/structures/monopoly/classes/auctions.ts:42-50 | after any series of bids from a fresh auction, the standing bid is at least every bid placed and was placed by the recorded bidder, and there is a bidder iff some bid was positive |
| Auctions.Auction.constructor | src/structures/monopoly/classes/auctions.ts:18-23 | a new auction has bid 0 and no bidder |
| Auctions.Auction.InitializeAuction | src/structures/monopoly/classes/auctions.ts:30-35 | re-initialising sets the property and players, with bid 0 and no bidder |
| Auctions.Auction.PlaceBid | src/structures/monopoly/classes/auctions.ts:42-50 | the new standing is `AfterBid` of the old one |
| Auctions.Auction.FinalizeAuction | src/structures/monopoly/classes/auctions.ts:55-64 | with a bidder, the bidder pays exactly the highest bid, lists the property and becomes its owner; with none, the owner is unchanged; the development is untouched |
| Auctions.Auction.UpdatePlayerMoney | src/structures/monopoly/classes/auctions.ts:69-73 | the highest bidder, if any, pays exactly the highest bid and keeps its list |
| TurnManagers.Advance | src/structures/monopoly/classes/turnManager.ts:32-50 | with players, the index moves to the next one and wraps from the last to 0, staying in range; with none it becomes NaN |
| TurnManagers.AdvanceTimesWraps | src/structures/monopoly/classes/turnManager.ts:32-35 | k ≤ n advances move the index k places forward, wrapping once |
| TurnManagers.FullRoundReturns | src/structures/monopoly/classes/turnManager.ts:32-35 | n advances over n players return the index to where it started |
| TurnManagers.TurnManager.constructor | src/structures/monopoly/classes/turnManager.ts:15-19 | starts at index 0 with turn count 0 |
| TurnManagers.TurnManager.GetCurrentPlayer | src/structures/monopoly/classes/turnManager.ts:25-27 | the player at the index, one of the players, and undefined exactly when there are none |
| TurnManagers.TurnManager.NextTurn | src/structures/monopoly/classes/turnManager.ts:32-35 | the index advances round-robin and the turn count grows by one, keeping the index in range |
| TurnManagers.TurnManager.ResetTurns | src/structures/monopoly/classes/turnManager.ts:40-43 | back to index 0 with count 0 |
| TurnManagers.TurnManager.SkipTurn | src/structures/monopoly/classes/turnManager.ts:48-50 | the index advances as in `nextTurn` and the turn count is unchanged |
| TurnManagers.TurnManager.GetTurnCount | src/structures/monopoly/classes/turnManager.ts:56-58 | the number of turns played |
| Decks.Shift | src/structures/monopoly/classes/deck.ts:21-23 | removes and returns the first card, leaving a pile one shorter; an empty pile yields undefined and stays empty |
| Decks.FirstInFirstOut | src/structures/monopoly/classes/deck.ts:21-31 | a card added at the bottom is drawn only after every card already in the pile |
| Decks.RotateKeepsCards | src/structures/monopoly/classes/deck.ts:21-31 | drawing a card and adding it back rotates the pile, keeping its length and its cards |
| Decks.Deck.constructor | src/structures/monopoly/classes/deck.ts:13-15 | holds the given cards, first on top |
| Decks.Deck.DrawCard | src/structures/monopoly/classes/deck.ts:21-23 | the pile after a draw is `Shift` of the pile before it: one shorter on a draw, unchanged and empty when nothing is drawn |
| Decks.Deck.AddCard | src/structures/monopoly/classes/deck.ts:29-31 | appends the card at the bottom |
| Trades.WithoutName | src/structures/monopoly/classes/trade.ts:59 | the filtered list holds exactly the entries of other names |
| Trades.WithoutAbsentName | src/structures/monopoly/classes/trade.ts:59 | filtering out a name the list lacks changes nothing |
| Trades.Trade.constructor | src/structures/monopoly/classes/trade.ts:21-27 | a new trade stores its parties, property and amount, and is not accepted |
| Trades.Trade.ValidateTrade | src/structures/monopoly/classes/trade.ts:33-40 | true iff the offering player lists an entry with the property's name |
| Trades.Trade.ExecuteTrade | src/structures/monopoly/classes/trade.ts:45-53 | nothing changes unless the trade is valid and accepted; then the offering player gains the amount, the other loses it, every entry of that name leaves the offering player, one is added to the other, and the property's owner becomes the receiving player; the pair's money is conserved either way |
| Trades.Trade.UpdatePlayerProperties | src/structures/monopoly/classes/trade.ts:58-62 | every entry of the name leaves the offering player, one unmortgaged entry is appended to the receiving player, and the owner becomes the receiving player |
| Trades.Trade.UpdatePlayerMoney | src/structures/monopoly/classes/trade.ts:67-70 | the offering player gains the amount and the other loses it, so the sum is conserved |
| Trades.Trade.AcceptTrade | src/structures/monopoly/classes/trade.ts:75-78 | the trade becomes accepted |
| Trades.Trade.RejectTrade | src/structures/monopoly/classes/trade.ts:83-86 | the trade is not accepted |
| Trades.Trade.CancelTrade | src/structures/monopoly/classes/trade.ts:91-94 | the trade is not accepted |
| Banks.Bank.constructor | src/structures/monopoly/classes/bank.ts:19-23 | stores the cash and stock and leaves `property` unassigned |
| Banks.Bank.DistributeMoney | src/structures/monopoly/classes/bank.ts:30-37 | pays the player only when the bank holds at least the amount; bank plus player money is conserved either way |
| Banks.Bank.ReceiveMoney | src/structures/monopoly/classes/bank.ts:44-47 | the player pays the bank the amount unconditionally, and the sum is conserved |
| Banks.Bank.BuyHouseAsWritten | src/structures/monopoly/classes/bank.ts:54-61 | with the never-assigned `property`, a sale throws iff houses are in stock, and changes neither the stock nor the player's money |
| Banks.Bank.BuyHotelAsWritten | src/structures/monopoly/classes/bank.ts:68-75 | the same failure for hotels |
| Banks.NewBankCannotSell | src/structures/monopoly/classes/bank.ts:11-75 | a freshly built bank with stock refuses both sales and keeps its stock |
| Banks.Bank.BuyHouse | src/structures/monopoly/classes/bank.ts:54-61 | with houses in stock, the stock drops by exactly one and the player pays the house price; with none, nothing changes; the stock never goes negative |
| Banks.Bank.BuyHotel | src/structures/monopoly/classes/bank.ts:68-75 | the same for hotels, charged at the hotel price |
| Cards.GetActionFunction | src/structures/monopoly/classes/card.ts:18-51 | each known type picks its action; 'pay', 'spend', 'fine' and 'tax' all charge the amount; 'repairs' and 'improvement' both charge repairs; unknown types (and only they) get no action |
| Cards.NewCard | src/structures/monopoly/classes/card.ts:11-16 | the constructor stores type, description and amount and fixes the action from the type |
| Cards.ToJson | src/structures/monopoly/classes/card.ts:57-64 | the serialised card keeps type, description and amount |
| Cards.FromJson | src/structures/monopoly/classes/card.ts:53-55 | reading a card back constructs it afresh from its type, description and amount |
| Cards.JsonRoundTrip | src/structures/monopoly/classes/card.ts:53-64 | `fromJSON(toJSON(c))` is the same card, action included |
| Cards.AddAll | src/structures/monopoly/classes/card.ts:131 | every balance raised by the amount |
| Cards.TimesIsProduct | src/structures/monopoly/classes/card.ts:130 | charging the amount once per other player totals amount × count |
| Cards.SumAddAll | src/structures/monopoly/classes/card.ts:127-135 | raising every balance by the amount raises the total by amount × count |
| Cards.SpendEachBalances | src/structures/monopoly/classes/card.ts:127-135 | after 'spend-each-player', every other player holds the amount more and the drawer holds amount × (n−1) less |
| Cards.EarnEachBalances | src/structures/monopoly/classes/card.ts:152-160 | after 'earn-each-player', every other player holds the amount less |
| Cards.SpendEachConserves | src/structures/monopoly/classes/card.ts:127-135 | with the drawer among the players, the total money is unchanged |
| Cards.SpendEachSum | src/structures/monopoly/classes/card.ts:127-135 | the total after the pass, expressed by the raised balances less the drawer's share |
| Cards.SpendEachIsUpdate | src/structures/monopoly/classes/card.ts:127-135 | the balances after the pass are everyone raised by the amount, except the drawer, who pays amount × (n−1) |
| Cards.EarnEachMirrors | src/structures/monopoly/classes/card.ts:152-160 | 'earn-each-player' is the mirror image: the drawer gains amount × (n−1), every other player pays the amount, and the total is unchanged |
| Cards.Balances | src/structures/monopoly/classes/card.ts:128 | the money of each listed player, in order |
| Cards.IndexOf | src/structures/monopoly/classes/card.ts:129 | where the drawer stands in the list, and -1 exactly when absent |
| Cards.MoveToEachOther | src/structures/monopoly/classes/card.ts:127-135 | the loop moves the amount from the drawer to each other player; the drawer pays once per other player (once per listed player when not listed) |
| Cards.PayOver | src/structures/monopoly/classes/card.ts:130-131 | one step of the pass: one player pays another exactly the amount |
| Cards.BalancesAfterPass | src/structures/monopoly/classes/card.ts:127-135 | the money left by the loop is exactly `SpendEachBalances` |
| Cards.RepairCost | src/structures/monopoly/classes/card.ts:119-125 | the bill is a number exactly when both prices are numbers and every listed entry has both a house and a hotel count; it is 0 when no entry has a building, and non-negative for non-negative prices and counts |
| Cards.RepairCostOneMoreHouse | src/structures/monopoly/classes/card.ts:119-125 | each additional house raises the bill by exactly the per-house price |
| Cards.AddedPropertyBillsNaN | src/structures/monopoly/classes/card.ts:119-125 | a player holding any entry added by `addProperty` is billed NaN, whatever the prices |
| Cards.AdvanceAction | src/structures/monopoly/classes/card.ts:67-84 | a number moves by that many spaces modulo the board; 'utility' and 'railroad' go to the first such space in board order, whatever the current position; other amounts do nothing; an empty board gives NaN |
| Cards.ChargeAction | src/structures/monopoly/classes/card.ts:86-145 | 'pay', 'spend', 'fine' and 'tax' subtract exactly the amount with no funds check; an amount that does not read as a number leaves the money NaN, which is reported |
| Cards.CollectAction | src/structures/monopoly/classes/card.ts:91-94 | adds exactly a numeric amount; a text or list amount turns the money into text, which is reported |
| Cards.FirstNamed | src/structures/monopoly/classes/card.ts:101 | the first space with that name, or -1 exactly when there is none |
| Cards.MoveAction | src/structures/monopoly/classes/card.ts:96-107 | a number moves by that many spaces; a name goes to the first space with that name, if any |
| Cards.JailAction | src/structures/monopoly/classes/card.ts:109-112 | sets the jail flag and touches nothing else, so the position is unchanged |
| Cards.BackAction | src/structures/monopoly/classes/card.ts:114-117 | moves back by the amount read as a number, modulo the board with JavaScript remainder; an amount that is not a number, or an empty board, leaves the position NaN |
| Cards.RepairsAction | src/structures/monopoly/classes/card.ts:119-168 | deducts exactly the repair bill of the listed entries, the first amount per house and the second per hotel; a NaN bill (a missing count or price) leaves the money NaN, which is reported |
| Cards.JailCardAction | src/structures/monopoly/classes/card.ts:147-150 | adds exactly one get-out-of-jail card; a count never set stays NaN |
| Cards.JailCardsStayNaN | src/structures/monopoly/classes/card.ts:147-150 | a count that was never set stays undefined however many jail cards are drawn |
| Cards.PassEach | src/structures/monopoly/classes/card.ts:127-160 | the balances after the pass are `SpendEachBalances` or `EarnEachBalances` of the old ones; a drawer missing from the list pays, or is paid, once per listed player |
| Cards.SpendEachPlayerAction | src/structures/monopoly/classes/card.ts:127-135 | the drawer pays each other player the amount: the balances are `SpendEachBalances` of the old ones, so the total is conserved (`SpendEachConserves`); a drawer missing from the list pays every listed player |
| Cards.EarnEachPlayerAction | src/structures/monopoly/classes/card.ts:152-160 | each other player pays the drawer the amount: the balances are `EarnEachBalances` of the old ones; a drawer missing from the list is paid by every listed player |
| Cards.ApplyCard | src/structures/monopoly/classes/card.ts:15-51 | runs the action the constructor chose and has, action by action, exactly that action's outcome and effect (charges, collections, repair bills, moves, jail, the card count, the each-player passes); actions that concern only the drawer leave every other player's money alone; no card changes anyone's properties or name, nor any other player's position, jail flag or card count; a card of unknown type changes nothing |
| MonopolyGames.RollDice | src/structures/monopoly/classes/monopoly.ts:29-31 | the roll is the sum of two faces 1..6 drawn from the random numbers, so it lies in [2, 12] |
| MonopolyGames.FirstOfKind | src/structures/monopoly/classes/monopoly.ts:73 | the index of the first space of the type, or -1 exactly when there is none |
| MonopolyGames.MonopolyGame.constructor | src/structures/monopoly/classes/monopoly.ts:10-14 | a fresh turn manager over the same players, at index 0 with no turns played |
| MonopolyGames.MonopolyGame.HandleSpace | src/structures/monopoly/classes/monopoly.ts:33-49 | off the board it throws and changes nothing; a tax space charges exactly its cost, or leaves the money NaN without one; a 'jail' space sends the player to the first jail space; property, chance, community-chest and other spaces change no state |
| MonopolyGames.MonopolyGame.HandleTax | src/structures/monopoly/classes/monopoly.ts:66-70 | money decreases by exactly the space's cost; a missing cost leaves the money NaN, which is reported |
| MonopolyGames.MonopolyGame.SendToJail | src/structures/monopoly/classes/monopoly.ts:72-75 | the position becomes the index of the first 'jail' space (-1 without one), and nothing else changes |
| MonopolyGames.MonopolyGame.NextTurn | src/structures/monopoly/classes/monopoly.ts:17-27 | the current player moves by the roll modulo the board and the space is applied; the turn then advances exactly once, also when the space left the money NaN; an exception stops the turn before it passes; only the current player changes, and only in money and position |
| GameManagers.GameManager.constructor | src/structures/monopoly/classes/gameManager.ts:8 | the registry starts empty |
| GameManagers.GameManager.GetGameForChannel | src/structures/monopoly/classes/gameManager.ts:15-17 | the registered game, or null exactly for an unregistered channel |
| GameManagers.GameManager.AddGameForChannel | src/structures/monopoly/classes/gameManager.ts:24-26 | afterwards the channel yields that game, replacing any earlier one, and other channels are unchanged |
| GameManagers.GameManager.PlayTurn | src/structures/monopoly/classes/gameManager.ts:32-47 | an unknown channel changes nothing; for a known game the turn manager advances exactly once, whether or not a computer player's move throws; a current computer player ends as `MoveMade` states for the roll (jail release, move, landing), and every other player, and a current human player, is unchanged |
| BoardSpaces.BoardSpace.constructor | src/structures/monopoly/classes/boardSpace.ts:60-73 | every field of the record is copied unchanged |
| BoardSpaces.BoardSpace.IsMortgaged | src/structures/monopoly/classes/boardSpace.ts:79-81 | false without an owner; otherwise the owning player's record of the name; true only when the owner lists that name as mortgaged |
| BoardSpaces.ConvertToPropertyAsWritten | src/structures/monopoly/classes/boardSpace.ts:6-19 | the record handed to the Property constructor carries name, rent, mortgage, colour and house price, but no price and no rent list |
| BoardSpaces.ConvertDropsPrice | src/structures/monopoly/classes/boardSpace.ts:6-19 | a priced, unowned space loses its price in the conversion |
| BoardSpaces.ConvertToProperty | src/structures/monopoly/classes/boardSpace.ts:6-19 | a fresh, valid property with the space's name, price, mortgage, colour, rents and house price, unowned, undeveloped and unmortgaged |
| BoardProperties.GetHotel | src/structures/monopoly/classes/boardProperties.ts:62-64 | the fifth multiplied rent, undefined when the list is shorter |
| BoardProperties.NewMonopolyProperty | src/structures/monopoly/classes/boardProperties.ts:15-61 | every getter returns the argument the property was built from, and it starts unmortgaged |
| BoardProperties.IsOwned | src/structures/monopoly/classes/boardProperties.ts:28-30 | true iff the entry's owner id equals the player's user id; a missing owner throws |
| AIPlayers.JailRelease | src/structures/monopoly/classes/AIPlayer.ts:113-125 | a jailed AI uses a card if it has one, and otherwise pays 50 if it can; it stays jailed only with no card and less than 50; it never acts when free; cards and money never go negative |
| AIPlayers.HandleJailSituation | src/structures/monopoly/classes/AIPlayer.ts:113-125 | the jail fields after the call are `JailRelease` of those before |
| AIPlayers.UnsetCardsNeverFree | src/structures/monopoly/classes/AIPlayer.ts:113-125 | a player whose card count was never set never leaves jail by a card, whatever jail cards it draws: it pays the fee when it can and stays jailed otherwise |
| AIPlayers.SpaceHolding | src/structures/monopoly/classes/AIPlayer.ts:42 | the entry the AI lists when it buys is the space itself, undeveloped |
| AIPlayers.BuyProperty | src/structures/monopoly/classes/AIPlayer.ts:39-46 | with saving defined: buys only when the money covers the price (`Purchased`): deducts the price, lists the space and records the AI's name as owner; otherwise nothing changes, so money never goes negative |
| AIPlayers.BuyPropertyAsWritten | src/structures/monopoly/classes/AIPlayer.ts:39-47 | the same purchase, after which the save throws: it throws exactly when the AI could pay, with the purchase kept, and ends normally otherwise |
| AIPlayers.GroupMembers | src/structures/monopoly/classes/AIPlayer.ts:55 | the board spaces whose group includes the number; it throws iff some space has no group |
| AIPlayers.BuildOn | src/structures/monopoly/classes/AIPlayer.ts:55-63 | a house is built exactly when the entry's group is read without error, the AI owns every space of it, and its money covers the entry's house price; it then costs exactly that price and adds one house; otherwise nothing changes; on a board with spaces a missing group throws, and on an empty board the group is never read, so the AI builds exactly when its money covers the house price; money stays non-negative |
| AIPlayers.BuildOnAsWritten | src/structures/monopoly/classes/AIPlayer.ts:55-62 | the same money and entry as `BuildOn`, but a house built is followed by the save's exception: it throws exactly when `BuildOn` throws or builds, and otherwise ends normally with nothing changed |
| AIPlayers.ManageFromKeepsMoney | src/structures/monopoly/classes/AIPlayer.ts:53-65 | building over the whole list never makes the AI's money negative |
| AIPlayers.ManageFromEntries | src/structures/monopoly/classes/AIPlayer.ts:53-65 | the pass, with or without saving, keeps the list's length, names and groups, and each entry gains at most one house |
| AIPlayers.AsWrittenBuildsAtMostOnce | src/structures/monopoly/classes/AIPlayer.ts:53-65 | as written the pass builds at most one house: it ends normally only with the money and list unchanged, and otherwise stops with the save's exception right after the first entry it builds on, every later entry untouched |
| AIPlayers.SaveStopsAfterFirstHouse | src/structures/monopoly/classes/AIPlayer.ts:53-65 | an AI with 1000 and two entries with houses at 50: as written it builds one house, keeps 950 and throws; with saving defined it builds both and keeps 900 |
| AIPlayers.ManageProperties | src/structures/monopoly/classes/AIPlayer.ts:53-65 | with saving defined, the loop leaves exactly the outcome, money and list of the full pass `ManageFrom`, whose properties are the two lemmas above |
| AIPlayers.ManagePropertiesAsWritten | src/structures/monopoly/classes/AIPlayer.ts:53-65 | the loop as written leaves exactly the outcome, money and list of the as-written pass, which builds at most one house (`AsWrittenBuildsAtMostOnce`) |
| AIPlayers.ExecuteTrade | src/structures/monopoly/classes/AIPlayer.ts:96-108 | with saving defined: succeeds iff the buyer has 120% of the price; then the buyer pays it to the AI, lists the property, and the AI drops it; otherwise nothing changes; the two players' money is conserved (`TradeSettled`) |
| AIPlayers.ExecuteTradeAsWritten | src/structures/monopoly/classes/AIPlayer.ts:96-108 | the same exchange, after which the buyer's save throws: the promise rejects exactly when the buyer could pay, with the exchange kept, and otherwise resolves to false with nothing changed |
| AIPlayers.MakeMove | src/structures/monopoly/classes/AIPlayer.ts:21-29 | with saving defined: jail is resolved first, then the AI moves by the roll modulo the board and the space is applied (`MoveMade`); it throws exactly when the landing throws, and an empty board throws after the jail step |
| AIPlayers.MakeMoveAsWritten | src/structures/monopoly/classes/AIPlayer.ts:21-33 | the same move, after which `game.savePlayerData` throws: every move ends in an exception, the save's exactly when the board has spaces and the landing itself does not throw |
| GuardedPlayers.PassingGo | src/structures/monopoly/classes/player.ts:148-155 | a forward move shorter than the board lands on the board, and the new index is lower than the old one (the Go-bonus condition) exactly when the move passes Go |
| GuardedPlayers.BackwardMovePaysGoBonus | src/structures/monopoly/classes/player.ts:148-155 | a move of −3 lands on a lower index (from space 3 or beyond) or on a negative one, so the bonus condition fires on a backward move |
| GuardedPlayers.StepBack | src/structures/monopoly/classes/player.ts:148-155 | a backward move as intended wraps to the end of the board and pays no bonus |
| GuardedPlayers.AfterPayment | src/structures/monopoly/classes/player.ts:177-183 | the amount is taken only when the balance covers it; otherwise the balance is unchanged, so a non-negative balance stays non-negative |
| GuardedPlayers.PaymentsNeverOverdraw | src/structures/monopoly/classes/player.ts:177-183 | however many guarded payments are made, a non-negative balance stays non-negative and never grows |
| GuardedPlayers.RepairBillByTotals | src/structures/monopoly/classes/player.ts:132-142 | the per-property bill equals total houses × house rate + total hotels × hotel rate |
| GuardedPlayers.RepairBillAppend | src/structures/monopoly/classes/player.ts:137-138 | the bills of two lists add up |
| GuardedPlayers.RepairBillBounds | src/structures/monopoly/classes/player.ts:132-142 | properties without buildings cost nothing; non-negative rates and counts give a non-negative bill |
| GuardedPlayers.ArrayKey | src/structures/monopoly/classes/player.ts:189-209 | a string reaches an array record only if it starts with a digit; a single digit names that index |
| GuardedPlayers.ArraySlot | src/structures/monopoly/classes/player.ts:189 | what an array answers for a key: the element at the index the key spells, its length for "length", an inherited member for the names arrays and objects carry, undefined for anything else, so a name starting with a letter that is neither "length" nor a member is undefined |
| GuardedPlayers.LookUpAsWritten | src/structures/monopoly/classes/player.ts:189-209 | indexing the record array by a key finds a record exactly when `ArraySlot` gives an element, and then the record at the index the key spells |
| GuardedPlayers.LookUp | src/structures/monopoly/classes/player.ts:188-223 | the first record with that name, or -1 exactly when none has it |
| GuardedPlayers.SetMortgaged | src/structures/monopoly/classes/player.ts:201-221 | sets the flag of one record and keeps every other record |
| GuardedPlayers.SetSameFlag | src/structures/monopoly/classes/player.ts:196-219 | setting a flag to the value it has changes nothing |
| GuardedPlayers.LookUpIgnoresFlags | src/structures/monopoly/classes/player.ts:188-223 | the name lookup does not depend on mortgage flags |
| GuardedPlayers.MortgageRoundTrip | src/structures/monopoly/classes/player.ts:188-223 | mortgaging an owned, unmortgaged property by name and then unmortgaging it restores the records |
| GuardedPlayers.NamesAreNotArrayKeys | src/structures/monopoly/classes/player.ts:189-209 | a name not starting with a digit reaches no record, so the toggles as written change nothing |
| GuardedPlayers.BalticAvenueIsMissed | src/structures/monopoly/classes/player.ts:188-203 | for a player holding only Baltic Avenue, the name lookup finds it but the array lookup does not |
| GuardedPlayers.FirstOwned | src/structures/monopoly/classes/player.ts:280-281 | the first record owned by the username, or -1 exactly when none is |
| GuardedPlayers.ReleaseOneLess | src/structures/monopoly/classes/player.ts:283 | clearing one owned record lowers the owned count by exactly one |
| GuardedPlayers.Player.constructor | src/structures/monopoly/classes/player.ts:85-90 | only name, balance and id are set: the position and the two counters are undefined, the flags read as false, and the records and username are unset |
| GuardedPlayers.Player.CurrentSpace | src/structures/monopoly/classes/player.ts:95-97 | the space at the position, undefined exactly when the position is undefined or off the board |
| GuardedPlayers.Player.IncrementDoublesCount | src/structures/monopoly/classes/player.ts:101-103 | the doubles counter grows by one; an undefined counter stays NaN |
| GuardedPlayers.Player.ResetDoublesCount | src/structures/monopoly/classes/player.ts:108-110 | the doubles counter becomes 0 |
| GuardedPlayers.Player.IncrementRollsCount | src/structures/monopoly/classes/player.ts:115-117 | the jailed-rolls counter grows by one; an undefined counter stays NaN |
| GuardedPlayers.Player.GetOutOfJail | src/structures/monopoly/classes/player.ts:122-124 | the player is no longer jailed |
| GuardedPlayers.Player.CalculateRepairCost | src/structures/monopoly/classes/player.ts:132-142 | Σhouses × house rate + Σhotels × hotel rate without mutating anything; it throws exactly when the records are unset |
| GuardedPlayers.Player.Move | src/structures/monopoly/classes/player.ts:148-157 | the position becomes (position + steps) with JavaScript remainder by the board length, NaN when either is undefined or NaN or the board is empty; 200 is credited exactly when both positions are numbers and the new one is lower; reading the space then throws exactly when there is no space at the new position |
| GuardedPlayers.UnsetPositionStaysUnset | src/structures/monopoly/classes/player.ts:148-157 | a player whose position was never set keeps an undefined position through any sequence of moves |
| GuardedPlayers.Player.ReceiveMoney | src/structures/monopoly/classes/player.ts:162-164 | the balance grows by exactly the amount |
| GuardedPlayers.Player.GoToJail | src/structures/monopoly/classes/player.ts:168-172 | doubles reset to 0, jailed, and on space 10 |
| GuardedPlayers.Player.PayMoney | src/structures/monopoly/classes/player.ts:177-183 | the new balance is `AfterPayment` of the old one: deducted only when covered, so it never turns negative |
| GuardedPlayers.Player.ToggleMortgageAsWritten | src/structures/monopoly/classes/player.ts:188-203 | the records are indexed by the name: on non-empty records "length" throws setting a flag on a number; otherwise only an index-like name sets a record's flag; undefined records throw; the balance is never touched |
| GuardedPlayers.Player.ToggleUnmortgageAsWritten | src/structures/monopoly/classes/player.ts:208-223 | the same lookup, clearing the flag; "length" and inherited members end normally with no record changed |
| GuardedPlayers.Player.ToggleMortgage | src/structures/monopoly/classes/player.ts:188-203 | an owned, unmortgaged property becomes mortgaged; an unknown name or an already mortgaged property changes nothing; the balance is never touched |
| GuardedPlayers.Player.ToggleUnmortgage | src/structures/monopoly/classes/player.ts:208-223 | the inverse of `ToggleMortgage`, so mortgage then unmortgage restores the flag (`MortgageRoundTrip`) |
| GuardedPlayers.Player.Jail | src/structures/monopoly/classes/player.ts:230-244 | jailed, whatever the reason |
| GuardedPlayers.Player.Free | src/structures/monopoly/classes/player.ts:251-273 | released; reason "card" clears both freedom flags, and other reasons keep them |
| GuardedPlayers.Player.ReleaseProperty | src/structures/monopoly/classes/player.ts:279-291 | only the first record owned by the username loses its owner, and no other record changes; the owned count drops by one |
| GuardedCards.Draw | src/structures/monopoly/classes/chance.ts:30-33 | a draw is undefined exactly for an empty pile; otherwise it is a card of the pile |
| GuardedCards.LexGreaterStrict | src/structures/monopoly/classes/chance.ts:85 | the string comparison the advance card uses is strict: no name beats itself, and of two names at most one beats the other |
| GuardedCards.ClosestOfKind | src/structures/monopoly/classes/chance.ts:107-122 | -1 exactly when the board has no space of the type; otherwise a space of the type, strictly closer than every earlier one of the type and no farther than any other |
| GuardedCards.FindClosest | src/structures/monopoly/classes/chance.ts:107-143 | the forward pass that keeps the first strictly closer space ends on `ClosestOfKind` |
| GuardedCards.ClosestIsUnique | src/structures/monopoly/classes/chance.ts:107-122 | the properties of `ClosestOfKind` determine one index, so any index with them is the one the search returns |
| GuardedCards.Earn | src/structures/monopoly/classes/chance.ts:149-151 | a numeric amount is credited and nothing else happens; a NaN amount leaves the balance NaN, which is reported |
| GuardedCards.Spend | src/structures/monopoly/classes/chance.ts:191-231 | the balance after is the guarded payment of the amount; a NaN amount changes nothing; a non-negative balance stays non-negative |
| GuardedCards.JailCard | src/structures/monopoly/classes/chance.ts:156-158 | the chance freedom flag is set afterwards, whichever pile drew the card |
| GuardedCards.Repairs | src/structures/monopoly/classes/chance.ts:179-185 | the bill is computed and never charged; it throws exactly when one of the two amount elements is missing, or, in the awaiting copy, when the player has no property records (the other copy does not wait for that throw) |
| GuardedCards.SpendEachPlayer | src/structures/monopoly/classes/chance.ts:200-215 | it fails exactly for an undefined or empty list; otherwise each listed player pays once per time it is listed and the result is the amount times the list length; a NaN amount gives NaN and changes nobody |
| GuardedCards.PayEach | src/structures/monopoly/classes/chance.ts:210-212 | each listed player's balance is the guarded payment repeated once per occurrence in the list |
| GuardedCards.CountStep | src/structures/monopoly/classes/chance.ts:210-212 | one more step of the loop counts the current player once more and nobody else |
| GuardedCards.ChanceCardHandler.constructor | src/structures/monopoly/classes/chance.ts:22-25 | holds the card file, the board file and which copy it is; its player list is undefined |
| GuardedCards.ChanceCardHandler.DrawChanceCard | src/structures/monopoly/classes/chance.ts:30-33 | undefined exactly for an empty card file, otherwise a card of the file |
| GuardedCards.ChanceCardHandler.FindClosestUtility | src/structures/monopoly/classes/chance.ts:107-122 | the closest utility as `ClosestOfKind` defines it |
| GuardedCards.ChanceCardHandler.FindClosestRailroad | src/structures/monopoly/classes/chance.ts:128-143 | the closest railroad as `ClosestOfKind` defines it |
| GuardedCards.ChanceCardHandler.HandleAdvance | src/structures/monopoly/classes/chance.ts:81-101 | a number off the board file throws with nothing changed; on the file the player moves by `Number` of that space's name (NaN for a street name), with the Go bonus when the move passes Go and a second 200 when the new space's name is greater; the throw of a missing space reaches the caller only in the awaiting copy; 'utility' and 'railroad' credit 200 and move to the closest index when there is one; other amounts change nothing |
| GuardedCards.ChanceCardHandler.HandleChanceCard | src/structures/monopoly/classes/chance.ts:39-75 | each known type has the effect of its handler on the drawing player (earn, guarded spend/fine/tax, the freedom flag, jail on space 10 with the doubles reset, the move of -3 with its bonus, repairs that never charge, spend-each that throws on the undefined list); a move or repair throw reaches the caller only in the awaiting copy; an unknown type changes nothing |
| GuardedCards.CommunityCardHandler.constructor | src/structures/monopoly/classes/community.ts:16-21 | holds the card file and which copy it is; its player list is undefined |
| GuardedCards.CommunityCardHandler.DrawCommunityCard | src/structures/monopoly/classes/community.ts:27-30 | undefined exactly for an empty card file, otherwise a card of the file |
| GuardedCards.CommunityCardHandler.HandleAdvance | src/structures/monopoly/classes/community.ts:71-73 | the player moves by `Number(amount)` (NaN for a non-number), with the Go bonus when passing Go; the throw of a missing space reaches the caller only in the awaiting copy |
| GuardedCards.CommunityCardHandler.HandleCommunityCard | src/structures/monopoly/classes/community.ts:37-65 | each known type has its handler's effect; advance moves as `HandleAdvance` states; repairs read elements 0 and 1; earn-each-player runs the spend-each handler and throws on the undefined list; the jail card sets the chance flag; an unknown type changes nothing |
| CashPlayers.SetTileMortgaged | src/utils/monopoly/classes/player.ts:70-89 | only the flag of the one space changes; every other space is untouched |
| CashPlayers.TileAsWritten | src/utils/monopoly/classes/player.ts:65-84 | indexing the board array by a name finds a space exactly when `ArraySlot` gives an element of the board |
| CashPlayers.TileNamed | src/utils/monopoly/classes/player.ts:55-91 | the first board space bearing the name, or -1 exactly when none does |
| CashPlayers.TileNamedIgnoresFlags | src/utils/monopoly/classes/player.ts:55-91 | finding a space by name is unaffected by setting any mortgage flag |
| CashPlayers.TileMortgageRoundTrip | src/utils/monopoly/classes/player.ts:55-91 | mortgaging an unmortgaged space by name and then unmortgaging it by name restores the board |
| CashPlayers.Player.constructor | src/utils/monopoly/classes/player.ts:20-33 | at the start with 1500 in the balance, nothing in cash, no properties, free and without cards |
| CashPlayers.Player.CurrentTile | src/utils/monopoly/classes/player.ts:35-37 | the space stood on, defined exactly for a position on the board |
| CashPlayers.Player.Reply | src/utils/monopoly/classes/player.ts:47-52 | a report throws exactly when no interaction is attached |
| CashPlayers.Player.Earn | src/utils/monopoly/classes/player.ts:50-53 | the cash purse gains the amount (the balance never does), then the report |
| CashPlayers.Player.Move | src/utils/monopoly/classes/player.ts:39-48 | the landing is the JavaScript remainder of position plus steps (NaN on an empty board); a lower landing earns 200 cash first, and a throwing report then stops the move before the position changes; the balance never changes; a landing off the board throws |
| CashPlayers.Player.Pay | src/utils/monopoly/classes/player.ts:133-140 | the balance after is the guarded payment, so a non-negative balance stays non-negative; the report follows |
| CashPlayers.Player.ToggleMortgageAsWritten | src/utils/monopoly/classes/player.ts:55-72 | an unowned name changes nothing; for an owned name, an undefined slot throws reading the flag, "length" throws setting a flag on a number, an inherited member ends normally with the board unchanged, and an index makes that space mortgaged |
| CashPlayers.Player.ToggleUnmortgageAsWritten | src/utils/monopoly/classes/player.ts:74-91 | the same lookup: an undefined slot throws, "length" and inherited members end normally with the board unchanged, and an index makes that space unmortgaged |
| CashPlayers.Player.ToggleMortgage | src/utils/monopoly/classes/player.ts:55-72 | an owned property's board space of that name becomes mortgaged and nothing else changes; an unowned name changes nothing |
| CashPlayers.Player.ToggleUnmortgage | src/utils/monopoly/classes/player.ts:74-91 | the inverse of `ToggleMortgage` (`TileMortgageRoundTrip`) |
| CashPlayers.Player.Jail | src/utils/monopoly/classes/player.ts:93-107 | jailed; the report, and so a throw without an interaction, comes only for the three known reasons |
| CashPlayers.Player.Free | src/utils/monopoly/classes/player.ts:109-131 | released; four known reasons are reported; a release by card spends both freedom cards unless the report threw first |
| CashPlayers.Player.ReleaseProperty | src/utils/monopoly/classes/player.ts:142-154 | only the first record the username owns loses its owner, so the owned count drops by one; a name missing from the catalogue throws before any change |
| CashPlayers.BalticAvenueThrows | src/utils/monopoly/classes/player.ts:65 | a player owning Baltic Avenue cannot mortgage it as written: the toggle throws and the board keeps its flags |
| DiceGames.ThrowDice | src/utils/monopoly/classes/monopoly.ts:104-114 | two faces in 1..6, their sum in 2..12, and a double exactly when the faces agree |
| DiceGames.EveryThrowPossible | src/utils/monopoly/classes/monopoly.ts:104-114 | every pair of faces is produced by some pair of random numbers |
| DiceGames.ActiveCountOne | src/utils/monopoly/classes/monopoly.ts:80-83 | the number of players still in is 1 exactly when one entry has not left, and 0 exactly when all have left |
| DiceGames.Monopoly.constructor | src/utils/monopoly/classes/monopoly.ts:43-48 | no players, the first turn index, and fresh card handlers of the copy that does not await, whose player lists are undefined |
| DiceGames.Monopoly.AddPlayer | src/utils/monopoly/classes/monopoly.ts:60-62 | the player is appended at the end of the turn order |
| DiceGames.Monopoly.GameOverConditionMet | src/utils/monopoly/classes/monopoly.ts:80-83 | true exactly when one player is still in the game |
| DiceGames.Monopoly.CurrentPlayer | src/utils/monopoly/classes/monopoly.ts:91 | the player at the turn index, undefined exactly when the index is off the list |
| DiceGames.Monopoly.HandleJailLogic | src/utils/monopoly/classes/monopoly.ts:140-159 | as `JailRollDone` states: the attempt is counted; a double frees the player in place and keeps the turn; otherwise the turn passes; on the third attempt the guarded fine is paid and the player moves by the roll, with the Go bonus on passing, staying jailed; an attempt count never set stays NaN, never reaches three, and so never costs the fine |
| DiceGames.Monopoly.StandardRollLogic | src/utils/monopoly/classes/monopoly.ts:169-185 | as `StandardRollDone` states: the third double in a row jails the player on the jail space without moving; any other roll moves the player by the sum (with the Go bonus on passing), a non-double after resetting the count; a count in 0..2 stays in 0..2; a count never set stays NaN through doubles and never jails |
| DiceGames.Monopoly.PlayTurn | src/utils/monopoly/classes/monopoly.ts:89-130 | the current player rolls, and the turn passes exactly once unless the third double has just jailed the player; a jailed player ends as `JailRollDone` states (attempt counted, freed on a double, fined and moved on the third attempt) and a free one as `StandardRollDone` states (moved with the Go bonus, or jailed by the third double); every other player is unchanged; an index off the list throws with no player changed |
| DiceGames.Monopoly.HandlePropertyAsWritten | src/utils/monopoly/classes/monopoly.ts:192-209 | the rent lookup indexes the owner's record array by name: with no records, a name for which `ArraySlot` gives undefined, or a name the property table lacks, the landing throws before any money moves; otherwise the balances are those `RentCharged` describes |
| DiceGames.Monopoly.HandleProperty | src/utils/monopoly/classes/monopoly.ts:192-209 | the rent is the mortgage value for a mortgaged record of that name and the plain rent otherwise; the payer makes the guarded rent payment, the owner gets it in full, and the property is bought, or goes to auction exactly when the payer cannot then afford it; an unknown name throws with nothing changed; a NaN rent is refused by the payer, leaves the owner's balance NaN (reported), and the purchase step still runs |
| DiceGames.Monopoly.ChargeRent | src/utils/monopoly/classes/monopoly.ts:197-208 | the money part of a landing: the balances `RentCharged` describes, also when payer and owner are the same player; no current player throws with nothing changed; a NaN rent leaves the owner's balance NaN and is reported, and the purchase step still runs |
| DiceGames.Monopoly.HandleChanceCard | src/utils/monopoly/classes/monopoly.ts:252-255 | an empty pile throws before any change; otherwise the drawn card has exactly the effect `ChanceHandled` states for its handler (balance, position, jail, flag per type); the handlers' moves and bills are not awaited, so only the advance, repairs and spend-each cards can throw |
| DiceGames.Monopoly.HandleCommunityCard | src/utils/monopoly/classes/monopoly.ts:260-263 | the same for the community-chest pile, with the effect `CommunityHandled` states, where only the repairs and earn-each cards can throw |
| DiceGames.MortgagedStreetIsMissed | src/utils/monopoly/classes/monopoly.ts:195 | for an owner whose mortgaged record is Boardwalk, the lookup by name sees the flag while the lookup as written finds nothing |
| Sessions.Capitalize | src/utils/monopoly/session.ts:413-415 | every character is upper-cased where it stands, so no lower-case letter is left and the length is kept |
| Sessions.CapitalizeIdempotent | src/utils/monopoly/session.ts:413-415 | capitalizing twice is capitalizing once |
| Sessions.CapitalizeKeepsDashes | src/utils/monopoly/session.ts:413-415 | capitalizing keeps every dash |
| Sessions.Format | src/utils/monopoly/session.ts:409-411 | one dash fewer when there is one (only the first is removed), the length shrinking by one with it; a string without dashes keeps its length |
| Sessions.DashCount | src/utils/monopoly/session.ts:410 | the first dash exists exactly when the string has dashes, and removing it removes exactly one |
| Sessions.ThrowDiceAsWritten | src/utils/monopoly/session.ts:299-308 | faces in 1..5, their sum, and a double exactly when the faces agree |
| Sessions.SixIsNeverThrown | src/utils/monopoly/session.ts:300-301 | no random number gives a six or a total above ten, while the six-sided throw reaches both |
| Sessions.TotalOf | src/utils/monopoly/session.ts:318 | the total of n throws lies between 2n and 12n |
| Sessions.DoublesOf | src/utils/monopoly/session.ts:319-321 | the doubles among n throws are at most n |
| Sessions.ThrowsStep | src/utils/monopoly/session.ts:315-322 | one more throw adds its sum to the total and its double to the count |
| Sessions.StreakLength | src/utils/monopoly/session.ts:324-334 | a turn's throws run up to and including the first non-double, at most three; all earlier throws are doubles |
| Sessions.Player.constructor | src/utils/monopoly/player.ts:18-29 | 1500 in cash on Go, free, without cards and with no turns in jail |
| Sessions.Player.CanBeFreed | src/utils/monopoly/player.ts:31-33 | true exactly when the player holds at least one release card |
| Sessions.Player.Tile | src/utils/monopoly/player.ts:35-37 | the tile under the player, defined exactly for a position on the board |
| Sessions.Player.Earn | src/utils/monopoly/player.ts:63-66 | the cash grows by the amount |
| Sessions.Player.Pay | src/utils/monopoly/player.ts:112-115 | the cash drops by the amount, unguarded, so it may go negative |
| Sessions.Player.Advance | src/utils/monopoly/player.ts:39-55 | the position wraps once by the board length; reaching or passing Go pays 200 exactly once; passing Go throws after the bonus when one wrap leaves the position off the board |
| Sessions.Player.GoBack | src/utils/monopoly/player.ts:98-104 | the position drops by the steps and wraps once below zero; no bonus |
| Sessions.Player.Buy | src/utils/monopoly/player.ts:57-62 | the price is a truthy amount, else the tile's cost; the player pays it, owns the tile and the session records the purchase; a missing price leaves the cash NaN, which is reported, and the purchase is still recorded |
| Sessions.Player.Jail | src/utils/monopoly/player.ts:68-77 | jailed, whatever the reason |
| Sessions.Player.Free | src/utils/monopoly/player.ts:79-96 | released; freed by a card, exactly one card is given up, the community card first; otherwise the cards are kept |
| Sessions.Player.ReleaseProperty | src/utils/monopoly/player.ts:117-122 | the tile loses its owner; with `getMoney` half its cost is earned, and a tile without a cost leaves the cash NaN, which is reported |
| Sessions.AdvanceIsModular | src/utils/monopoly/player.ts:39-55 | on the board and moving by at most a lap, advancing is addition modulo the board length, and the 200 is paid exactly when the move wraps or ends on Go |
| Sessions.GoBackIsModular | src/utils/monopoly/player.ts:98-104 | on the board and going back by at most a lap, the move is subtraction modulo the board length |
| Sessions.GoBackMinusThreeLeavesBoard | src/utils/monopoly/player.ts:98-102 | a negative step count moves forward and never wraps: from tile 38 of 40 it leaves the board |
| Sessions.ZeroBidPaysCost | src/utils/monopoly/player.ts:58 | a winning bid of 0, or no bid, makes the buyer pay the full cost |
| Sessions.TogglerIsRoundRobin | src/utils/monopoly/session.ts:43-53 | the toggler's (k+1)-th value is entry k mod n of the turn order |
| Sessions.SaleValueNonNegative | src/utils/monopoly/session.ts:419-428 | with non-negative costs, what selling back raises is never negative, and it is 0 when the player owns no recorded tile |
| Sessions.JailOptions | src/utils/monopoly/session.ts:153-162 | the options counted before the message is built: one to three, waiting always, the fine exactly when the cash covers 50, a card exactly when one is held |
| Sessions.Session.constructor | src/utils/monopoly/session.ts:29-42 | no players, nothing owned, 12 hotels and 32 houses, both release cards in the pool, not started |
| Sessions.Session.AddPlayer | src/utils/monopoly/session.ts:55-67 | a named user gets a fresh player with 1500 under their id, even when already registered; no user adds nobody; ids keep distinct players |
| Sessions.Session.RemovePlayer | src/utils/monopoly/session.ts:357-369 | null without a user; otherwise whether the id was registered, and the id is gone afterwards |
| Sessions.Session.ClearPlayerList | src/utils/monopoly/session.ts:68-74 | true exactly when someone was registered; nobody is left |
| Sessions.Session.StartGame | src/utils/monopoly/session.ts:390-394 | the session is marked started and the turn order computation throws |
| Sessions.Session.NextInTurn | src/utils/monopoly/session.ts:43-53 | the first call yields entry 0, each later call the next entry modulo the length; an undefined order throws with the counter unchanged and finishes the generator, which then yields undefined on every later call |
| Sessions.Session.MakeDiceRoll | src/utils/monopoly/session.ts:310-340 | with a truthy count exactly that many throws (none when negative) are totalled and their doubles counted; otherwise throws continue to the first non-double or the third double, and three doubles are counted exactly when the third throw is a double |
| Sessions.Session.RollTimes | src/utils/monopoly/session.ts:314-322 | the counted loop totals the given number of throws and counts their doubles |
| Sessions.Session.RollStreak | src/utils/monopoly/session.ts:323-335 | the open loop totals the throws of `StreakLength` and counts their doubles |
| Sessions.Session.KillPlayer | src/utils/monopoly/session.ts:277-290 | the player's id is removed and each release card the player holds returns to the pool; ids keep distinct players; the closing report then throws, because the session's channel is never assigned |
| Sessions.Session.ManageBankruptPlayer | src/utils/monopoly/session.ts:418-444 | always throws: at once when the collection has no `keyArray` (discord.js 13 and later); otherwise building the sale offer throws when the owned tiles' half-costs cover the debt, and the report through the unassigned channel throws when they do not, both with nothing changed; a player owning no recorded tile is removed as `KillPlayer` states before its report throws |
| Sessions.Session.HandleJailedPlayer | src/utils/monopoly/session.ts:144-177 | before the third turn, building the options message throws (`createEmbed` is not imported) with the player still jailed and nothing changed; at the third the player is freed, and a double ends the turn with no fine and no move; otherwise the fine is paid and the fresh turn is the one `FreeTurn` states |
| Sessions.Session.ExecuteTurn | src/utils/monopoly/session.ts:75-89 | a jailed player goes through the jail decision: it throws before the third turn, and at the third a double frees the player with no move, any other throw costs the fine and a fresh turn whose tile is resolved as `TileResolved` states; a free player is jailed in place by three doubles, and otherwise advances by the turn's total and the tile is resolved as `TileResolved` states |
| Sessions.Session.FreeTurn | src/utils/monopoly/session.ts:80-88 | three doubles jail the player without moving or paying; otherwise the player advances by the total with the Go bonus, a wrap off the board throws, and the tile reached is resolved as `TileResolved` states |
| Sessions.Session.HandleTileAction | src/utils/monopoly/session.ts:178-207 | exactly one branch by the tile, as `TileResolved` states: Go To Jail jails, a tax charges its cost (a missing cost leaves NaN), Go and free parking change nothing, and each of the three then throws flushing the messages before the hand-over; card tiles throw naming the deck of their kind (`Community` or `Chance`); railroads and properties go through `handleProperty` as written; any other tile stalls; off the board throws |
| Sessions.Session.HandlePropertyAsWritten | src/utils/monopoly/session.ts:222-269 | on one's own tile the flush before handing the turn on throws; on another player's tile the lander pays the rent and the call to `owner.receive` throws, the owner never credited; an unowned tile the lander can pay for throws building the purchase offer, and the auction of any other unowned tile throws in its flush |
| Sessions.Session.HandleProperty | src/utils/monopoly/session.ts:222-269 | on another's tile exactly the rent moves from lander to owner, with bankruptcy for a lander in debt, and a missing rent (NaN for both) passes the turn; on one's own tile no money moves; an unowned tile the lander can pay for throws building the purchase offer, and any other is auctioned; nobody else's cash changes |
| ChanceCards.GetDistance | src/utils/monopoly/chance.ts:8-13 | the destination is kept and the distance is the absolute difference: zero exactly for the same position, and one step of it leads from the position to the destination |
| ChanceCards.DistanceIsSymmetric | src/utils/monopoly/chance.ts:8-13 | the distance does not depend on the direction |
| ChanceCards.ReceiveAmount | src/utils/monopoly/chance.ts:95-112 | exactly the three receive cards pay, with 150, 100 or 50 |
| ChanceCards.Build | src/utils/monopoly/chance.ts:15-112 | each key of the table builds its card; the jail card jails the drawer while it is built; the nearest-utility card always throws; the release card throws in the utility copy (`src/utils/functions.ts:66-76`) and builds in the session copy |
| ChanceCards.GoBack3SpacesAsWritten | src/utils/monopoly/chance.ts:79-87 | the position is `goBack(-3)` of the old one: from any tile at or after Go the player ends three tiles further on, never wrapping |
| ChanceCards.MoveBack3Spaces | src/utils/monopoly/chance.ts:79-87 | the player goes back three tiles, wrapping below Go without a bonus, and stays on a board of at least three tiles |
| ChanceCards.Apply | src/utils/monopoly/chance.ts:15-126 | advancing to Go lands on Go with 200 paid once from any position; the advance-to-tile and jail cards throw with nothing changed; the release card goes to the drawer only while the pool has it and then leaves the pool; the receive cards pay their amount; paying all players throws exactly when someone is registered; going back three spaces is `goBack(-3)`, three tiles forward, and the session copy then throws |
| ChanceCards.DrawCard | src/utils/monopoly/chance.ts:143-148 | the next key of the generator chosen by whether the pool has the chance release card; a non-empty order always yields one of its keys, and the release card is never drawn once it left the pool |
| CommunityCards.EarnAmount | src/utils/monopoly/community.ts:51-128 | exactly the seven paying cards pay, each between 10 and 200 |
| CommunityCards.Build | src/utils/monopoly/community.ts:17-144 | every key of the table builds a card; the Go card moves the drawer onto Go while it is built and carries an advance of zero; paying cards carry 50; the two collecting cards carry 10 and 50 |
| CommunityCards.Apply | src/utils/monopoly/community.ts:17-144 | paying and earning cards move the cash by their amount; the Go card, built on Go, moves nothing and pays nothing; the release card changes nothing; the collecting cards throw exactly when someone is registered, with the drawer's cash unchanged |
| CommunityCards.CollectFromEachAsWritten | src/utils/monopoly/community.ts:100-144 | the loop over the session's entries throws exactly when someone is registered, and the drawer's cash never changes |
| CommunityCards.OthersExactly | src/utils/monopoly/community.ts:105-110 | a set holding exactly the ids of players other than the drawer is the set of the others |
| CommunityCards.CollectFromEach | src/utils/monopoly/community.ts:100-144 | every registered player other than the drawer pays the amount, and the drawer earns the amount once per other player |
| CommunityCards.TakeReleaseCard | src/utils/monopoly/community.ts:39-49 | the drawer holds the release card afterwards exactly when they held it or the pool did, and the pool no longer has it |
| CommunityCards.AdvanceToGo | src/utils/monopoly/community.ts:17-22 | from any tile the drawer lands on Go and is paid the Go bonus once |
| CommunityCards.SameKeys | src/utils/monopoly/abstractStack.ts:6-8 | two orders of the same keys have the same length and members |
| CommunityCards.TableKeys | src/utils/monopoly/community.ts:146-161 | a stack built from the table holds its twelve keys only, and keys other than the release card |
| CommunityCards.DrawCard | src/utils/monopoly/community.ts:163-171 | the next key of the generator chosen by whether the pool has the community release card: always a key of the stack for the table, and never the release card once it left the pool |
| CardStacks.MoveToEnd | src/utils/monopoly/abstractStack.ts:38-41 | the length is kept and the drawn element ends up last |
| CardStacks.MoveToEndPermutes | src/utils/monopoly/abstractStack.ts:38-41 | moving one element to the end keeps every element, as many times |
| CardStacks.ShuffledBy | src/utils/monopoly/abstractStack.ts:36-44 | the order after any number of draws has the original length |
| CardStacks.StepPermutes | src/utils/monopoly/abstractStack.ts:37-42 | one draw keeps every element, as many times |
| CardStacks.ShufflePermutes | src/utils/monopoly/abstractStack.ts:36-44 | any number of draws keeps every element, as many times |
| CardStacks.Shuffle | src/utils/monopoly/abstractStack.ts:36-44 | the loop's result is the order `ShuffledBy` gives, a permutation of the keys |
| CardStacks.CardlessDropsOnlyTheCard | src/utils/monopoly/abstractStack.ts:7 | the cardless order lacks the release card, keeps every other key, and is shorter by the release card's occurrences |
| CardStacks.AbstractStack.constructor | src/utils/monopoly/abstractStack.ts:4-26 | the cardful order is a permutation of the keys and the counter starts at 0 |
| CardStacks.AbstractStack.SelectToggler | src/utils/monopoly/abstractStack.ts:28-33 | a truthy flag chooses the cardful order; otherwise the cardless one, which lacks the release card |
| CardStacks.AbstractStack.Next | src/utils/monopoly/abstractStack.ts:9-23 | the shared counter moves on and wraps to 0 at the chosen order's length, and the key at the new counter is yielded; so the first call yields entry 1 |

## Left out

- Chat and rendering: replies, embeds, message collectors, timers and command wiring are not modelled. An operation that only reports is a method that changes nothing (`MonopolyGames.MonopolyGame.HandleProperty`, `HandleChance`, `HandleCommunityChest`). Where a report throws, that throw is kept as the outcome after the changes made before it: the dice-game player's `interaction.reply`, and in the session engine `createEmbed` (`Sessions.NO_EMBED`), `flushMessages()` (`Sessions.NO_FLUSH`), `sendMessage` (`Sessions.NO_CHANNEL`) and `keyArray()` (`Sessions.NO_KEY_ARRAY`).
- `src/utils/monopoly/message.ts` is not part of this model. The session calls its handler's `flushMessages` without the message list it maps over (`session.ts:378-380`), so every flush throws at once; the session's `channel` is never assigned (the constructor, `session.ts:29-41`, leaves it undefined), so every `sendMessage` (`session.ts:386-388`) throws.
- Asynchronous orchestration is left out because it is driven by chat events, not by the rules. That covers `Monopoly.startGame`, `manageTurns` and `startAuction`; the session's `handleAuction`, `handleBankruptcy`, `manageTurn`, `toggleTurns`, `decideBehavior` and `endGame`; and the collector callbacks of the jail options, the purchase offer and the sale offer. None of them is ever started by the session: handing the turn on, the auction and the bankruptcy procedure all begin with a flush that throws, and the three callbacks are never reached because `session.ts` never imports `createEmbed` and building their message throws first (lines 170, 244 and 431). The `Next` value is what the corrected `Sessions.Session.HandleProperty` would start; the as-written steps report the throw.
- The module-level board and card file loads are left out. Boards and card files are parameters. What a save in `AIPlayer.ts` would store is not modelled: no class defines the saving methods it calls, so the as-written members throw there.
- GameManagers.GameManager.PlayTurn: the AI's move is not awaited, so its exception becomes an unhandled promise rejection after the turn has passed; what the Node process then does with it is not modelled.
- GuardedPlayers.ArraySlot: the inherited member names are those of ECMAScript 2023 arrays and objects; on an older runtime the newest of them are undefined. A flag the toggles set on such a shared built-in is not kept, so a later toggle of the same name is not seen to find it set.
- DiceGames.Monopoly.HandlePropertyAsWritten: the property table is a plain object, and a name that only an inherited object member answers (`constructor`, `toString`, …) is taken as absent.
- `AIPlayer.proposeTrade` is not part of this model: it is an asynchronous double loop that calls `executeTrade` (modelled by `AIPlayers.ExecuteTradeAsWritten`) for every other player and every AI property, and logs the result. As written its first sale rejects, which ends the loop.
- `Math.random` is not modelled; every draw is a parameter (dice numbers in [0, 1), shuffle indices, card-draw numbers).
- `localeCompare` is modelled only as "the same name or not" (`GuardedCards.Distance`), because its locale-dependent magnitude is not specified. Only whether a space of the type exists, and the first one of the smallest distance, are stated.
- JavaScript double rounding is not modelled: class-engine and session money is a Dafny `real`.
- `Number(...)` is modelled for digit strings only (`Common.StringToNumber`); signs, fractions and exponents give NaN here.
- Session `startGame` marks the game started and throws (`this.players.size[0]` is undefined), so the turn order is never computed. `Sessions.Session.NextInTurn` models the toggler over an order given directly.
- Session `addPlayer` tests membership with the user object against keys that are ids, so it never reports "already here" (`Sessions.Session.AddPlayer`).
- Session `handleSupriseCard` refers to `Community` and `Chance`, which the file never imports; `Sessions.Session.HandleTileAction` reports a throw on card tiles. The card tables are modelled on their own (`ChanceCards`, `CommunityCards`).
- Session `killPlayer` loops over the player's `properties` map, which nothing ever fills, so it releases no tile; the model leaves the loop out.
- Session players' `ownsTile` is left out: it is bound to the prototype and compares a tile's owner with it, so it never holds.
- Sessions.Session.HandleJailedPlayer: the jail counter `turnsInJail` is raised only by the jail-decision callbacks (`src/utils/monopoly/collectorCallbacks.ts:52` and `:60`), which the options message would start; those callbacks are not part of this model, so the count is taken as it stands.
- Sessions.Session.ExecuteTurn: line 76 of `session.ts` does not parse (`this.makeDiceRoll(player,...)|| fixedRoll`), and it rolls before testing the jail flag. The model reads it as "roll the turn's throws" and skips the roll for a jailed player, whose jail decision throws its own dice; the `fixedRoll` the third jail turn passes is not used.
- Lodash `isEqual` between players is modelled as object identity. Two session players are deeply equal only if they share an id (`src/utils/monopoly/player.ts:19` sets it from the user), and the session keeps one player per id.
- `CardStacks`: the stack yields the factory functions; the model yields their keys, and `ChanceCards.Build` / `CommunityCards.Build` turn a key into its card. The generators run forever; what happens after a factory throws is not modelled.
- `CommunityCards`: `payout(message, amount)` is not in the card table; its effect is the `Earn(amount)` effect that `CommunityCards.Apply` covers.
- `ChanceCards.Apply`: the nearest-utility card never gets as far as an effect, because building it throws.
- ChanceCards.Apply: the effect of the utility copy of going back three spaces is stated only for the move; the tile action it then runs is `Sessions.Session.HandleTileAction`.
- `src/utils/abstractCard.js`, which the utility chance copy builds its stack with, is not part of this model; the session's `AbstractStack` stands in for it.
- The dice-game `Monopoly` and its card handlers call operations that only the guarded player has (`incrementRollsCount`, `payMoney`, `goToJail`, `receiveMoney`). They are modelled over `GuardedPlayers.Player`; the dice-game player of `CashPlayers` has none of them.
- The dice-game `startAuction` awards nothing whatever is bid (the highest bidder stays the current player), and it runs on chat events; `DiceGames.Monopoly.HandleProperty` only reports that an auction starts.
- The dice-game jail logic keeps a player jailed after the third failed roll, although the fine is paid and the player moves. The model follows the code.
- The chat-session engine's `throwDice` throws five-sided dice (see Findings). `Sessions.Session.MakeDiceRoll` and the turn methods use the corrected six-sided `DiceGames.ThrowDice`.
- NaN is reported, not carried. Where the source leaves a number NaN (or turns money into text) and goes on, the model returns `NonNumeric` and keeps the old value, so nothing is promised about that value afterwards. This covers `Cards.ChargeAction`, `Cards.CollectAction`, `Cards.BackAction`, `Cards.AdvanceAction`, `Cards.MoveAction`, `Cards.RepairsAction`, the each-player actions, `Cards.ApplyCard`, `MonopolyGames.MonopolyGame.HandleTax`, `HandleSpace` and `NextTurn`, `AIPlayers.MakeMove` and `MakeMoveAsWritten`, `GuardedCards.Earn`, the guarded card handlers, `DiceGames.Monopoly.ChargeRent`, `HandleProperty`, `HandlePropertyAsWritten`, `Sessions.Player.Buy` and `Sessions.Player.ReleaseProperty`.
- Sessions.Session.HandleTileAction: a tax tile without a cost leaves the cash NaN; the model keeps the cash, and the flush then throws as in the source. `HandlePropertyAsWritten` (a missing rent before the throw) and `HandleProperty` (a missing rent, NaN for both players) keep the cash the same way, and `FreeTurn`, `ExecuteTurn` and `HandleJailedPlayer` inherit this.
- Sessions.Session.HandleProperty: like the as-written version, it throws building the purchase offer. Besides the owner's credit, it flushes its messages as evidently intended, so it reports the hand-over it starts (`ToggleTurns`, `Bankruptcy`, `Auction`) where the source's flush throws. `HandleTileAction` runs the as-written `HandlePropertyAsWritten`.
- Sessions.Session.ManageBankruptPlayer: the discord.js version is a parameter (`keyArrayDefined`). The bot's client (`src/structures/lillyClient.ts:14`) uses intents that exist only in discord.js 14, whose collections have no `keyArray`, so there the call throws at its first line; the other branches state what the function does with an older library.
- ChanceCards.MoveBack3Spaces: the corrected move is stated on its own; `ChanceCards.Apply` runs the as-written `GoBack3SpacesAsWritten`.
- constructor: flags the source leaves undefined and only tests for truthiness start false, where undefined and false agree. These are `Players.Player.inJail` and, in `GuardedPlayers.Player`, `isJailed`, `ownsFreedomCommunity`, `ownsFreedomChance` and `hasLeftGame`. Numbers left undefined are `None` instead.
- GuardedPlayers.Player.constructor: the board comes from the base class `Monopoly` imported from `./monopoly.js`, which exports no such class; the model passes the board in.
- AIPlayers.BuyProperty: the AI lists a copy of the space's value, so the shared object is not modelled. A later change to the space object (its owner, its houses) is not seen through the AI's list.
- GuardedCards: the copy in `src/utils/monopoly/classes/` calls the player's async methods (`move`, `calculateRepairCost`, `payMoney`) without `await`. The updates they make before a throw are kept, and the throw itself becomes an unhandled rejection, so that copy reports `Done` (`GuardedCards.Seen`).
- Integer width: no source integer is near 2^53, so balances and counters are unbounded integers.

## Findings

| source | as written | input that shows it | evidently intended | confidence | as-written member | corrected member |
|---|---|---|---|---|---|---|
| src/structures/monopoly/classes/boardSpace.ts:6-19 | `convertToProperty` hands the `Property` constructor a record without `price` or the rent list | any priced space, e.g. a street costing 60 | the property keeps the space's price and rents | not executed | BoardSpaces.ConvertToPropertyAsWritten, BoardSpaces.ConvertDropsPrice | BoardSpaces.ConvertToProperty |
| src/structures/monopoly/classes/bank.ts:11-75 | `buyHouse`/`buyHotel` read `this.property`, which the constructor never assigns, so every sale with stock throws | a new bank with 32 houses selling one house | the stock drops by one and the player pays the house or hotel price | not executed | Banks.Bank.BuyHouseAsWritten, Banks.Bank.BuyHotelAsWritten, Banks.NewBankCannotSell | Banks.Bank.BuyHouse, Banks.Bank.BuyHotel |
| src/structures/monopoly/classes/player.ts:188-223 | the toggles index the property-record array by the property's name | a player whose only record is Baltic Avenue toggling "Baltic Avenue" | the record of that name is mortgaged, and unmortgaging restores it | not executed | GuardedPlayers.BalticAvenueIsMissed, GuardedPlayers.Player.ToggleMortgageAsWritten | GuardedPlayers.Player.ToggleMortgage, GuardedPlayers.MortgageRoundTrip |
| src/utils/monopoly/classes/player.ts:55-91 | the toggles index the board array by the property's name | a player owning Baltic Avenue calling `toggleMortgage("Baltic Avenue")` | the board space of that name is mortgaged, and unmortgaging restores the board | not executed | CashPlayers.BalticAvenueThrows, CashPlayers.Player.ToggleMortgageAsWritten | CashPlayers.Player.ToggleMortgage, CashPlayers.TileMortgageRoundTrip |
| src/structures/monopoly/classes/player.ts:148-157 | the Go bonus is paid whenever the new index is lower than the old, which includes `move(-3)` | `move(-3)` from space 5 of 40 lands on 2 and pays 200 | a backward move wraps and pays no bonus | not executed | GuardedPlayers.BackwardMovePaysGoBonus | GuardedPlayers.StepBack |
| src/utils/monopoly/classes/monopoly.ts:192-209 | the rent lookup indexes the owner's record array by name and reads `mortgage`, a field the records lack | landing on Boardwalk whose owner's record is mortgaged | the rent is the mortgage value when the owner's record of that name is mortgaged | not executed | DiceGames.Monopoly.HandlePropertyAsWritten, DiceGames.MortgagedStreetIsMissed | DiceGames.Monopoly.HandleProperty |
| src/utils/monopoly/session.ts:299-308 | `Math.floor(Math.random() * 5) + 1` throws faces 1 to 5 | any random numbers: a six is never thrown | six-sided dice, every face possible | not executed | Sessions.ThrowDiceAsWritten, Sessions.SixIsNeverThrown | DiceGames.ThrowDice, DiceGames.EveryThrowPossible |
| src/utils/monopoly/session.ts:232-233 | the owner is credited through `owner.receive`, which players do not have | a player landing on another player's street with rent 10 | the owner earns the rent the lander pays | not executed | Sessions.Session.HandlePropertyAsWritten | Sessions.Session.HandleProperty |
| src/utils/monopoly/chance.ts:79-87 | `goBack(-3)` moves three tiles forward and never wraps | a player on tile 38 of 40 ends on 41, off the board | the player goes back three tiles, wrapping below Go | not executed | ChanceCards.GoBack3SpacesAsWritten, Sessions.GoBackMinusThreeLeavesBoard | ChanceCards.MoveBack3Spaces, Sessions.GoBackIsModular |
| src/utils/monopoly/community.ts:100-144 | the loop destructures the players map's keys (user ids) and calls `pay` on them | a session with any registered player drawing "birthday" | each other player pays and the drawer collects the total | not executed | CommunityCards.CollectFromEachAsWritten | CommunityCards.CollectFromEach |
| src/utils/monopoly/community.ts:39-49 | the release card's effect takes its first argument as the session, but the session passes the player | drawing the community release card while the pool has it | the drawer receives the card and the pool gives it up | not executed | CommunityCards.Apply | CommunityCards.TakeReleaseCard |
| src/structures/monopoly/classes/AIPlayer.ts:21-108 | `makeMove`, `buyProperty`, `manageProperties` and `executeTrade` call `game.savePlayerData(this)`, `this.save()` and `player.save()`, which no class defines | an AI with 1000 and two buildable entries with houses at 50 builds one house and throws | each change is saved and the pass builds on every qualifying entry | not executed | AIPlayers.ManagePropertiesAsWritten, AIPlayers.AsWrittenBuildsAtMostOnce, AIPlayers.SaveStopsAfterFirstHouse, AIPlayers.MakeMoveAsWritten | AIPlayers.ManageProperties, AIPlayers.ManageFromEntries, AIPlayers.MakeMove |
| src/utils/monopoly/community.ts:17-22 | `advanceToGo` sets the position to 0 while the card is built and then advances by 0 | a player on tile 12 drawing "advanceToGo" | the player lands on Go and receives 200 | not executed | CommunityCards.Build, CommunityCards.Apply | CommunityCards.AdvanceToGo |

=== FILE: model/aiplayer.dfy ===
/** The computer player of the class-based engine.  It is a `Player` built with
    `isAI` set; its decision rules take that player as their first argument.
    It gets out of jail with a card if it has one and otherwise with the 50 fee,
    buys a space when it can afford it, builds a house on every listed property
    whose whole group it owns, and sells a property to another player for 120%
    of the price.

    After each change it saves through `this.save()`, `player.save()` or
    `game.savePlayerData(this)`, and no class defines any of them.  As written
    (the `AsWritten` members) every change is therefore followed by a
    TypeError: a move always ends in an exception, and the building pass stops
    after its first house.  The members without the suffix are the evident
    intent, where saving succeeds; what it stores is not modelled. */
module AIPlayers {
  import opened Common
  import opened Players
  import opened BoardSpaces
  import opened TurnManagers
  import opened MonopolyGames
  import Cards

  /** The fee that buys a jailed player out. */
  const JAIL_FEE: real := 50.0

  /** The exceptions of the saving calls, which no class defines. */
  const NO_SAVE := "TypeError: this.save is not a function"
  const NO_PLAYER_SAVE := "TypeError: player.save is not a function"
  const NO_SAVE_PLAYER_DATA := "TypeError: game.savePlayerData is not a function"

  /** The fields the jail rule reads and writes; the card count may be
      undefined or NaN. */
  datatype JailState = JailState(inJail: bool, cards: Counter, money: real)

  /** `getOutOfJailFreeCards > 0`: false for undefined and NaN. */
  predicate HasCard(cards: Counter)
  {
    cards.Some? && cards.value > 0
  }

  /** `handleJailSituation()` on values: a jailed player uses a card if it has
      one, otherwise pays the fee if it can; a free player is left alone. */
  function JailRelease(s: JailState): (r: JailState)
    ensures r.inJail <==> s.inJail && !HasCard(s.cards) && s.money < JAIL_FEE
    ensures !s.inJail ==> r == s
    ensures r.cards == s.cards || (s.inJail && HasCard(s.cards) && r.cards == Some(s.cards.value - 1))
    ensures HasCard(s.cards) ==> r.money == s.money
    ensures r.money == s.money || (s.inJail && !HasCard(s.cards) && r.money == s.money - JAIL_FEE)
    ensures s.cards.Some? && s.cards.value >= 0 ==> r.cards.Some? && r.cards.value >= 0
    ensures s.money >= 0.0 ==> r.money >= 0.0
  {
    if !s.inJail then s
    else if HasCard(s.cards) then JailState(false, Add(s.cards, -1), s.money)
    else if s.money >= JAIL_FEE then JailState(false, s.cards, s.money - JAIL_FEE)
    else s
  }

  /** A player whose card count was never set never leaves jail by a card,
      even after drawing jail cards: it pays the fee when it can and stays
      jailed otherwise. */
  lemma UnsetCardsNeverFree(money: real, draws: nat)
    ensures var s := JailState(true, Cards.Drawn(None, draws), money);
            JailRelease(s).cards.None?
            && (JailRelease(s).inJail <==> money < JAIL_FEE)
            && (money >= JAIL_FEE ==> JailRelease(s).money == money - JAIL_FEE)
  {
    Cards.JailCardsStayNaN(None, draws);
  }

  /** The jail fields of a player. */
  function Jail(p: Player): JailState
    reads p
  {
    JailState(p.inJail, p.getOutOfJailFreeCards, p.money)
  }

  /** `handleJailSituation()`. */
  method HandleJailSituation(ai: Player)
    requires ai.isAI
    modifies ai`inJail, ai`getOutOfJailFreeCards, ai`money
    ensures Jail(ai) == JailRelease(old(Jail(ai)))
  {
    if ai.inJail {
      if HasCard(ai.getOutOfJailFreeCards) {
        ai.getOutOfJailFreeCards := Add(ai.getOutOfJailFreeCards, -1);
        ai.inJail := false;
      } else if ai.money >= JAIL_FEE {
        ai.money := ai.money - JAIL_FEE;
        ai.inJail := false;
      }
    }
  }

  /** The entry the AI lists when it buys a space: the space itself, with its
      name, group, price and house price; a space has no mortgage flag
      (undefined, falsy) and no building counts (undefined). */
  function SpaceHolding(space: BoardSpace): (h: Holding)
    ensures h.name == space.name && h.group == space.group && h.cost == space.cost && h.house == space.house
    ensures !h.mortgaged && h.houses.None? && h.hotels.None?
  {
    Holding(space.name, false, space.group, space.cost, space.house, None, None)
  }

  /** Whether the AI's money covers the space's price; a comparison with an
      undefined price is false. */
  predicate Affords(money: real, space: BoardSpace)
  {
    space.cost.Some? && money >= space.cost.value
  }

  /** What `buyProperty(space)` does before it saves: when the AI's money
      covers the price it pays it, lists the space and writes its own NAME as
      the owner; otherwise nothing changes.  The AI's money never goes below
      zero by buying. */
  twostate predicate Purchased(ai: Player, space: BoardSpace)
    reads ai, space
  {
    if Affords(old(ai.money), space) then
      ai.money == old(ai.money) - space.cost.value
      && ai.properties == old(ai.properties) + [SpaceHolding(space)]
      && space.owner == OwnedByName(ai.name)
      && ai.money >= 0.0
    else
      ai.money == old(ai.money) && ai.properties == old(ai.properties) && space.owner == old(space.owner)
  }

  /** `buyProperty(space)` with saving defined. */
  method BuyProperty(ai: Player, space: BoardSpace)
    requires ai.isAI
    modifies ai`money, ai`properties, space`owner
    ensures Purchased(ai, space)
  {
    if space.cost.Some? && ai.money >= space.cost.value {
      ai.money := ai.money - space.cost.value;
      ai.properties := ai.properties + [SpaceHolding(space)];
      space.owner := OwnedByName(ai.name);
    }
  }

  /** `buyProperty(space)` as written: a purchase is followed by
      `this.save()`, which throws; a space the AI cannot pay for ends
      normally. */
  method BuyPropertyAsWritten(ai: Player, space: BoardSpace) returns (out: Outcome)
    requires ai.isAI
    modifies ai`money, ai`properties, space`owner
    ensures Purchased(ai, space)
    ensures out.Threw? <==> Affords(old(ai.money), space)
    ensures out.Threw? ==> out == Threw(NO_SAVE)
    ensures !out.Threw? ==> out == Done
  {
    var affords := Affords(ai.money, space);
    BuyProperty(ai, space);
    out := if affords then Threw(NO_SAVE) else Done;
  }

  // ----- Building on whole groups -----

  /** `group.includes(x)`; an undefined `x` is never found in a list of numbers. */
  predicate Includes(group: seq<int>, x: Option<int>)
  {
    x.Some? && x.value in group
  }

  /** `board.filter(space => space.group.includes(g))`: the spaces whose group
      lists `g`, or a TypeError when some space has no group at all. */
  function GroupMembers(board: seq<BoardSpace>, g: Option<int>): (r: Result<seq<BoardSpace>>)
    ensures r.Err? <==> exists i :: 0 <= i < |board| && board[i].group.None?
    ensures r.Ok? ==> forall s :: s in r.value ==> s in board && Includes(s.group.value, g)
    ensures r.Ok? ==> forall i :: 0 <= i < |board| && Includes(board[i].group.value, g) ==> board[i] in r.value
  {
    if exists i :: 0 <= i < |board| && board[i].group.None? then Err("TypeError: cannot read properties of undefined")
    else Ok(Filter(board, (s: BoardSpace) => s.group.Some? && Includes(s.group.value, g)))
  }

  /** `groupProperties.every(space => space.owner === name)`: true for no spaces. */
  predicate AllOwnedBy(members: seq<BoardSpace>, name: string)
    reads members
  {
    forall s :: s in members ==> s.owner == OwnedByName(name)
  }

  /** The spaces of an entry's group: the group is read only inside the
      filter's callback, so an empty board never reads it and has no
      members; otherwise a missing group on the entry or on a space is a
      TypeError. */
  function EntryGroup(board: seq<BoardSpace>, h: Holding): (r: Result<seq<BoardSpace>>)
    ensures r.Err? <==> |board| > 0 && (h.group.None? || exists i :: 0 <= i < |board| && board[i].group.None?)
    ensures |board| == 0 ==> r == Ok([])
    ensures |board| > 0 && h.group.Some? ==> r == GroupMembers(board, At(h.group, 0).value)
  {
    if |board| == 0 then Ok([])
    else
      match At(h.group, 0)
      case Err(e) => Err(e)
      case Ok(g0) => GroupMembers(board, g0)
  }

  /** Whether the AI builds on an entry: the entry's group is read without
      error, the AI owns every space of it (trivially on an empty board),
      and the entry has a house price the AI's money covers. */
  predicate Builds(board: seq<BoardSpace>, name: string, money: real, h: Holding)
    reads board
  {
    var members := EntryGroup(board, h);
    members.Ok? && AllOwnedBy(members.value, name) && h.house.Some? && money >= h.house.value
  }

  /** What building on one listed entry does to the AI's money and the entry:
      exactly when `Builds` holds, the house price is paid and the entry's
      house count goes up by one (undefined stays NaN); on a board with
      spaces, a missing group, on the entry or on a space, is a TypeError;
      otherwise nothing changes. */
  function BuildOn(board: seq<BoardSpace>, name: string, money: real, h: Holding): (r: (Outcome, real, Holding))
    reads board
    ensures r.0.Threw? <==>
              |board| > 0 && (h.group.None? || exists i :: 0 <= i < |board| && board[i].group.None?)
    ensures r.0.Threw? ==> r.1 == money && r.2 == h
    ensures Builds(board, name, money, h) ==>
              r == (Done, money - h.house.value, h.(houses := Add(h.houses, 1)))
    ensures !r.0.Threw? && !Builds(board, name, money, h) ==> r == (Done, money, h)
    ensures |board| == 0 ==> r.0 == Done && (Builds(board, name, money, h) <==> h.house.Some? && money >= h.house.value)
    ensures money >= 0.0 ==> r.1 >= 0.0
  {
    match EntryGroup(board, h)
    case Err(e) => (Threw(e), money, h)
    case Ok(members) =>
      if AllOwnedBy(members, name) && h.house.Some? && money >= h.house.value then
        (Done, money - h.house.value, h.(houses := Add(h.houses, 1)))
      else (Done, money, h)
  }

  /** One entry of `manageProperties` as written: `BuildOn`, where a house
      built is followed by `this.save()`, which throws. */
  function BuildOnAsWritten(board: seq<BoardSpace>, name: string, money: real, h: Holding): (r: (Outcome, real, Holding))
    reads board
    ensures r.1 == BuildOn(board, name, money, h).1 && r.2 == BuildOn(board, name, money, h).2
    ensures r.0.Threw? <==> BuildOn(board, name, money, h).0.Threw? || Builds(board, name, money, h)
    ensures Builds(board, name, money, h) ==> r.0 == Threw(NO_SAVE)
    ensures !r.0.Threw? ==> r == (Done, money, h)
  {
    var (out, m, built) := BuildOn(board, name, money, h);
    (if Builds(board, name, money, h) then Threw(NO_SAVE) else out, m, built)
  }

  /** `manageProperties(game)` on values from entry `k` on: each entry in turn,
      stopping at the first exception with what was already built kept.  As
      written (`saveDefined` false) the save after a house is such an
      exception. */
  function ManageFrom(board: seq<BoardSpace>, name: string, money: real, hs: seq<Holding>, k: nat, saveDefined: bool)
    : (r: (Outcome, real, seq<Holding>))
    requires k <= |hs|
    reads board
    decreases |hs| - k
  {
    if k == |hs| then (Done, money, hs)
    else
      var (out, m, h) := if saveDefined then BuildOn(board, name, money, hs[k]) else BuildOnAsWritten(board, name, money, hs[k]);
      if out.Threw? then (out, m, hs[k := h]) else ManageFrom(board, name, m, hs[k := h], k + 1, saveDefined)
  }

  /** Building never makes the AI's money negative: each house is bought only
      with money that covers it. */
  lemma {:induction false} ManageFromKeepsMoney(board: seq<BoardSpace>, name: string, money: real, hs: seq<Holding>, k: nat,
                                                saveDefined: bool)
    requires k <= |hs|
    requires money >= 0.0
    decreases |hs| - k
    ensures ManageFrom(board, name, money, hs, k, saveDefined).1 >= 0.0
  {
    if k < |hs| {
      var (out, m, h) := if saveDefined then BuildOn(board, name, money, hs[k]) else BuildOnAsWritten(board, name, money, hs[k]);
      if !out.Threw? {
        ManageFromKeepsMoney(board, name, m, hs[k := h], k + 1, saveDefined);
      }
    }
  }

  /** The pass touches each entry at most once: the list keeps its length, the
      entries before `k` stay as they were, and every other entry keeps its
      name and group and gains at most one house. */
  lemma {:induction false} ManageFromEntries(board: seq<BoardSpace>, name: string, money: real, hs: seq<Holding>, k: nat,
                                             saveDefined: bool)
    requires k <= |hs|
    decreases |hs| - k
    ensures var rs := ManageFrom(board, name, money, hs, k, saveDefined).2;
            |rs| == |hs|
            && (forall i :: 0 <= i < k ==> rs[i] == hs[i])
            && (forall i :: k <= i < |hs| ==>
                  rs[i].name == hs[i].name && rs[i].group == hs[i].group
                  && (rs[i] == hs[i] || rs[i] == hs[i].(houses := Add(hs[i].houses, 1))))
  {
    if k < |hs| {
      var (out, m, h) := if saveDefined then BuildOn(board, name, money, hs[k]) else BuildOnAsWritten(board, name, money, hs[k]);
      var next := hs[k := h];
      if !out.Threw? {
        ManageFromEntries(board, name, m, next, k + 1, saveDefined);
        assert forall i :: 0 <= i < |hs| && i != k ==> next[i] == hs[i];
      }
    }
  }

  /** As written the pass builds at most one house: it ends normally only
      when it built nothing at all, and it stops at the first entry it builds
      on, with the save's exception and every later entry as it was. */
  lemma {:induction false} AsWrittenBuildsAtMostOnce(board: seq<BoardSpace>, name: string, money: real, hs: seq<Holding>, k: nat)
    requires k <= |hs|
    decreases |hs| - k
    ensures var r := ManageFrom(board, name, money, hs, k, false);
            |r.2| == |hs|
            && (r.0 == Done ==> r.1 == money && r.2 == hs)
            && (forall i ::
                  (k <= i < |hs| && Builds(board, name, money, hs[i])
                   && forall j :: k <= j < i ==> !Builds(board, name, money, hs[j]) && !BuildOn(board, name, money, hs[j]).0.Threw?)
                  ==> r == (Threw(NO_SAVE), money - hs[i].house.value, hs[i := hs[i].(houses := Add(hs[i].houses, 1))]))
  {
    ManageFromEntries(board, name, money, hs, k, false);
    if k < |hs| {
      var (out, m, h) := BuildOnAsWritten(board, name, money, hs[k]);
      if !out.Threw? {
        assert hs[k := h] == hs;
        AsWrittenBuildsAtMostOnce(board, name, money, hs, k + 1);
      }
    }
  }

  /** An AI with 1000 and two entries whose house costs 50, on a board with no
      spaces, where no group is read and every group counts as owned: as
      written it builds one house, keeps 950 and throws; with saving defined
      it builds on both and keeps 900. */
  lemma SaveStopsAfterFirstHouse()
    ensures var h1 := Holding("Park Place", false, Some([8]), Some(350.0), Some(50.0), Some(0), None);
            var h2 := Holding("Boardwalk", false, Some([8]), Some(400.0), Some(50.0), Some(0), None);
            ManageFrom([], "AI Bot 1", 1000.0, [h1, h2], 0, false)
              == (Threw(NO_SAVE), 950.0, [h1.(houses := Some(1)), h2])
            && ManageFrom([], "AI Bot 1", 1000.0, [h1, h2], 0, true)
              == (Done, 900.0, [h1.(houses := Some(1)), h2.(houses := Some(1))])
  {
    var h1 := Holding("Park Place", false, Some([8]), Some(350.0), Some(50.0), Some(0), None);
    var h2 := Holding("Boardwalk", false, Some([8]), Some(400.0), Some(50.0), Some(0), None);
    var board: seq<BoardSpace> := [];
    var b1, b2 := h1.(houses := Some(1)), h2.(houses := Some(1));
    assert EntryGroup(board, h1) == Ok([]) && EntryGroup(board, h2) == Ok([]);
    assert BuildOn(board, "AI Bot 1", 1000.0, h1) == (Done, 950.0, b1);
    assert BuildOnAsWritten(board, "AI Bot 1", 1000.0, h1) == (Threw(NO_SAVE), 950.0, b1);
    assert [h1, h2][0 := b1] == [b1, h2];
    assert BuildOn(board, "AI Bot 1", 950.0, h2) == (Done, 900.0, b2);
    assert [b1, h2][1 := b2] == [b1, b2];
    assert ManageFrom(board, "AI Bot 1", 950.0, [b1, h2], 1, true)
        == ManageFrom(board, "AI Bot 1", 900.0, [b1, b2], 2, true);
  }

  /** `manageProperties(game)` with saving defined: one pass over the AI's
      entries. */
  method ManageProperties(ai: Player, game: MonopolyGame) returns (out: Outcome)
    requires ai.isAI
    modifies ai`money, ai`properties
    ensures (out, ai.money, ai.properties) == ManageFrom(game.board, ai.name, old(ai.money), old(ai.properties), 0, true)
  {
    var k := 0;
    while k < |ai.properties|
      invariant 0 <= k <= |ai.properties|
      invariant ManageFrom(game.board, ai.name, old(ai.money), old(ai.properties), 0, true)
                == ManageFrom(game.board, ai.name, ai.money, ai.properties, k, true)
      decreases |ai.properties| - k
    {
      var step := BuildOn(game.board, ai.name, ai.money, ai.properties[k]);
      ai.properties := ai.properties[k := step.2];
      ai.money := step.1;
      if step.0.Threw? {
        return step.0;
      }
      k := k + 1;
    }
    return Done;
  }

  /** `manageProperties(game)` as written: the same pass, which the save
      after the first house built stops with its TypeError. */
  method ManagePropertiesAsWritten(ai: Player, game: MonopolyGame) returns (out: Outcome)
    requires ai.isAI
    modifies ai`money, ai`properties
    ensures (out, ai.money, ai.properties) == ManageFrom(game.board, ai.name, old(ai.money), old(ai.properties), 0, false)
  {
    var k := 0;
    while k < |ai.properties|
      invariant 0 <= k <= |ai.properties|
      invariant ManageFrom(game.board, ai.name, old(ai.money), old(ai.properties), 0, false)
                == ManageFrom(game.board, ai.name, ai.money, ai.properties, k, false)
      decreases |ai.properties| - k
    {
      var step := BuildOnAsWritten(game.board, ai.name, ai.money, ai.properties[k]);
      ai.properties := ai.properties[k := step.2];
      ai.money := step.1;
      if step.0.Threw? {
        return step.0;
      }
      k := k + 1;
    }
    return Done;
  }

  // ----- Selling to another player -----

  /** The price the AI asks: 120% of the entry's price. */
  const OFFER_RATE: real := 1.2

  /** Whether the buyer can pay 120% of the entry's price; with no price the
      offer is NaN and the comparison false. */
  predicate Sells(buyerMoney: real, property: Holding)
  {
    property.cost.Some? && buyerMoney >= property.cost.value * OFFER_RATE
  }

  /** What `executeTrade(player, property)` does before it saves, given
      whether it sells: the buyer pays the AI 120% of the price, the buyer
      lists the entry and the AI drops every entry of its name; without a sale
      nothing changes.  The two players' money adds up to the same total
      either way. */
  twostate predicate TradeSettled(ai: Player, player: Player, property: Holding, sold: bool)
    reads ai, player
  {
    (sold ==> property.cost.Some?)
    && ai.money + player.money == old(ai.money + player.money)
    && (sold && ai != player ==>
          player.money == old(player.money) - property.cost.value * OFFER_RATE
          && ai.money == old(ai.money) + property.cost.value * OFFER_RATE
          && player.properties == old(player.properties) + [property]
          && ai.properties == Filter(old(ai.properties), (h: Holding) => h.name != property.name))
    && (sold && ai == player ==>
          ai.money == old(ai.money)
          && ai.properties == Filter(old(ai.properties) + [property], (h: Holding) => h.name != property.name))
    && (!sold ==>
          ai.money == old(ai.money) && player.money == old(player.money)
          && ai.properties == old(ai.properties) && player.properties == old(player.properties))
  }

  /** `executeTrade(player, property)` with saving defined: it sells exactly
      when the buyer can pay. */
  method ExecuteTrade(ai: Player, player: Player, property: Holding) returns (ok: bool)
    requires ai.isAI
    modifies ai`money, ai`properties, player`money, player`properties
    ensures ok <==> Sells(old(player.money), property)
    ensures TradeSettled(ai, player, property, ok)
  {
    if property.cost.None? {
      return false;
    }
    var offerAmount := property.cost.value * OFFER_RATE;
    if player.money >= offerAmount {
      player.money := player.money - offerAmount;
      ai.money := ai.money + offerAmount;
      player.properties := player.properties + [property];
      ai.properties := Filter(ai.properties, (h: Holding) => h.name != property.name);
      return true;
    }
    return false;
  }

  /** `executeTrade(player, property)` as written: a sale is followed by
      `player.save()`, which throws, so the promise rejects where it would
      resolve to true; without a sale it resolves to false. */
  method ExecuteTradeAsWritten(ai: Player, player: Player, property: Holding) returns (r: Result<bool>)
    requires ai.isAI
    modifies ai`money, ai`properties, player`money, player`properties
    ensures r.Err? <==> Sells(old(player.money), property)
    ensures r.Err? ==> r.reason == NO_PLAYER_SAVE
    ensures r.Ok? ==> !r.value
    ensures TradeSettled(ai, player, property, r.Err?)
  {
    var ok := ExecuteTrade(ai, player, property);
    r := if ok then Err(NO_PLAYER_SAVE) else Ok(false);
  }

  /** The index of the space the AI reaches from `position` by `roll`. */
  function Landing(game: MonopolyGame, position: int, roll: int): int
    requires |game.board| > 0
  {
    JsRem(position + roll, |game.board|)
  }

  /** What `makeMove(game)` does to the AI before it saves: jail first, then,
      on a board with spaces, the move by the roll and the space's effect: off
      the board nothing more, a tax space charges its cost (NaN without one),
      a 'jail' space sends it to the first jail space, and other spaces leave
      it where it landed.  Its list of entries is untouched. */
  twostate predicate MoveMade(ai: Player, game: MonopolyGame, roll: int)
    reads ai, game
  {
    var freed := JailRelease(old(Jail(ai)));
    ai.properties == old(ai.properties) && ai.inJail == freed.inJail && ai.getOutOfJailFreeCards == freed.cards
    && (|game.board| == 0 ==> ai.money == freed.money)
    && (|game.board| > 0 ==>
          var landed := Landing(game, old(ai.position), roll);
          (game.LandingThrows(landed) ==> ai.money == freed.money && ai.position == landed)
          && (!game.LandingThrows(landed) && game.board[landed].kind == "tax" ==>
                ai.position == landed
                && (game.board[landed].cost.Some? ==> ai.money == freed.money - game.board[landed].cost.value))
          && (!game.LandingThrows(landed) && game.board[landed].kind != "tax" ==>
                ai.money == freed.money && ai.position == game.PositionAfterLanding(landed)))
  }

  /** `makeMove(game)` with saving defined, with the two random numbers of the
      roll: the AI as `MoveMade` says, ending as the space does.  On an empty
      board the move gives NaN and the name lookup throws. */
  method MakeMove(ai: Player, game: MonopolyGame, r1: real, r2: real) returns (out: Outcome)
    requires ai.isAI
    requires 0.0 <= r1 < 1.0 && 0.0 <= r2 < 1.0
    modifies ai`inJail, ai`getOutOfJailFreeCards, ai`money, ai`position
    ensures MoveMade(ai, game, RollDice(r1, r2))
    ensures out.Threw? ==> out == Threw(NO_SPACE)
    ensures |game.board| == 0 ==> out.Threw?
    ensures |game.board| > 0 ==>
              var landed := Landing(game, old(ai.position), RollDice(r1, r2));
              (out.Threw? <==> game.LandingThrows(landed))
              && (out == NonNumeric("money") <==> game.LandingLeavesNaN(landed))
              && (out == Done <==> !game.LandingThrows(landed) && !game.LandingLeavesNaN(landed))
  {
    HandleJailSituation(ai);
    var diceRoll := RollDice(r1, r2);
    if |game.board| == 0 {
      return Threw(NO_SPACE);
    }
    ai.Move(diceRoll, |game.board|);
    var names := seq(|game.board|, i requires 0 <= i < |game.board| => game.board[i].name);
    var currentBoardSpaceName := ai.CurrentBoardSpaceName(names);
    if currentBoardSpaceName.Err? {
      return Threw(NO_SPACE);
    }
    out := game.HandleSpace(ai);
  }

  /** `makeMove(game)` as written: the same move, then
      `game.savePlayerData(this)`, which throws.  Every move ends in an
      exception: the save's, or the landing's own when that throws first. */
  method MakeMoveAsWritten(ai: Player, game: MonopolyGame, r1: real, r2: real) returns (out: Outcome)
    requires ai.isAI
    requires 0.0 <= r1 < 1.0 && 0.0 <= r2 < 1.0
    modifies ai`inJail, ai`getOutOfJailFreeCards, ai`money, ai`position
    ensures MoveMade(ai, game, RollDice(r1, r2))
    ensures out.Threw?
    ensures out == Threw(NO_SAVE_PLAYER_DATA) <==>
              |game.board| > 0 && !game.LandingThrows(Landing(game, old(ai.position), RollDice(r1, r2)))
  {
    out := MakeMove(ai, game, r1, r2);
    if !out.Threw? {
      out := Threw(NO_SAVE_PLAYER_DATA);
    }
  }
}

=== FILE: model/auctions.dfy ===
/** Open-outcry auction of one property: the highest bid so far and who made it.
    A bid replaces the standing one only when strictly higher; bidders' money is
    not consulted until the auction is settled. */
module Auctions {
  import opened Common
  import opened Players
  import opened PropertyLedger

  /** The standing bid and bidder. */
  datatype Standing = Standing(bid: real, bidder: Option<Player>)

  /** The standing after `player` bids `amount`: a strictly higher bid takes over,
      anything else changes nothing.  The bidder's money plays no part. */
  function AfterBid(s: Standing, player: Player, amount: real): (r: Standing)
    ensures r.bid >= s.bid
    ensures amount > s.bid ==> r == Standing(amount, Some(player))
    ensures amount <= s.bid ==> r == s
  {
    if amount > s.bid then Standing(amount, Some(player)) else s
  }

  /** The standing after a series of bids, in order. */
  function AfterBids(s: Standing, bids: seq<(Player, real)>): Standing
    decreases |bids|
  {
    if |bids| == 0 then s else AfterBids(AfterBid(s, bids[0].0, bids[0].1), bids[1..])
  }

  /** From a fresh auction, the winning bid is the highest bid placed (or 0), it
      was placed by the recorded bidder, and there is a bidder exactly when some
      bid was positive. */
  lemma {:induction false} AfterBidsIsHighest(s: Standing, bids: seq<(Player, real)>)
    requires s.bidder.None? ==> s.bid == 0.0
    decreases |bids|
    ensures var r := AfterBids(s, bids);
            r.bid >= s.bid && (forall k :: 0 <= k < |bids| ==> bids[k].1 <= r.bid)
            && (r.bid == s.bid ==> r == s)
            && (r.bid != s.bid ==> r.bidder.Some? && exists k :: 0 <= k < |bids| && bids[k] == (r.bidder.value, r.bid))
            && (r.bidder.None? <==> s.bidder.None? && forall k :: 0 <= k < |bids| ==> bids[k].1 <= 0.0)
  {
    if |bids| > 0 {
      var s1 := AfterBid(s, bids[0].0, bids[0].1);
      AfterBidsIsHighest(s1, bids[1..]);
      var r := AfterBids(s1, bids[1..]);
      assert forall k :: 1 <= k < |bids| ==> bids[k] == bids[1..][k - 1];
      if r.bid != s.bid && r.bid == s1.bid {
        assert bids[0] == (r.bidder.value, r.bid);
      }
    }
  }

  class Auction {
    var property: Property
    var players: seq<Player>
    var highestBid: real
    var highestBidder: Option<Player>

    function Current(): Standing
      reads this
    {
      Standing(highestBid, highestBidder)
    }

    /** A new auction for `property` among `players`: no bid yet. */
    constructor (property: Property, players: seq<Player>)
      ensures this.property == property && this.players == players
      ensures highestBid == 0.0 && highestBidder == None
    {
      this.property := property;
      this.players := players;
      highestBid := 0.0;
      highestBidder := None;
    }

    /** `initializeAuction(property, players)`: starts over, with no bid. */
    method InitializeAuction(property: Property, players: seq<Player>)
      modifies this
      ensures this.property == property && this.players == players
      ensures highestBid == 0.0 && highestBidder == None
    {
      this.property := property;
      this.players := players;
      highestBid := 0.0;
      highestBidder := None;
    }

    /** `placeBid(player, amount)`. */
    method PlaceBid(player: Player, amount: real)
      modifies this`highestBid, this`highestBidder
      ensures Current() == AfterBid(old(Current()), player, amount)
    {
      if amount > highestBid {
        highestBid := amount;
        highestBidder := Some(player);
      }
    }

    /** `finalizeAuction()`: the highest bidder pays the bid, lists the property
        and becomes its owner; with no bidder nothing happens.  The bidder's
        position, jail flag, cards and name, and every other field of the
        property, stay as they were. */
    method FinalizeAuction()
      modifies if highestBidder.Some? then {highestBidder.value, property} else {}
      ensures highestBidder.None? ==> property.owner == old(property.owner)
      ensures highestBidder.Some? ==>
                highestBidder.value.money == old(highestBidder.value.money) - highestBid
                && highestBidder.value.properties == old(highestBidder.value.properties) + [NewHolding(property.name)]
                && property.owner == highestBidder
      ensures highestBidder.Some? ==>
                var b := highestBidder.value;
                b.position == old(b.position) && b.inJail == old(b.inJail)
                && b.getOutOfJailFreeCards == old(b.getOutOfJailFreeCards) && b.name == old(b.name)
      ensures property.Dev() == old(property.Dev()) && property.mortgaged == old(property.mortgaged)
      ensures unchanged(property`name, property`cost, property`mortgage, property`color, property`rent,
                        property`multipliedRent, property`houseCost, property`hotelCost, property`houses,
                        property`hotel, property`isOwned, property`isDeveloped, property`group)
    {
      if highestBidder.Some? {
        UpdatePlayerMoney();
        highestBidder.value.AddProperty(property.name);
        property.owner := highestBidder;
      }
    }

    /** `updatePlayerMoney()`: the highest bidder, if any, pays the bid. */
    method UpdatePlayerMoney()
      modifies if highestBidder.Some? then {highestBidder.value} else {}
      ensures highestBidder.Some? ==>
                highestBidder.value.money == old(highestBidder.value.money) - highestBid
                && highestBidder.value.properties == old(highestBidder.value.properties)
      ensures highestBidder.Some? ==>
                var b := highestBidder.value;
                b.position == old(b.position) && b.inJail == old(b.inJail)
                && b.getOutOfJailFreeCards == old(b.getOutOfJailFreeCards) && b.name == old(b.name)
    {
      if highestBidder.Some? {
        highestBidder.value.UpdateMoney(-highestBid);
      }
    }
  }
}

=== FILE: model/bank.dfy ===
/** The bank of the class-based engine: its cash and its stock of houses and
    hotels.  Paying a player out is refused when the bank's cash is short; money
    paid in is always accepted.

    The house and hotel sales charge the price of a property field that no code
    ever assigns, so as written they throw whenever there is stock to sell
    (`BuyHouseAsWritten`, `BuyHotelAsWritten`).  `BuyHouse` and `BuyHotel`
    take the property being built on and charge its own house or hotel price. */
module Banks {
  import opened Common
  import opened Players
  import opened PropertyLedger

  class Bank {
    var money: real
    var houses: int
    var hotels: int
    /** Declared, read by the sales, and never assigned: always undefined. */
    var property: Option<Property>

    /** The stock never goes negative. */
    predicate Valid()
      reads this
    {
      houses >= 0 && hotels >= 0
    }

    /** A bank with the given cash and stock. */
    constructor (initialMoney: real, initialHouses: int, initialHotels: int)
      ensures money == initialMoney && houses == initialHouses && hotels == initialHotels
      ensures property == None
    {
      money := initialMoney;
      houses := initialHouses;
      hotels := initialHotels;
      property := None;
    }

    /** `distributeMoney(player, amount)`: pays the player only when the bank
        holds at least the amount; the bank's and the player's money add up to
        the same total either way. */
    method DistributeMoney(player: Player, amount: real)
      modifies this`money, player`money
      ensures money + player.money == old(money + player.money)
      ensures old(money) >= amount ==> player.money == old(player.money) + amount && money == old(money) - amount
      ensures old(money) < amount ==> player.money == old(player.money) && money == old(money)
    {
      if money >= amount {
        player.UpdateMoney(amount);
        money := money - amount;
      }
    }

    /** `receiveMoney(player, amount)`: the player pays the bank, unconditionally. */
    method ReceiveMoney(player: Player, amount: real)
      modifies this`money, player`money
      ensures money + player.money == old(money + player.money)
      ensures player.money == old(player.money) - amount && money == old(money) + amount
    {
      player.UpdateMoney(-amount);
      money := money + amount;
    }

    /** `buyHouse(player, property)` as written: with houses in stock it reads the
        house price of the never-assigned property field, a TypeError that
        leaves the player and the stock untouched; without stock it only reports. */
    method BuyHouseAsWritten(player: Player, propertyName: string) returns (out: Outcome)
      modifies this`houses, player`money
      ensures property.None? ==> (out.Threw? <==> old(houses) > 0)
      ensures property.None? ==> houses == old(houses) && player.money == old(player.money)
      ensures property.Some? && old(houses) > 0 ==>
                out == Done && houses == old(houses) - 1
                && player.money == old(player.money) - property.value.houseCost
    {
      if houses > 0 {
        if property.None? {
          return Threw("TypeError: cannot read properties of undefined (reading 'houseCost')");
        }
        player.UpdateMoney(-property.value.houseCost);
        houses := houses - 1;
      }
      return Done;
    }

    /** `buyHotel(player, property)` as written: the same failure with the hotel price. */
    method BuyHotelAsWritten(player: Player, propertyName: string) returns (out: Outcome)
      modifies this`hotels, player`money
      ensures property.None? ==> (out.Threw? <==> old(hotels) > 0)
      ensures property.None? ==> hotels == old(hotels) && player.money == old(player.money)
      ensures property.Some? && old(hotels) > 0 ==>
                out == Done && hotels == old(hotels) - 1
                && player.money == old(player.money) - property.value.hotelCost
    {
      if hotels > 0 {
        if property.None? {
          return Threw("TypeError: cannot read properties of undefined (reading 'hotelCost')");
        }
        player.UpdateMoney(-property.value.hotelCost);
        hotels := hotels - 1;
      }
      return Done;
    }

    /** A house bought from the bank: with stock, the player pays the house price
        of the property built on and the stock drops by one; without stock
        nothing changes.  The stock stays non-negative. */
    method BuyHouse(player: Player, property: Property)
      requires Valid()
      modifies this`houses, player`money
      ensures Valid()
      ensures old(houses) > 0 ==> houses == old(houses) - 1 && player.money == old(player.money) - property.houseCost
      ensures old(houses) == 0 ==> houses == 0 && player.money == old(player.money)
    {
      if houses > 0 {
        player.UpdateMoney(-property.houseCost);
        houses := houses - 1;
      }
    }

    /** A hotel bought from the bank, charged at the property's hotel price. */
    method BuyHotel(player: Player, property: Property)
      requires Valid()
      modifies this`hotels, player`money
      ensures Valid()
      ensures old(hotels) > 0 ==> hotels == old(hotels) - 1 && player.money == old(player.money) - property.hotelCost
      ensures old(hotels) == 0 ==> hotels == 0 && player.money == old(player.money)
    {
      if hotels > 0 {
        player.UpdateMoney(-property.hotelCost);
        hotels := hotels - 1;
      }
    }
  }

  /** A freshly built bank with houses and hotels in stock refuses every sale
      with an exception and sells nothing. */
  method NewBankCannotSell(initialHouses: int, initialHotels: int) returns (houseSale: Outcome, hotelSale: Outcome, left: (int, int))
    requires initialHouses > 0 && initialHotels > 0
    ensures houseSale.Threw? && hotelSale.Threw?
    ensures left == (initialHouses, initialHotels)
  {
    var bank := new Bank(20580.0, initialHouses, initialHotels);
    var buyer := new Player("buyer");
    houseSale := bank.BuyHouseAsWritten(buyer, "Baltic Avenue");
    hotelSale := bank.BuyHotelAsWritten(buyer, "Baltic Avenue");
    left := (bank.houses, bank.hotels);
  }
}

=== FILE: model/boardproperties.dfy ===
/** The plain property record of the board-data layer: nine stored fields, a
    mortgage flag that starts false, getters, and an ownership test that compares
    a property holder's id with a player's user id. */
module BoardProperties {
  import opened Common

  datatype MonopolyProperty = MonopolyProperty(name: string, kind: string, cost: real, mortgage: real,
                                               color: string, rent: real, multpliedrent: seq<real>,
                                               group: seq<int>, house: real, isMortgaged: bool)
  {
    function GetName(): string { name }
    function GetType(): string { kind }
    function GetCost(): real { cost }
    function GetMortgage(): real { mortgage }
    function GetColor(): string { color }
    function GetRent(): real { rent }
    function GetMultpliedrent(): seq<real> { multpliedrent }
    function GetGroup(): seq<int> { group }

    /** `getHotel()`: the fifth rent, undefined (`None`) when the list is shorter. */
    function GetHotel(): (r: Option<real>)
      ensures r.Some? <==> |multpliedrent| > 4
      ensures r.Some? ==> r.value == multpliedrent[4] && r.value in multpliedrent
    {
      if |multpliedrent| > 4 then Some(multpliedrent[4]) else None
    }
  }

  /** The constructor: stores its nine arguments; the property starts unmortgaged.
      Every getter then returns the argument it was built from. */
  function NewMonopolyProperty(name: string, kind: string, cost: real, mortgage: real, color: string,
                               rent: real, multpliedrent: seq<real>, group: seq<int>, house: real)
    : (p: MonopolyProperty)
    ensures p.GetName() == name && p.GetType() == kind && p.GetCost() == cost
    ensures p.GetMortgage() == mortgage && p.GetColor() == color && p.GetRent() == rent
    ensures p.GetMultpliedrent() == multpliedrent && p.GetGroup() == group && p.house == house
    ensures !p.isMortgaged
  {
    MonopolyProperty(name, kind, cost, mortgage, color, rent, multpliedrent, group, house, false)
  }

  /** The fields `isOwned` reads: the player's user id, and the holder recorded on
      the player's property entry (null when nobody holds it). */
  datatype PlayerRef = PlayerRef(userId: string)
  datatype PlayerPropertyRef = PlayerPropertyRef(ownerId: Option<string>)

  /** `isOwned(player, property)`: whether the entry's holder id equals the
      player's user id; reading the id of a null holder is a TypeError. */
  function IsOwned(player: PlayerRef, property: PlayerPropertyRef): (r: Result<bool>)
    ensures r.Err? <==> property.ownerId.None?
    ensures r.Ok? ==> (r.value <==> property.ownerId == Some(player.userId))
  {
    match property.ownerId
    case None => Err("TypeError: cannot read properties of null")
    case Some(id) => Ok(id == player.userId)
  }
}

=== FILE: model/boardspace.dfy ===
/** A space of the class-based engine's board.  Every field but the name, the
    type and the position is optional.  The owner is normally a player, but the
    AI player records itself by NAME (a string) when it buys a space, so the
    owner field has three shapes. */
module BoardSpaces {
  import opened Common
  import opened Players
  import opened PropertyLedger

  /** Who owns a space: nobody, a player object, or a player's name as the AI writes it. */
  datatype Owner = NoOwner | OwnedBy(player: Player) | OwnedByName(ownerName: string)

  /** The record a board space is built from. */
  datatype SpaceData = SpaceData(name: string, kind: string, cost: Option<real>, mortgage: Option<real>,
                                 color: Option<string>, rent: Option<real>, multpliedrent: Option<seq<real>>,
                                 group: Option<seq<int>>, house: Option<real>, corner: Option<bool>,
                                 owner: Owner, position: int)

  class BoardSpace {
    const name: string
    /** The space's `type`: "property", "chance", "community-chest", "tax", "jail", "utility", "railroad", ... */
    const kind: string
    const cost: Option<real>
    const mortgage: Option<real>
    const color: Option<string>
    const rent: Option<real>
    const multpliedrent: Option<seq<real>>
    const group: Option<seq<int>>
    const house: Option<real>
    const corner: Option<bool>
    var owner: Owner
    const position: int

    /** Copies every field of the record. */
    constructor (data: SpaceData)
      ensures Data() == data
    {
      name := data.name;
      kind := data.kind;
      cost := data.cost;
      mortgage := data.mortgage;
      color := data.color;
      rent := data.rent;
      multpliedrent := data.multpliedrent;
      group := data.group;
      house := data.house;
      corner := data.corner;
      owner := data.owner;
      position := data.position;
    }

    /** The space's fields as a record. */
    function Data(): SpaceData
      reads this
    {
      SpaceData(name, kind, cost, mortgage, color, rent, multpliedrent, group, house, corner, owner, position)
    }

    /** `isMortgaged()`: false without an owner (an empty name is falsy too);
        otherwise the owning player's own record of the name; a TypeError when the
        owner is a name, which has no `isPropertyMortgaged`. */
    function IsMortgaged(): (r: Result<bool>)
      reads this, if owner.OwnedBy? then {owner.player} else {}
      ensures owner.NoOwner? ==> r == Ok(false)
      ensures owner.OwnedBy? ==> r == Ok(owner.player.IsPropertyMortgaged(name))
      ensures owner.OwnedByName? ==> (r.Err? <==> owner.ownerName != "")
      ensures r == Ok(true) ==>
                owner.OwnedBy? && exists h :: h in owner.player.properties && h.name == name && h.mortgaged
    {
      match owner
      case NoOwner => Ok(false)
      case OwnedBy(p) => Ok(p.IsPropertyMortgaged(name))
      case OwnedByName(s) =>
        if s == "" then Ok(false) else Err("TypeError: owner.isPropertyMortgaged is not a function")
    }
  }

  /** What the Property constructor reads from the record `convertToProperty`
      builds.  The record has no `cost` key and spells the rent list
      `multpliedrent`, while the constructor reads `cost` and `multipliedRent`. */
  datatype ConvertedFields = ConvertedFields(name: string, cost: Option<real>, mortgage: Option<real>,
                                             color: Option<string>, rent: Option<real>,
                                             multipliedRent: Option<seq<real>>, house: Option<real>)

  /** `convertToProperty(space)` as written: the name, colour, rent, mortgage and
      house price reach the new property, its price and rent list do not.  The
      record also carries `isMortgaged()`, whose TypeError escapes. */
  function ConvertToPropertyAsWritten(space: BoardSpace): (r: Result<ConvertedFields>)
    reads space, if space.owner.OwnedBy? then {space.owner.player} else {}
    ensures r.Err? <==> space.IsMortgaged().Err?
    ensures r.Ok? ==> r.value.name == space.name && r.value.rent == space.rent
                      && r.value.mortgage == space.mortgage && r.value.color == space.color
                      && r.value.house == space.house
    ensures r.Ok? ==> r.value.cost.None? && r.value.multipliedRent.None?
  {
    var m := space.IsMortgaged();
    if m.Err? then Err(m.reason)
    else Ok(ConvertedFields(space.name, None, space.mortgage, space.color, space.rent, None, space.house))
  }

  /** A priced property space loses its price in the conversion: a property
      converted from a space costing 60 has no price at all. */
  lemma ConvertDropsPrice(space: BoardSpace)
    requires space.owner.NoOwner? && space.cost == Some(60.0)
    ensures ConvertToPropertyAsWritten(space).Ok?
    ensures ConvertToPropertyAsWritten(space).value.cost != space.cost
  {
  }

  /** Whether a space carries every number a Property needs. */
  predicate Convertible(space: BoardSpace)
    reads space
  {
    space.cost.Some? && space.mortgage.Some? && space.color.Some? && space.rent.Some?
    && space.multpliedrent.Some? && space.house.Some?
  }

  /** `convertToProperty(space)` as intended: a fresh, unowned, undeveloped,
      unmortgaged property with the space's name, price, mortgage value, colour,
      rents and house price. */
  method ConvertToProperty(space: BoardSpace) returns (r: Result<Property>)
    requires Convertible(space)
    ensures r.Err? <==> space.IsMortgaged().Err?
    ensures r.Ok? ==> fresh(r.value) && r.value.Valid()
    ensures r.Ok? ==> r.value.name == space.name && r.value.cost == space.cost.value
                      && r.value.mortgage == space.mortgage.value && r.value.color == space.color.value
                      && r.value.rent == space.rent.value && r.value.multipliedRent == space.multpliedrent.value
                      && r.value.houseCost == space.house.value
    ensures r.Ok? ==> r.value.owner.None? && r.value.houses == 0 && !r.value.hotel && !r.value.mortgaged
  {
    var m := space.IsMortgaged();
    if m.Err? {
      return Err(m.reason);
    }
    var p := new Property(PropertyData(space.name, space.cost.value, space.mortgage.value, space.color.value,
                                       space.rent.value, space.multpliedrent.value, space.house.value));
    return Ok(p);
  }
}

=== FILE: model/card.dfy ===
/** Chance and community-chest cards of the class-based engine.  A card has a
    type, a description and an amount (a number, a text or a list of numbers);
    the constructor picks the action from the type once, and applying the card
    runs that action on the drawing player and the game.  Arithmetic that
    gives NaN or text in JavaScript (on undefined, on a non-numeric text, `+=`
    of a text) ends as `NonNumeric` naming the field it corrupts. */
module Cards {
  import opened Common
  import opened Players
  import opened BoardSpaces
  import opened MonopolyGames

  /** The action a card's closure runs, with the amount it captured.  'pay',
      'spend', 'fine' and 'tax' run the same subtraction; 'repairs' and
      'improvement' the same per-building charge. */
  datatype Action =
    | AdvanceBy(amount: Amount)
    | Charge(amount: Amount)
    | Collect(amount: Amount)
    | MoveBy(amount: Amount)
    | SendToJail
    | GoBack(amount: Amount)
    | Repairs(amount: Amount)
    | SpendEachPlayer(amount: Amount)
    | JailCard
    | EarnEachPlayer(amount: Amount)
    | NoAction

  /** The card types the constructor recognises. */
  const KNOWN_TYPES: set<string> := {"advance", "pay", "collect", "move", "jail", "back", "repairs", "spend",
                                     "spend-each-player", "fine", "tax", "jail-card", "earn-each-player",
                                     "improvement"}

  /** `getActionFunction(type, amount)`. */
  function GetActionFunction(kind: string, amount: Amount): (a: Action)
    ensures a.NoAction? <==> kind !in KNOWN_TYPES
    ensures kind in {"pay", "spend", "fine", "tax"} <==> a == Charge(amount)
    ensures kind in {"repairs", "improvement"} <==> a == Repairs(amount)
  {
    match kind
    case "advance" => AdvanceBy(amount)
    case "pay" => Charge(amount)
    case "collect" => Collect(amount)
    case "move" => MoveBy(amount)
    case "jail" => SendToJail
    case "back" => GoBack(amount)
    case "repairs" => Repairs(amount)
    case "spend" => Charge(amount)
    case "spend-each-player" => SpendEachPlayer(amount)
    case "fine" => Charge(amount)
    case "tax" => Charge(amount)
    case "jail-card" => JailCard
    case "earn-each-player" => EarnEachPlayer(amount)
    case "improvement" => Repairs(amount)
    case _ => NoAction
  }

  datatype Card = Card(kind: string, description: string, amount: Amount, action: Action)

  /** The constructor: the action is fixed from the type and amount. */
  function NewCard(kind: string, description: string, amount: Amount): (c: Card)
    ensures c.kind == kind && c.description == description && c.amount == amount
    ensures c.action == GetActionFunction(kind, amount)
  {
    Card(kind, description, amount, GetActionFunction(kind, amount))
  }

  /** The serialised card.  The action's source text is not modelled; a tag
      naming the action stands for it. */
  datatype CardJson = CardJson(kind: string, description: string, amount: Amount, actionText: string)

  function ActionText(a: Action): string
  {
    match a
    case AdvanceBy(_) => "advanceAction"
    case Charge(_) => "payAction"
    case Collect(_) => "collectAction"
    case MoveBy(_) => "moveAction"
    case SendToJail => "jailAction"
    case GoBack(_) => "backAction"
    case Repairs(_) => "repairsAction"
    case SpendEachPlayer(_) => "spendEachPlayerAction"
    case JailCard => "jailCardAction"
    case EarnEachPlayer(_) => "earnEachPlayerAction"
    case NoAction => "unknownAction"
  }

  /** `toJSON()`. */
  function ToJson(c: Card): (j: CardJson)
    ensures j.kind == c.kind && j.description == c.description && j.amount == c.amount
  {
    CardJson(c.kind, c.description, c.amount, ActionText(c.action))
  }

  /** `fromJSON(json)`: a new card from the type, description and amount; the
      serialised action text is ignored. */
  function FromJson(j: CardJson): (c: Card)
    ensures c == NewCard(j.kind, j.description, j.amount)
  {
    NewCard(j.kind, j.description, j.amount)
  }

  /** Serialising a constructed card and reading it back gives the same card,
      action included. */
  lemma JsonRoundTrip(kind: string, description: string, amount: Amount)
    ensures FromJson(ToJson(NewCard(kind, description, amount))) == NewCard(kind, description, amount)
  {
  }

  // ----- Money moved between the drawer and every other player -----

  /** Each of `ms` raised by `a`. */
  function AddAll(ms: seq<real>, a: real): (r: seq<real>)
    ensures |r| == |ms| && forall i :: 0 <= i < |ms| ==> r[i] == ms[i] + a
  {
    seq(|ms|, i requires 0 <= i < |ms| => ms[i] + a)
  }

  /** `k` times the amount, as the pass over the players adds it up. */
  function Times(a: real, k: nat): real
  {
    if k == 0 then 0.0 else Times(a, k - 1) + a
  }

  lemma {:induction false} TimesIsProduct(a: real, k: nat)
    ensures Times(a, k) == a * (k as real)
  {
    if k > 0 {
      TimesIsProduct(a, k - 1);
      assert a * (k as real) == a * ((k - 1) as real) + a;
    }
  }

  lemma {:induction false} SumAddAll(ms: seq<real>, a: real)
    ensures SumReal(AddAll(ms, a)) == SumReal(ms) + Times(a, |ms|)
  {
    if |ms| > 0 {
      SumAddAll(ms[1..], a);
      assert AddAll(ms, a)[1..] == AddAll(ms[1..], a);
    }
  }

  lemma {:induction false} SumUpdate(s: seq<real>, d: nat, v: real)
    requires d < |s|
    ensures SumReal(s[d := v]) == SumReal(s) - s[d] + v
  {
    if d == 0 {
      assert s[d := v][1..] == s[1..];
    } else {
      SumUpdate(s[1..], d - 1, v);
      assert s[d := v][1..] == s[1..][d - 1 := v];
    }
  }

  /** The balances of a player list after 'spend-each-player' with `amount`:
      every listed player other than the drawer at index `d` gains the amount,
      and the drawer, when listed, pays it once per other player. */
  function SpendEachBalances(ms: seq<real>, d: int, amount: real): (r: seq<real>)
    requires -1 <= d < |ms|
    ensures |r| == |ms|
    ensures forall i :: 0 <= i < |ms| && i != d ==> r[i] == ms[i] + amount
    ensures d >= 0 ==> r[d] == ms[d] - Times(amount, |ms| - 1)
  {
    if d < 0 then AddAll(ms, amount) else AddAll(ms, amount)[d := ms[d] - Times(amount, |ms| - 1)]
  }

  /** The balances after the drawer collects `amount` from every other
      player: the pass of `SpendEachBalances` with the amount negated. */
  function EarnEachBalances(ms: seq<real>, d: int, amount: real): (r: seq<real>)
    requires -1 <= d < |ms|
    ensures |r| == |ms|
    ensures forall i :: 0 <= i < |ms| && i != d ==> r[i] == ms[i] - amount
  {
    SpendEachBalances(ms, d, -amount)
  }

  /** With the drawer among the players, paying (or collecting from) every
      other player leaves the total money unchanged. */
  lemma SpendEachConserves(ms: seq<real>, d: nat, amount: real)
    requires d < |ms|
    ensures SumReal(SpendEachBalances(ms, d, amount)) == SumReal(ms)
  {
    SpendEachSum(ms, d, amount);
    SumAddAll(ms, amount);
  }

  lemma SpendEachSum(ms: seq<real>, d: nat, amount: real)
    requires d < |ms|
    ensures SumReal(SpendEachBalances(ms, d, amount)) == SumReal(AddAll(ms, amount)) - amount - Times(amount, |ms| - 1)
  {
    SpendEachIsUpdate(ms, d, amount);
    SumUpdate(AddAll(ms, amount), d, ms[d] - Times(amount, |ms| - 1));
  }

  lemma SpendEachIsUpdate(ms: seq<real>, d: nat, amount: real)
    requires d < |ms|
    ensures SpendEachBalances(ms, d, amount) == AddAll(ms, amount)[d := ms[d] - Times(amount, |ms| - 1)]
  {
  }

  /** 'earn-each-player' is 'spend-each-player' with the amount negated: the
      drawer gains the amount once per other player and each other player pays it. */
  lemma EarnEachMirrors(ms: seq<real>, d: nat, amount: real)
    requires d < |ms|
    ensures var r := SpendEachBalances(ms, d, -amount);
            r[d] == ms[d] + Times(amount, |ms| - 1)
            && (forall i :: 0 <= i < |ms| && i != d ==> r[i] == ms[i] - amount)
            && SumReal(r) == SumReal(ms)
  {
    SpendEachConserves(ms, d, -amount);
    TimesNeg(amount, |ms| - 1);
  }

  lemma {:induction false} TimesNeg(a: real, k: nat)
    ensures Times(-a, k) == -Times(a, k)
  {
    if k > 0 {
      TimesNeg(a, k - 1);
    }
  }

  /** The money of each listed player. */
  function Balances(ps: seq<Player>): (ms: seq<real>)
    reads ps
    ensures |ms| == |ps| && forall i :: 0 <= i < |ps| ==> ms[i] == ps[i].money
  {
    if |ps| == 0 then [] else [ps[0].money] + Balances(ps[1..])
  }

  predicate DistinctPlayers(ps: seq<Player>)
  {
    forall i, j :: 0 <= i < j < |ps| ==> ps[i] != ps[j]
  }

  /** Where the drawer stands in the player list, -1 when absent. */
  function IndexOf(ps: seq<Player>, p: Player): (i: int)
    ensures -1 <= i < |ps|
    ensures i >= 0 ==> ps[i] == p
    ensures i == -1 <==> p !in ps
  {
    FindIndex(ps, (q: Player) => q == p)
  }

  /** `spendEachPlayerAction(amount, player, game)` and, with the amount negated,
      `earnEachPlayerAction`: a pass over the game's players moving the amount
      from the drawer to each other one. */
  method MoveToEachOther(amount: real, player: Player, players: seq<Player>)
    requires DistinctPlayers(players)
    modifies players`money, player`money
    ensures var d := IndexOf(players, player);
            (forall j :: 0 <= j < |players| && j != d ==> players[j].money == old(players[j].money) + amount)
            && (d >= 0 ==> player.money == old(player.money) - Times(amount, |players| - 1))
            && (d == -1 ==> player.money == old(player.money) - Times(amount, |players|))
  {
    ghost var d := IndexOf(players, player);
    OnlyAt(players, player, d);
    var i := 0;
    while i < |players|
      invariant 0 <= i <= |players|
      invariant forall j :: 0 <= j < |players| && j != d ==>
                  players[j].money == old(players[j].money) + (if j < i then amount else 0.0)
      invariant player.money == old(player.money) - Times(amount, if 0 <= d < i then i - 1 else i)
    {
      var p := players[i];
      if p != player {
        OnlyAt(players, p, i);
        PayOver(player, p, amount);
      }
      i := i + 1;
    }
  }

  /** One step of the pass: `from` pays `to` the amount. */
  method PayOver(from: Player, to: Player, amount: real)
    requires from != to
    modifies from`money, to`money
    ensures from.money == old(from.money) - amount && to.money == old(to.money) + amount
  {
    from.money := from.money - amount;
    to.money := to.money + amount;
  }

  /** In a list without repeats, a player listed at `k` is listed nowhere else;
      a player not listed (`k` = -1) is at no index. */
  lemma OnlyAt(players: seq<Player>, p: Player, k: int)
    requires DistinctPlayers(players)
    requires -1 <= k < |players| && (k >= 0 ==> players[k] == p) && (k == -1 ==> p !in players)
    ensures forall j :: 0 <= j < |players| && j != k ==> players[j] != p
  {
  }

  /** The money the pass leaves, read back as `SpendEachBalances`. */
  lemma BalancesAfterPass(players: seq<Player>, before: seq<real>, d: int, amount: real)
    requires |before| == |players| && -1 <= d < |players|
    requires forall j :: 0 <= j < |players| && j != d ==> players[j].money == before[j] + amount
    requires d >= 0 ==> players[d].money == before[d] - Times(amount, |players| - 1)
    ensures Balances(players) == SpendEachBalances(before, d, amount)
  {
  }

  // ----- Repairs -----

  /** `reduce((acc, p) => acc + p.houses, 0)`: NaN as soon as one entry has
      no house count. */
  function SumHouses(hs: seq<Holding>): (r: Counter)
    ensures r.Some? <==> forall i :: 0 <= i < |hs| ==> hs[i].houses.Some?
  {
    if |hs| == 0 then Some(0) else Plus(hs[0].houses, SumHouses(hs[1..]))
  }

  /** The same sum over the hotel counts. */
  function SumHotels(hs: seq<Holding>): (r: Counter)
    ensures r.Some? <==> forall i :: 0 <= i < |hs| ==> hs[i].hotels.Some?
  {
    if |hs| == 0 then Some(0) else Plus(hs[0].hotels, SumHotels(hs[1..]))
  }

  /** What 'repairs' and 'improvement' charge: the first amount per house and
      the second per hotel, over every listed property.  The bill is a number
      exactly when every entry has both counts and both prices are numbers. */
  function RepairCost(hs: seq<Holding>, perHouse: Counter, perHotel: Counter): (cost: Counter)
    ensures cost.Some? <==> perHouse.Some? && perHotel.Some?
                            && forall i :: 0 <= i < |hs| ==> hs[i].houses.Some? && hs[i].hotels.Some?
    ensures cost.Some? && (forall h :: h in hs ==> h.houses == Some(0) && h.hotels == Some(0)) ==> cost == Some(0)
    ensures cost.Some? && perHouse.value >= 0 && perHotel.value >= 0
              && (forall h :: h in hs ==> h.houses.value >= 0 && h.hotels.value >= 0) ==>
              cost.value >= 0
  {
    SumsOfUndeveloped(hs);
    Plus(Product(SumHouses(hs), perHouse), Product(SumHotels(hs), perHotel))
  }

  lemma {:induction false} SumsOfUndeveloped(hs: seq<Holding>)
    ensures (forall h :: h in hs ==> h.houses == Some(0) && h.hotels == Some(0)) ==>
              SumHouses(hs) == Some(0) && SumHotels(hs) == Some(0)
    ensures (forall h :: h in hs ==> h.houses.Some? && h.houses.value >= 0 && h.hotels.Some? && h.hotels.value >= 0) ==>
              SumHouses(hs).value >= 0 && SumHotels(hs).value >= 0
  {
    if |hs| > 0 {
      assert hs[0] in hs;
      assert forall h :: h in hs[1..] ==> h in hs;
      SumsOfUndeveloped(hs[1..]);
    }
  }

  /** A player who holds any entry added by `addProperty` (whose counts are
      undefined) is billed NaN, whatever the prices. */
  lemma AddedPropertyBillsNaN(hs: seq<Holding>, k: nat, name: string, perHouse: Counter, perHotel: Counter)
    requires k < |hs| && hs[k] == NewHolding(name)
    ensures RepairCost(hs, perHouse, perHotel).None?
  {
  }

  /** Each building adds its price: one more house on a property raises the bill
      by the price per house. */
  lemma {:induction false} RepairCostOneMoreHouse(hs: seq<Holding>, k: nat, perHouse: Counter, perHotel: Counter)
    requires k < |hs| && RepairCost(hs, perHouse, perHotel).Some?
    ensures var more := hs[k := hs[k].(houses := Add(hs[k].houses, 1))];
            RepairCost(more, perHouse, perHotel).Some?
            && RepairCost(more, perHouse, perHotel).value == RepairCost(hs, perHouse, perHotel).value + perHouse.value
  {
    var more := hs[k := hs[k].(houses := Add(hs[k].houses, 1))];
    OneMoreHouse(hs, k);
    SameHotels(hs, k, more[k]);
    assert SumHouses(more).value * perHouse.value == SumHouses(hs).value * perHouse.value + perHouse.value;
  }

  lemma {:induction false} OneMoreHouse(hs: seq<Holding>, k: nat)
    requires k < |hs| && SumHouses(hs).Some?
    ensures var more := hs[k := hs[k].(houses := Add(hs[k].houses, 1))];
            SumHouses(more).Some? && SumHouses(more).value == SumHouses(hs).value + 1
  {
    var more := hs[k := hs[k].(houses := Add(hs[k].houses, 1))];
    assert hs[0].houses.Some?;
    if k == 0 {
      assert more[1..] == hs[1..];
    } else {
      assert hs[1..][k - 1] == hs[k];
      OneMoreHouse(hs[1..], k - 1);
      assert more[1..] == hs[1..][k - 1 := hs[k].(houses := Add(hs[k].houses, 1))];
    }
  }

  lemma {:induction false} SameHotels(hs: seq<Holding>, k: nat, h: Holding)
    requires k < |hs| && h.hotels == hs[k].hotels
    ensures SumHotels(hs[k := h]) == SumHotels(hs)
  {
    if k > 0 {
      SameHotels(hs[1..], k - 1, h);
      assert hs[k := h][1..] == hs[1..][k - 1 := h];
    } else {
      assert hs[k := h][1..] == hs[1..];
    }
  }

  // ----- The actions -----

  /** `advanceAction(amount, game, player)`: a number moves the player by that
      many spaces (NaN on an empty board); 'utility' and 'railroad' put the
      player on the recorded position of the FIRST such space in board order,
      whatever the current position; any other amount does nothing. */
  method AdvanceAction(amount: Amount, game: MonopolyGame, player: Player) returns (out: Outcome)
    modifies player`position
    ensures amount.Number? && |game.board| > 0 ==>
              out == Done && player.position == JsRem(old(player.position) + amount.n, |game.board|)
    ensures amount.Number? && |game.board| == 0 ==> out == NonNumeric("position")
    ensures amount.Text? && amount.s in {"utility", "railroad"} ==>
              out == Done
              && var i := FirstOfKind(game.board, amount.s);
                 player.position == if i >= 0 then game.board[i].position else old(player.position)
    ensures amount.Numbers? || (amount.Text? && amount.s !in {"utility", "railroad"}) ==>
              out == Done && player.position == old(player.position)
  {
    match amount {
    case Number(n) =>
      if |game.board| == 0 {
        return NonNumeric("position");
      }
      player.Move(n, |game.board|);
    case Text(s) =>
      if s == "utility" || s == "railroad" {
        var i := FirstOfKind(game.board, s);
        if i >= 0 {
          player.position := game.board[i].position;
        }
      }
    case Numbers(_) =>
    }
    return Done;
  }

  /** `payAction` (also 'spend'), `fineAction`, `taxAction`: the amount is
      subtracted, with no check of the player's funds.  `-=` reads a text of
      digits or a list of at most one number as that number; anything else
      leaves the money NaN. */
  method ChargeAction(amount: Amount, player: Player) returns (out: Outcome)
    modifies player`money
    ensures AmountToNumber(amount).Some? ==>
              out == Done && player.money == old(player.money) - AmountToNumber(amount).value as real
    ensures AmountToNumber(amount).None? ==> out == NonNumeric("money")
  {
    var n := AmountToNumber(amount);
    if n.None? {
      return NonNumeric("money");
    }
    player.UpdateMoney(-(n.value as real));
    return Done;
  }

  /** `collectAction`: a number is added; `+=` of a text or a list joins it to
      the money as text. */
  method CollectAction(amount: Amount, player: Player) returns (out: Outcome)
    modifies player`money
    ensures amount.Number? ==> out == Done && player.money == old(player.money) + amount.n as real
    ensures !amount.Number? ==> out == NonNumeric("money")
  {
    if !amount.Number? {
      return NonNumeric("money");
    }
    player.UpdateMoney(amount.n as real);
    return Done;
  }

  /** Index of the first space with the given name, -1 when there is none. */
  function FirstNamed(board: seq<BoardSpace>, name: string): (i: int)
    ensures -1 <= i < |board|
    ensures i >= 0 ==> board[i].name == name && forall j :: 0 <= j < i ==> board[j].name != name
    ensures i == -1 <==> forall j :: 0 <= j < |board| ==> board[j].name != name
  {
    FindIndex(board, (s: BoardSpace) => s.name == name)
  }

  /** `moveAction(amount, game, player)`: a number moves the player by that many
      spaces (NaN on an empty board); any other amount puts the player on the
      recorded position of the first space whose name equals it, if any (a
      list never equals a name). */
  method MoveAction(amount: Amount, game: MonopolyGame, player: Player) returns (out: Outcome)
    modifies player`position
    ensures amount.Number? && |game.board| > 0 ==>
              out == Done && player.position == JsRem(old(player.position) + amount.n, |game.board|)
    ensures amount.Number? && |game.board| == 0 ==> out == NonNumeric("position")
    ensures amount.Text? ==>
              out == Done
              && var i := FirstNamed(game.board, amount.s);
                 player.position == if i >= 0 then game.board[i].position else old(player.position)
    ensures amount.Numbers? ==> out == Done && player.position == old(player.position)
  {
    match amount {
    case Number(n) =>
      if |game.board| == 0 {
        return NonNumeric("position");
      }
      player.Move(n, |game.board|);
    case Text(s) =>
      var i := FirstNamed(game.board, s);
      if i >= 0 {
        player.position := game.board[i].position;
      }
    case Numbers(_) =>
    }
    return Done;
  }

  /** `jailAction(player)`: the jail flag is set; the player is not moved. */
  method JailAction(player: Player)
    modifies player`inJail
    ensures player.inJail
  {
    player.inJail := true;
  }

  /** `backAction(amount, player, game)`: moves the player back by the amount,
      which unary minus reads as `Number` does; NaN when it is not a number or
      the board is empty. */
  method BackAction(amount: Amount, player: Player, game: MonopolyGame) returns (out: Outcome)
    modifies player`position
    ensures var n := AmountToNumber(amount);
            n.Some? && |game.board| > 0 ==>
              out == Done && player.position == JsRem(old(player.position) - n.value, |game.board|)
    ensures AmountToNumber(amount).None? || |game.board| == 0 ==> out == NonNumeric("position")
  {
    var n := AmountToNumber(amount);
    if n.None? || |game.board| == 0 {
      return NonNumeric("position");
    }
    player.Move(-n.value, |game.board|);
    return Done;
  }

  /** `repairsAction` and `improvementAction`: the player pays the repair bill
      for every house and hotel listed, at `amount[0]` per house and
      `amount[1]` per hotel; a NaN bill leaves the money NaN. */
  method RepairsAction(amount: Amount, player: Player) returns (out: Outcome)
    modifies player`money
    ensures var bill := RepairCost(player.properties, ElementNumber(amount, 0), ElementNumber(amount, 1));
            (bill.Some? ==> out == Done && player.money == old(player.money) - bill.value as real)
            && (bill.None? ==> out == NonNumeric("money"))
  {
    var totalCost := RepairCost(player.properties, ElementNumber(amount, 0), ElementNumber(amount, 1));
    if totalCost.None? {
      return NonNumeric("money");
    }
    player.UpdateMoney(-(totalCost.value as real));
    return Done;
  }

  /** `jailCardAction(player)`: one more get-out-of-jail card; a count never
      set is undefined and stays NaN. */
  method JailCardAction(player: Player)
    modifies player`getOutOfJailFreeCards
    ensures player.getOutOfJailFreeCards == Add(old(player.getOutOfJailFreeCards), 1)
    ensures old(player.getOutOfJailFreeCards).None? ==> player.getOutOfJailFreeCards.None?
  {
    player.getOutOfJailFreeCards := Add(player.getOutOfJailFreeCards, 1);
  }

  /** A constructed player's card count never becomes a number, however many
      jail cards the player draws. */
  lemma {:induction false} JailCardsStayNaN(cards: Counter, draws: nat)
    requires cards.None?
    ensures Drawn(cards, draws).None?
  {
    if draws > 0 {
      JailCardsStayNaN(cards, draws - 1);
    }
  }

  /** The count after `draws` jail cards. */
  function Drawn(cards: Counter, draws: nat): Counter
  {
    if draws == 0 then cards else Add(Drawn(cards, draws - 1), 1)
  }

  /** Whether every listed player is the drawer, so that the pass moves
      nothing. */
  predicate NoOther(players: seq<Player>, player: Player)
  {
    forall j :: 0 <= j < |players| ==> players[j] == player
  }

  /** The pass both each-player actions make: every other player's balance
      moves by the amount, one way when the drawer pays and the other way
      when the drawer collects, and the drawer's balance the opposite way. */
  method PassEach(amount: real, collect: bool, player: Player, game: MonopolyGame)
    requires DistinctPlayers(game.players)
    modifies game.players`money, player`money
    ensures !collect ==> Balances(game.players) == SpendEachBalances(old(Balances(game.players)), IndexOf(game.players, player), amount)
    ensures collect ==> Balances(game.players) == EarnEachBalances(old(Balances(game.players)), IndexOf(game.players, player), amount)
    ensures IndexOf(game.players, player) == -1 ==>
              player.money == old(player.money) + (if collect then Times(amount, |game.players|) else -Times(amount, |game.players|))
  {
    var share := if collect then -amount else amount;
    ghost var before := Balances(game.players);
    MoveToEachOther(share, player, game.players);
    BalancesAfterPass(game.players, before, IndexOf(game.players, player), share);
    if collect {
      TimesNeg(amount, |game.players|);
    }
  }

  /** `spendEachPlayerAction(amount, player, game)`.  For each other player
      the drawer's money is lowered by the amount and the other's raised by
      it; `+=` of a text or a list leaves that player's money text, so a
      non-number amount corrupts the money as soon as there is another
      player, and changes nothing otherwise. */
  method SpendEachPlayerAction(amount: Amount, player: Player, game: MonopolyGame) returns (out: Outcome)
    requires DistinctPlayers(game.players)
    modifies game.players`money, player`money
    ensures amount.Number? ==>
              out == Done
              && Balances(game.players) == SpendEachBalances(old(Balances(game.players)),
                                                             IndexOf(game.players, player), amount.n as real)
    ensures amount.Number? && IndexOf(game.players, player) == -1 ==>
              player.money == old(player.money) - Times(amount.n as real, |game.players|)
    ensures !amount.Number? && NoOther(game.players, player) ==>
              out == Done && Balances(game.players) == old(Balances(game.players)) && player.money == old(player.money)
    ensures !amount.Number? && !NoOther(game.players, player) ==> out == NonNumeric("money")
  {
    if !amount.Number? {
      if NoOther(game.players, player) {
        return Done;
      }
      return NonNumeric("money");
    }
    PassEach(amount.n as real, false, player, game);
    return Done;
  }

  /** `earnEachPlayerAction(amount, player, game)`: the mirror image, each other
      player paying the drawer; here it is the drawer's `+=` that turns a
      non-number amount into text. */
  method EarnEachPlayerAction(amount: Amount, player: Player, game: MonopolyGame) returns (out: Outcome)
    requires DistinctPlayers(game.players)
    modifies game.players`money, player`money
    ensures amount.Number? ==>
              out == Done
              && Balances(game.players) == EarnEachBalances(old(Balances(game.players)),
                                                            IndexOf(game.players, player), amount.n as real)
    ensures amount.Number? && IndexOf(game.players, player) == -1 ==>
              player.money == old(player.money) + Times(amount.n as real, |game.players|)
    ensures !amount.Number? && NoOther(game.players, player) ==>
              out == Done && Balances(game.players) == old(Balances(game.players)) && player.money == old(player.money)
    ensures !amount.Number? && !NoOther(game.players, player) ==> out == NonNumeric("money")
  {
    if !amount.Number? {
      if NoOther(game.players, player) {
        return Done;
      }
      return NonNumeric("money");
    }
    PassEach(amount.n as real, true, player, game);
    return Done;
  }

  /** `card.action(game, player)`: runs the action the constructor chose, with
      the outcome and effect of that action; an action that concerns only the
      drawer leaves every other player's money alone, and a card of an unknown
      type changes nothing. */
  method ApplyCard(card: Card, game: MonopolyGame, player: Player) returns (out: Outcome)
    requires DistinctPlayers(game.players)
    modifies game.players, player
    ensures var a := card.action;
            (a.AdvanceBy? || a.MoveBy? || a.GoBack? || a.SendToJail? || a.JailCard? || a.NoAction?) ==>
              player.money == old(player.money) && Balances(game.players) == old(Balances(game.players))
    ensures var a := card.action;
            (a.Charge? || a.Collect? || a.Repairs? || a.SendToJail? || a.JailCard? || a.NoAction?) ==>
              player.position == old(player.position)
    ensures player.properties == old(player.properties) && player.name == old(player.name)
    ensures forall p :: p in game.players ==> p.properties == old(p.properties) && p.name == old(p.name)
    ensures forall p :: p in game.players && p != player ==>
              p.position == old(p.position) && p.inJail == old(p.inJail)
              && p.getOutOfJailFreeCards == old(p.getOutOfJailFreeCards)
    ensures var a := card.action;
            !a.SendToJail? ==> player.inJail == old(player.inJail)
    ensures var a := card.action;
            !a.JailCard? ==> player.getOutOfJailFreeCards == old(player.getOutOfJailFreeCards)
    ensures var a := card.action;
            (a.Charge? || a.Collect? || a.Repairs?) ==>
              forall p :: p in game.players && p != player ==> p.money == old(p.money)
    ensures card.action.NoAction? ==> out == Done
    ensures card.action.SendToJail? ==> out == Done && player.inJail
    ensures card.action.JailCard? ==>
              out == Done && player.getOutOfJailFreeCards == Add(old(player.getOutOfJailFreeCards), 1)
    ensures card.action.Charge? ==>
              var n := AmountToNumber(card.action.amount);
              (n.Some? ==> out == Done && player.money == old(player.money) - n.value as real)
              && (n.None? ==> out == NonNumeric("money"))
    ensures card.action.Collect? ==>
              (card.action.amount.Number? ==> out == Done && player.money == old(player.money) + card.action.amount.n as real)
              && (!card.action.amount.Number? ==> out == NonNumeric("money"))
    ensures card.action.Repairs? ==>
              var bill := RepairCost(player.properties, ElementNumber(card.action.amount, 0), ElementNumber(card.action.amount, 1));
              (bill.Some? ==> out == Done && player.money == old(player.money) - bill.value as real)
              && (bill.None? ==> out == NonNumeric("money"))
    ensures (card.action.AdvanceBy? || card.action.MoveBy?) && card.action.amount.Number? ==>
              if |game.board| > 0 then out == Done && player.position == JsRem(old(player.position) + card.action.amount.n, |game.board|)
              else out == NonNumeric("position")
    ensures card.action.AdvanceBy? && card.action.amount.Text? && card.action.amount.s in {"utility", "railroad"} ==>
              var i := FirstOfKind(game.board, card.action.amount.s);
              out == Done && player.position == if i >= 0 then game.board[i].position else old(player.position)
    ensures card.action.AdvanceBy? && !card.action.amount.Number? && !(card.action.amount.Text? && card.action.amount.s in {"utility", "railroad"}) ==>
              out == Done && player.position == old(player.position)
    ensures card.action.MoveBy? && card.action.amount.Text? ==>
              var i := FirstNamed(game.board, card.action.amount.s);
              out == Done && player.position == if i >= 0 then game.board[i].position else old(player.position)
    ensures card.action.MoveBy? && card.action.amount.Numbers? ==> out == Done && player.position == old(player.position)
    ensures card.action.GoBack? ==>
              var n := AmountToNumber(card.action.amount);
              if n.Some? && |game.board| > 0 then out == Done && player.position == JsRem(old(player.position) - n.value, |game.board|)
              else out == NonNumeric("position")
    ensures card.action.SpendEachPlayer? && card.action.amount.Number? ==>
              out == Done && Balances(game.players) == SpendEachBalances(old(Balances(game.players)), IndexOf(game.players, player), card.action.amount.n as real)
    ensures card.action.EarnEachPlayer? && card.action.amount.Number? ==>
              out == Done && Balances(game.players) == EarnEachBalances(old(Balances(game.players)), IndexOf(game.players, player), card.action.amount.n as real)
    ensures (card.action.SpendEachPlayer? || card.action.EarnEachPlayer?) && !card.action.amount.Number? ==>
              if NoOther(game.players, player) then out == Done && Balances(game.players) == old(Balances(game.players))
              else out == NonNumeric("money")
  {
    match card.action
    case AdvanceBy(a) => out := AdvanceAction(a, game, player);
    case Charge(a) => out := ChargeAction(a, player);
    case Collect(a) => out := CollectAction(a, player);
    case MoveBy(a) => out := MoveAction(a, game, player);
    case SendToJail => JailAction(player); out := Done;
    case GoBack(a) => out := BackAction(a, player, game);
    case Repairs(a) => out := RepairsAction(a, player);
    case SpendEachPlayer(a) => out := SpendEachPlayerAction(a, player, game);
    case JailCard => JailCardAction(player); out := Done;
    case EarnEachPlayer(a) => out := EarnEachPlayerAction(a, player, game);
    case NoAction => out := Done;
  }
}

=== FILE: model/cardstack.dfy ===
/** The card stack of the chat-session engine: the keys of a card table
    shuffled once, the same order without the jail-release card, and one
    counter shared by the two endless generators that walk them. */
module CardStacks {
  import opened Common

  const GET_OUT_OF_JAIL := "getOutOfJail"

  /** One step of `shuffle`: the element at index `n` is spliced out and
      pushed at the end. */
  function MoveToEnd<T>(a: seq<T>, n: nat): (b: seq<T>)
    requires n < |a|
    ensures |b| == |a|
    ensures b[|b| - 1] == a[n]
  {
    a[..n] + a[n + 1..] + [a[n]]
  }

  /** Moving one element to the end keeps every element, as many times. */
  lemma MoveToEndPermutes<T>(a: seq<T>, n: nat)
    requires n < |a|
    ensures multiset(MoveToEnd(a, n)) == multiset(a)
  {
    assert a == a[..n] + [a[n]] + a[n + 1..];
  }

  /** The indices `shuffle` draws are each below the array's length. */
  predicate ValidPicks(picks: seq<nat>, length: nat)
  {
    forall k :: 0 <= k < |picks| ==> picks[k] < length
  }

  /** The order `shuffle` leaves after the first `steps` draws. */
  function ShuffledBy<T>(a: seq<T>, picks: seq<nat>, steps: nat): (b: seq<T>)
    requires steps <= |picks| && ValidPicks(picks, |a|)
    ensures |b| == |a|
  {
    if steps == 0 then a
    else MoveToEnd(ShuffledBy(a, picks, steps - 1), picks[steps - 1])
  }

  /** One draw of the shuffle keeps every element, as many times. */
  lemma StepPermutes<T>(a: seq<T>, picks: seq<nat>, steps: nat)
    requires 0 < steps <= |picks| && ValidPicks(picks, |a|)
    ensures multiset(ShuffledBy(a, picks, steps)) == multiset(ShuffledBy(a, picks, steps - 1))
  {
    MoveToEndPermutes(ShuffledBy(a, picks, steps - 1), picks[steps - 1]);
  }

  /** However many steps are taken, the shuffle keeps every element, as many
      times. */
  lemma {:induction false} ShufflePermutes<T>(a: seq<T>, picks: seq<nat>, steps: nat)
    requires steps <= |picks| && ValidPicks(picks, |a|)
    ensures multiset(ShuffledBy(a, picks, steps)) == multiset(a)
  {
    if steps > 0 {
      calc {
        multiset(ShuffledBy(a, picks, steps));
        { StepPermutes(a, picks, steps); }
        multiset(ShuffledBy(a, picks, steps - 1));
        { ShufflePermutes(a, picks, steps - 1); }
        multiset(a);
      }
    }
  }

  /** `shuffle(array)` with the indices `Math.floor(Math.random() *
      array.length)` drew: as many times as the array is long, the element
      at the drawn index moves to the end.  The result holds the same keys,
      as many times each. */
  method Shuffle<T>(keys: seq<T>, picks: seq<nat>) returns (shuffled: seq<T>)
    requires |picks| >= |keys| && ValidPicks(picks, |keys|)
    ensures shuffled == ShuffledBy(keys, picks, |keys|)
    ensures |shuffled| == |keys| && multiset(shuffled) == multiset(keys)
  {
    shuffled := keys;
    var i := 0;
    while i < |keys|
      invariant 0 <= i <= |keys| && |shuffled| == |keys|
      invariant shuffled == ShuffledBy(keys, picks, i)
    {
      shuffled := MoveToEnd(shuffled, picks[i]);
      i := i + 1;
    }
    ShufflePermutes(keys, picks, |keys|);
  }

  /** Keys other than the jail-release card. */
  predicate Cardless(key: string)
  {
    key != GET_OUT_OF_JAIL
  }

  /** The cardless order is the cardful order with every jail-release key
      taken out and nothing else. */
  lemma {:induction false} CardlessDropsOnlyTheCard(cardful: seq<string>)
    ensures GET_OUT_OF_JAIL !in Filter(cardful, Cardless)
    ensures forall k :: k in cardful && k != GET_OUT_OF_JAIL ==> k in Filter(cardful, Cardless)
    ensures |Filter(cardful, Cardless)| == |cardful| - multiset(cardful)[GET_OUT_OF_JAIL]
  {
    if |cardful| > 0 {
      CardlessDropsOnlyTheCard(cardful[1..]);
      assert cardful == [cardful[0]] + cardful[1..];
      assert multiset(cardful) == multiset{cardful[0]} + multiset(cardful[1..]);
    }
  }

  class AbstractStack {
    /** The shuffled keys, and the same without the jail-release card. */
    const cardful: seq<string>
    const cardless: seq<string>
    /** The counter both generators share. */
    var i: int

    predicate Valid()
      reads this
    {
      i >= 0 && cardless == Filter(cardful, Cardless)
    }

    /** `new AbstractStack(stack)` over the keys of the card table, with the
        indices the shuffle draws. */
    constructor (keys: seq<string>, picks: seq<nat>)
      requires |picks| >= |keys| && ValidPicks(picks, |keys|)
      ensures Valid() && i == 0
      ensures |cardful| == |keys| && multiset(cardful) == multiset(keys)
    {
      var shuffled := Shuffle(keys, picks);
      cardful := shuffled;
      cardless := Filter(shuffled, Cardless);
      i := 0;
    }

    /** `selectToggler(flag)`: the order of the generator chosen, the cardful
        one for a truthy flag. */
    function SelectToggler(withCard: bool): (order: seq<string>)
      requires Valid()
      reads this
      ensures withCard ==> order == cardful
      ensures !withCard ==> order == cardless && GET_OUT_OF_JAIL !in order
    {
      CardlessDropsOnlyTheCard(cardful);
      if withCard then cardful else cardless
    }

    /** `next()` on the chosen generator: the shared counter moves on, back
        to 0 once it reaches the chosen order's length, and the key there is
        yielded (undefined for an empty order).  The counter stays within the
        chosen order. */
    method Next(withCard: bool) returns (key: Option<string>)
      requires Valid()
      modifies this`i
      ensures Valid()
      ensures var order := SelectToggler(withCard);
              i == (if old(i) + 1 >= |order| then 0 else old(i) + 1)
              && (|order| > 0 ==> i < |order| && key == Some(order[i]))
              && (|order| == 0 ==> key == None)
      ensures var order := SelectToggler(withCard);
              old(i) == 0 && |order| > 1 ==> key == Some(order[1])
    {
      var order := SelectToggler(withCard);
      i := i + 1;
      if i >= |order| {
        i := 0;
      }
      key := if i < |order| then Some(order[i]) else None;
    }
  }
}

=== FILE: model/cashplayer.dfy ===
/** The player of the dice-and-jail engine (the `Player` built from a chat
    user and a board).  Its Go bonus is credited to `cash`, a purse kept apart
    from the `balance` that payments draw on.  Every operation reports to the
    player's chat interaction, which the player never receives: each report
    throws once the operation's effect up to that point has taken place.  The
    model keeps whether an interaction is attached as a flag.

    Its mortgage toggles index the BOARD array with the property's name, which
    is undefined for every street name, so toggling a property the player
    owns throws unless its name is an index, "length" or an inherited member
    of the array (`ToggleMortgageAsWritten`, `ToggleUnmortgageAsWritten`);
    `ToggleMortgage` and `ToggleUnmortgage` find the board space by name. */
module CashPlayers {
  import opened Common
  import opened GuardedPlayers

  const STARTING_BALANCE := 1500

  /** A space of the board this player walks, with its mortgage flag. */
  datatype Tile = Tile(name: string, kind: string, mortgaged: bool)

  /** The board with the flag of space `i` set to `flag` (no space for -1). */
  function SetTileMortgaged(board: seq<Tile>, i: int, flag: bool): (r: seq<Tile>)
    requires -1 <= i < |board|
    ensures |r| == |board|
    ensures forall j :: 0 <= j < |board| && j != i ==> r[j] == board[j]
    ensures i >= 0 ==> r[i] == board[i].(mortgaged := flag)
  {
    if i < 0 then board else board[i := board[i].(mortgaged := flag)]
  }

  /** The exception of reading the flag of a board space that is not there. */
  const NO_TILE := "TypeError: cannot read properties of undefined (reading 'mortgaged')"

  /** `board[name]` on the board array: the space at the index the name
      denotes, or -1 when the name reaches no space. */
  function TileAsWritten(board: seq<Tile>, name: string): (i: int)
    ensures -1 <= i < |board|
    ensures i >= 0 <==> ArraySlot(|board|, name).Element?
    ensures i >= 0 ==> ArrayKey(name) == Some(i)
  {
    match ArraySlot(|board|, name)
    case Element(k) => k
    case _ => -1
  }

  /** The first space of the board with that name, or -1. */
  function TileNamed(board: seq<Tile>, name: string): (i: int)
    ensures -1 <= i < |board|
    ensures i >= 0 ==> board[i].name == name && forall j :: 0 <= j < i ==> board[j].name != name
    ensures i == -1 <==> forall j :: 0 <= j < |board| ==> board[j].name != name
  {
    FindIndex(board, (t: Tile) => t.name == name)
  }

  /** Finding a space by name does not see the mortgage flags. */
  lemma TileNamedIgnoresFlags(board: seq<Tile>, i: int, flag: bool, name: string)
    requires -1 <= i < |board|
    ensures TileNamed(SetTileMortgaged(board, i, flag), name) == TileNamed(board, name)
  {
    var r := SetTileMortgaged(board, i, flag);
    assert forall j :: 0 <= j < |board| ==> r[j].name == board[j].name;
  }

  /** Mortgaging an unmortgaged space by name and unmortgaging it by name
      gives back the same board. */
  lemma TileMortgageRoundTrip(board: seq<Tile>, name: string)
    requires TileNamed(board, name) >= 0 && !board[TileNamed(board, name)].mortgaged
    ensures var m := SetTileMortgaged(board, TileNamed(board, name), true);
            SetTileMortgaged(m, TileNamed(m, name), false) == board
  {
    var i := TileNamed(board, name);
    TileNamedIgnoresFlags(board, i, true, name);
    assert SetTileMortgaged(SetTileMortgaged(board, i, true), i, false) == board;
  }

  class Player {
    const name: string
    const id: string
    const username: string
    var properties: seq<string>
    var balance: int
    var cash: int
    /** The board array handed to the player, whose spaces carry the mortgage flags. */
    var board: seq<Tile>
    /** `_position`: NaN (`None`) once a move on an empty board has computed it. */
    var position: Counter
    var isJailed: bool
    var ownsFreedomCommunity: bool
    var ownsFreedomChance: bool
    var hasLeftGame: bool
    /** Whether a chat interaction is attached: every report throws without one. */
    var interactive: bool

    /** `new Player(name, user, board)`: at the start, with 1500 in the
        balance, nothing in cash, no properties, free and without cards. */
    constructor (name: string, id: string, username: string, board: seq<Tile>)
      ensures this.name == name && this.id == id && this.username == username && this.board == board
      ensures position == Some(0) && balance == STARTING_BALANCE && cash == 0 && properties == []
      ensures !isJailed && !ownsFreedomCommunity && !ownsFreedomChance && !hasLeftGame
      ensures !interactive
    {
      this.name := name;
      this.id := id;
      this.username := username;
      this.board := board;
      position := Some(0);
      balance := STARTING_BALANCE;
      properties := [];
      cash := 0;
      isJailed := false;
      ownsFreedomCommunity := false;
      ownsFreedomChance := false;
      hasLeftGame := false;
      interactive := false;
    }

    /** The `position` getter: the space stood on, undefined off the board. */
    function CurrentTile(): (t: Option<Tile>)
      reads this
      ensures t.Some? <==> position.Some? && 0 <= position.value < |board|
    {
      if position.Some? && 0 <= position.value < |board| then Some(board[position.value]) else None
    }

    /** `interaction.reply(...)`. */
    function Reply(): (out: Outcome)
      reads this
      ensures out.Threw? <==> !interactive
    {
      if interactive then Done else Threw("TypeError: cannot read properties of undefined (reading 'reply')")
    }

    /** `earn(amount)`: credits the cash purse, never the balance. */
    method Earn(amount: int) returns (out: Outcome)
      modifies this`cash
      ensures cash == old(cash) + amount
      ensures out == Reply()
    {
      cash := cash + amount;
      out := Reply();
    }

    /** `move(number)`: the new index is the old one plus the steps with
        JavaScript's remainder (NaN on an empty board); a lower index than
        before earns 200 in cash first.  When that report throws, the move
        stops before the position changes; otherwise the position changes,
        then the report throws without an interaction, and reading the new
        space's name throws off the board. */
    method Move(steps: int) returns (out: Outcome)
      modifies this`position, this`cash
      ensures balance == old(balance)
      ensures var moved := Moved(old(position), Some(steps), |board|);
              var passed := Passed(old(position), moved);
              cash == old(cash) + (if passed then GO_BONUS else 0)
              && (passed && !interactive ==> out.Threw? && position == old(position))
              && (!passed || interactive ==> position == moved && (out.Threw? <==> !interactive || CurrentTile().None?))
    {
      var newPosition := Moved(position, Some(steps), |board|);
      if Passed(position, newPosition) {
        out := Earn(GO_BONUS);
        if out.Threw? {
          return out;
        }
      }
      position := newPosition;
      if !interactive {
        return Reply();
      }
      if CurrentTile().None? {
        return Threw("TypeError: cannot read properties of undefined (reading 'name')");
      }
      out := Reply();
    }

    /** `pay(amount)`: a guarded payment from the balance, then a report. */
    method Pay(amount: int) returns (out: Outcome)
      modifies this`balance
      ensures balance == AfterPayment(old(balance), amount)
      ensures old(balance) >= 0 ==> balance >= 0
      ensures out == Reply()
    {
      if balance >= amount {
        balance := balance - amount;
      }
      out := Reply();
    }

    /** `toggleMortgage(name)` as written: a name the player does not own
        changes nothing; an owned one is looked up on the board array by its
        name.  An index of the board reaches its space, which is mortgaged if
        it was not.  An inherited member of the array takes the flag itself, so
        the board is unchanged; the key "length" gives a number, and setting a
        flag on it throws; any other name is undefined, and reading its flag
        throws. */
    method ToggleMortgageAsWritten(name: string) returns (out: Outcome)
      modifies this`board
      ensures name !in properties ==> out == Done && board == old(board)
      ensures name in properties && ArraySlot(|old(board)|, name).Undefined? ==>
                out == Threw(NO_TILE) && board == old(board)
      ensures name in properties && ArraySlot(|old(board)|, name) == LengthOf ==>
                out == Threw(NO_FLAG_ON_NUMBER) && board == old(board)
      ensures name in properties && ArraySlot(|old(board)|, name) == Member ==>
                out == Done && board == old(board)
      ensures name in properties && ArraySlot(|old(board)|, name).Element? ==>
                out == Done && board == SetTileMortgaged(old(board), TileAsWritten(old(board), name), true)
    {
      var owned := FindIndex(properties, (p: string) => p == name);
      if owned == -1 {
        return Done;
      }
      match ArraySlot(|board|, name)
      case Undefined => return Threw(NO_TILE);
      case LengthOf => return Threw(NO_FLAG_ON_NUMBER);
      case Member => return Done;
      case Element(i) =>
        if !board[i].mortgaged {
          board := SetTileMortgaged(board, i, true);
        }
        return Done;
    }

    /** `toggleUnmortgage(name)` as written: the same lookup, clearing the
        flag.  The number under "length" has no flag, so it is taken as not
        mortgaged and nothing changes; an inherited member clears its own
        flag, if any, and the board is unchanged. */
    method ToggleUnmortgageAsWritten(name: string) returns (out: Outcome)
      modifies this`board
      ensures name !in properties ==> out == Done && board == old(board)
      ensures name in properties && ArraySlot(|old(board)|, name).Undefined? ==>
                out == Threw(NO_TILE) && board == old(board)
      ensures name in properties && (ArraySlot(|old(board)|, name) == LengthOf || ArraySlot(|old(board)|, name) == Member) ==>
                out == Done && board == old(board)
      ensures name in properties && ArraySlot(|old(board)|, name).Element? ==>
                out == Done && board == SetTileMortgaged(old(board), TileAsWritten(old(board), name), false)
    {
      var owned := FindIndex(properties, (p: string) => p == name);
      if owned == -1 {
        return Done;
      }
      match ArraySlot(|board|, name)
      case Undefined => return Threw(NO_TILE);
      case LengthOf => return Done;
      case Member => return Done;
      case Element(i) =>
        if board[i].mortgaged {
          board := SetTileMortgaged(board, i, false);
        }
        return Done;
    }

    /** Mortgaging an owned property by name: the board space of that name is
        mortgaged; a name not owned, or not on the board, changes nothing. */
    method ToggleMortgage(name: string)
      modifies this`board
      ensures name !in properties ==> board == old(board)
      ensures name in properties ==> board == SetTileMortgaged(old(board), TileNamed(old(board), name), true)
    {
      var owned := FindIndex(properties, (p: string) => p == name);
      if owned == -1 {
        return;
      }
      board := SetTileMortgaged(board, TileNamed(board, name), true);
    }

    /** Unmortgaging an owned property by name: the inverse of `ToggleMortgage`. */
    method ToggleUnmortgage(name: string)
      modifies this`board
      ensures name !in properties ==> board == old(board)
      ensures name in properties ==> board == SetTileMortgaged(old(board), TileNamed(old(board), name), false)
    {
      var owned := FindIndex(properties, (p: string) => p == name);
      if owned == -1 {
        return;
      }
      board := SetTileMortgaged(board, TileNamed(board, name), false);
    }

    /** `jail(reason)`: jailed; the three known reasons are reported. */
    method Jail(reason: string) returns (out: Outcome)
      modifies this`isJailed
      ensures isJailed
      ensures out.Threw? <==> reason in {"card", "tile", "3 doubles"} && !interactive
    {
      isJailed := true;
      if reason in {"card", "tile", "3 doubles"} {
        out := Reply();
      } else {
        out := Done;
      }
    }

    /** `free(reason)`: released; the four known reasons are reported, and a
        release by card then spends both freedom cards.  When the report
        throws, the cards are kept. */
    method Free(reason: string) returns (out: Outcome)
      modifies this`isJailed, this`ownsFreedomCommunity, this`ownsFreedomChance
      ensures !isJailed
      ensures out.Threw? <==> reason in {"card", "3 turns", "doubles", "fine"} && !interactive
      ensures reason == "card" && interactive ==> !ownsFreedomCommunity && !ownsFreedomChance
      ensures !(reason == "card" && interactive) ==>
                ownsFreedomCommunity == old(ownsFreedomCommunity) && ownsFreedomChance == old(ownsFreedomChance)
    {
      isJailed := false;
      if reason in {"card", "3 turns", "doubles", "fine"} {
        out := Reply();
        if out.Threw? {
          return;
        }
      } else {
        out := Done;
      }
      if reason == "card" && (ownsFreedomCommunity || ownsFreedomChance) {
        ownsFreedomCommunity := false;
        ownsFreedomChance := false;
      }
    }

    /** `releaseProperty(records)`: the first record the player's username owns
        loses its owner, and no other record changes; reading the price of a
        name missing from the board's catalogue throws before that; the report
        follows. */
    method ReleaseProperty(records: seq<Deed>, catalogue: set<string>) returns (out: Outcome, released: seq<Deed>)
      ensures var i := FirstOwned(records, Some(username));
              (i == -1 ==> out == Reply() && released == records)
              && (i >= 0 && records[i].name !in catalogue ==> out.Threw? && released == records)
              && (i >= 0 && records[i].name in catalogue ==>
                    out == Reply() && released == records[i := records[i].(owner := None)])
      ensures released != records ==> CountOwned(released, Some(username)) == CountOwned(records, Some(username)) - 1
    {
      var i := FirstOwned(records, Some(username));
      if i == -1 {
        return Reply(), records;
      }
      if records[i].name !in catalogue {
        return Threw("TypeError: cannot read properties of undefined (reading 'cost')"), records;
      }
      released := records[i := records[i].(owner := None)];
      ReleaseOneLess(records, i, Some(username));
      out := Reply();
    }
  }

  /** A player owning Baltic Avenue cannot mortgage it as written: the board
      array has no entry under that name, so the toggle throws and the board
      keeps its flags. */
  method BalticAvenueThrows(board: seq<Tile>) returns (out: Outcome, after: seq<Tile>)
    ensures out.Threw? && after == board
  {
    var p := new Player("ann", "1", "ann", board);
    p.properties := ["Baltic Avenue"];
    assert !IsDigit("Baltic Avenue"[0]);
    out := p.ToggleMortgageAsWritten("Baltic Avenue");
    after := p.board;
  }
}

=== FILE: model/chancecards.dfy ===
/** The chance pile of the chat-session engine.  Each card table entry is a
    factory that builds a card for the drawing player: a message and an
    effect.  The same table exists twice, once beside the session and once
    among the general utilities; the copies differ only where noted. */
module ChanceCards {
  import opened Common
  import opened Sessions
  import opened CardStacks

  /** The two copies of the chance table. */
  datatype Copy = SessionCopy | UtilityCopy

  /** The effect a built card carries; `Undefined` is the effect of the
      jail card, whose factory stores the (undefined) result of jailing. */
  datatype Effect =
    | AdvanceToGo
    | AdvanceToTile
    | GetOutOfJail
    | GoBack3Spaces
    | Receive(amount: real)
    | PayAllPlayers
    | Undefined

  /** `getDistance(pos, dest)`. */
  datatype Placement = Placement(destination: int, distance: int)

  /** `getDistance(pos, dest)`: the destination and how far it is. */
  function GetDistance(pos: int, dest: int): (p: Placement)
    ensures p.destination == dest && p.distance >= 0
    ensures p.distance == 0 <==> pos == dest
    ensures pos + p.distance == dest || pos - p.distance == dest
  {
    Placement(dest, if pos >= dest then pos - dest else dest - pos)
  }

  /** The distance does not depend on the direction. */
  lemma DistanceIsSymmetric(pos: int, dest: int)
    ensures GetDistance(pos, dest).distance == GetDistance(dest, pos).distance
  {
  }

  /** The amounts of the three cards that pay the drawer. */
  function ReceiveAmount(key: string): (amount: Option<real>)
    ensures amount.Some? <==> key in {"receiveReturnOnInvestment", "winCrosswords", "receiveDividents"}
    ensures amount.Some? ==> amount.value in {150.0, 100.0, 50.0}
  {
    match key
    case "receiveReturnOnInvestment" => Some(150.0)
    case "winCrosswords" => Some(100.0)
    case "receiveDividents" => Some(50.0)
    case _ => None
  }

  /** Building the card a drawn key names, for the drawing player.  The
      nearest-utility factory computes distances to tile objects and then
      reads a field those records lack, so it always throws; the
      utility copy of the release-card factory names a player it has no
      binding for and throws too.  The jail factory jails the player while
      the card is being built. */
  method Build(key: string, player: Player, copy: Copy) returns (r: Result<Effect>)
    modifies player`isJailed
    ensures key == "jailPlayer" ==> r == Ok(Undefined) && player.isJailed
    ensures key != "jailPlayer" ==> player.isJailed == old(player.isJailed)
    ensures ReceiveAmount(key).Some? ==> r == Ok(Receive(ReceiveAmount(key).value))
    ensures key == "advanceToGo" ==> r == Ok(AdvanceToGo)
    ensures key in {"advanceToIllinois", "advanceToStCharles", "advanceToBoardwalk"} ==> r == Ok(AdvanceToTile)
    ensures key == "advanceToNearestUtility" ==> r.Err?
    ensures key == "getOutOfJail" ==> (r == Ok(GetOutOfJail) <==> copy == SessionCopy) && (r.Err? <==> copy == UtilityCopy)
    ensures key == "goBack3Spaces" ==> r == Ok(GoBack3Spaces)
    ensures key == "payAllPlayers" ==> r == Ok(PayAllPlayers)
  {
    var amount := ReceiveAmount(key);
    if amount.Some? {
      return Ok(Receive(amount.value));
    }
    match key {
      case "jailPlayer" =>
        player.Jail("card");
        r := Ok(Undefined);
      case "advanceToGo" =>
        r := Ok(AdvanceToGo);
      case "advanceToIllinois" =>
        r := Ok(AdvanceToTile);
      case "advanceToStCharles" =>
        r := Ok(AdvanceToTile);
      case "advanceToBoardwalk" =>
        r := Ok(AdvanceToTile);
      case "advanceToNearestUtility" =>
        r := Err("TypeError: cannot read properties of undefined (reading 'name')");
      case "getOutOfJail" =>
        r := if copy == SessionCopy then Ok(GetOutOfJail) else Err("ReferenceError: player is not defined");
      case "goBack3Spaces" =>
        r := Ok(GoBack3Spaces);
      case "payAllPlayers" =>
        r := Ok(PayAllPlayers);
      case _ =>
        r := Err("TypeError: card is not a function");
    }
  }

  /** `goBack3Spaces` as written: `goBack(-3)` moves three tiles forward and
      never wraps. */
  method GoBack3SpacesAsWritten(player: Player)
    modifies player`position
    ensures player.position == WentBack(old(player.position), -3, |player.session.board|)
    ensures old(player.position) >= 0 ==> player.position == old(player.position) + 3
  {
    player.GoBack(-3);
  }

  /** Going back three spaces: from a tile of a board of at least three
      tiles the player lands three tiles earlier, wrapping past Go without a
      bonus. */
  method MoveBack3Spaces(player: Player)
    modifies player`position
    ensures player.position == WentBack(old(player.position), 3, |player.session.board|)
    ensures 0 <= old(player.position) < |player.session.board| && |player.session.board| >= 3 ==>
              player.position == (old(player.position) - 3) % |player.session.board|
              && 0 <= player.position < |player.session.board|
  {
    if 0 <= player.position < |player.session.board| && |player.session.board| >= 3 {
      GoBackIsModular(player.position, 3, |player.session.board|);
    }
    player.GoBack(3);
  }

  /** A built card's effect applied to the player who drew it.  Advancing to
      Go moves by the board length less the position, so from any position
      the player reaches Go exactly and is paid the 200 once; the
      advance-to-tile cards bind no matching function and throw; the
      release card goes to the drawer only while the pool has it, and leaves
      the pool; the three receive cards pay their amount; paying all players
      names an unbound variable and throws as soon as someone is registered;
      the jail card has no effect to call.  Going back three spaces calls
      `goBack(-3)`, which moves the player three tiles forward; the session
      copy then resolves the tile with an unbound `roll` and throws, and the
      utility copy resolves the tile. */
  method Apply(effect: Effect, player: Player, session: Session, copy: Copy) returns (out: Outcome)
    requires player.session == session
    modifies player`position, player`cash, player`ownsFreedomChance, player`isJailed, session`hasChanceOutOfJail
    ensures effect == AdvanceToGo ==>
              out == Done && player.position == 0 && player.cash == old(player.cash) + GO_BONUS
    ensures effect == AdvanceToTile || effect == Undefined ==>
              out.Threw? && player.position == old(player.position) && player.cash == old(player.cash)
    ensures effect == GetOutOfJail ==>
              out == Done
              && player.ownsFreedomChance == (old(player.ownsFreedomChance) || old(session.hasChanceOutOfJail))
              && !session.hasChanceOutOfJail
    ensures effect.Receive? ==> out == Done && player.cash == old(player.cash) + effect.amount
    ensures effect == PayAllPlayers ==> (out.Threw? <==> session.players != map[]) && player.cash == old(player.cash)
    ensures effect == GoBack3Spaces ==>
              player.position == WentBack(old(player.position), -3, |session.board|)
              && (copy == SessionCopy ==> out.Threw? && player.cash == old(player.cash))
    ensures effect != GetOutOfJail ==>
              player.ownsFreedomChance == old(player.ownsFreedomChance) && session.hasChanceOutOfJail == old(session.hasChanceOutOfJail)
  {
    match effect {
      case AdvanceToGo =>
        out := player.Advance(|session.board| - player.position);
      case AdvanceToTile =>
        out := Threw("TypeError: cannot read properties of undefined (reading 'bind')");
      case GetOutOfJail =>
        if session.hasChanceOutOfJail {
          player.ownsFreedomChance := true;
          session.hasChanceOutOfJail := false;
        }
        out := Done;
      case GoBack3Spaces =>
        GoBack3SpacesAsWritten(player);
        if copy == SessionCopy {
          out := Threw("ReferenceError: roll is not defined");
        } else {
          var r := session.HandleTileAction(player);
          out := if r.Err? then Threw(r.reason) else Done;
        }
      case Receive(amount) =>
        player.Earn(amount);
        out := Done;
      case PayAllPlayers =>
        out := if session.players != map[] then Threw("ReferenceError: otherPlayer is not defined") else Done;
      case Undefined =>
        out := Threw("TypeError: card.effect is not a function");
    }
  }

  /** `drawCard(session)`: the next key of the stack's generator chosen by
      whether the pool still holds the chance release card; once the card is
      out of the pool it cannot be drawn. */
  method DrawCard(stack: AbstractStack, session: Session) returns (key: Option<string>)
    requires stack.Valid()
    modifies stack`i
    ensures stack.Valid()
    ensures var order := stack.SelectToggler(session.hasChanceOutOfJail);
            (|order| > 0 ==> key.Some? && key.value in order) && (|order| == 0 ==> key == None)
    ensures !session.hasChanceOutOfJail ==> key != Some(GET_OUT_OF_JAIL)
    ensures session.hasChanceOutOfJail && |stack.cardful| > 0 ==> key.Some? && key.value in stack.cardful
  {
    key := stack.Next(session.hasChanceOutOfJail);
  }
}

=== FILE: model/common.dfy ===
/** Small building blocks shared by every variant of the Monopoly engine:
    optional values (JavaScript's `undefined`/`null`), how an operation ends
    (normally or with an exception), JavaScript's remainder, first-match search
    and dice faces drawn from an injected random number. */
module Common {

  /** `None` stands for JavaScript's `undefined` or `null`. */
  datatype Option<T> = None | Some(value: T)

  /** How a JavaScript operation ended: normally, with an exception that
      escaped it, or normally but leaving the numeric field `field` NaN or a
      text (arithmetic on undefined, on a non-numeric text, or `+=` of a text).
      The model does not carry such a value: the field keeps its previous
      model value and contracts promise nothing about it. */
  datatype Outcome = Done | Threw(reason: string) | NonNumeric(field: string)

  /** A counter the source may leave undefined: `None` is undefined or NaN. */
  type Counter = Option<int>

  /** `x + d` on such a counter: undefined or NaN plus a number is NaN. */
  function Add(x: Counter, d: int): (r: Counter)
    ensures r.Some? <==> x.Some?
    ensures r.Some? ==> r.value == x.value + d
  {
    if x.None? then None else Some(x.value + d)
  }

  /** A value, or the exception thrown while computing it. */
  datatype Result<T> = Ok(value: T) | Err(reason: string)

  /** The amount printed on a card: a number, a text or a list of numbers. */
  datatype Amount = Number(n: int) | Text(s: string) | Numbers(ns: seq<int>)

  predicate IsDigit(c: char)
  {
    '0' <= c <= '9'
  }

  /** The value of a string of decimal digits. */
  function DecimalValue(s: string): (n: nat)
    requires forall i :: 0 <= i < |s| ==> IsDigit(s[i])
    ensures |s| == 1 ==> n == s[0] as int - '0' as int
  {
    if |s| == 0 then 0
    else
      assert IsDigit(s[|s| - 1]);
      10 * DecimalValue(s[..|s| - 1]) + (s[|s| - 1] as int - '0' as int)
  }

  /** JavaScript's `Number(s)` for strings of decimal digits: the empty string
      is 0 and anything holding a non-digit is NaN (`None`).  Signs, blanks,
      fractions and exponents are not modelled. */
  function StringToNumber(s: string): (r: Option<int>)
    ensures r.Some? <==> forall i :: 0 <= i < |s| ==> IsDigit(s[i])
    ensures |s| == 0 ==> r == Some(0)
    ensures r.Some? ==> r.value >= 0
  {
    if forall i :: 0 <= i < |s| ==> IsDigit(s[i]) then Some(DecimalValue(s)) else None
  }

  /** JavaScript's `Number(amount)` on a card amount: a number is itself, a text
      is read as above, an empty list is 0, a one-element list its element and
      a longer list NaN (`None`). */
  function AmountToNumber(a: Amount): (r: Option<int>)
    ensures a.Number? ==> r == Some(a.n)
    ensures a.Numbers? ==> (r.Some? <==> |a.ns| <= 1)
    ensures a.Numbers? && |a.ns| == 1 ==> r == Some(a.ns[0])
    ensures a.Text? ==> r == StringToNumber(a.s)
  {
    match a
    case Number(n) => Some(n)
    case Text(s) => StringToNumber(s)
    case Numbers(ns) => if |ns| == 0 then Some(0) else if |ns| == 1 then Some(ns[0]) else None
  }

  /** `a + b` on two such counters. */
  function Plus(a: Counter, b: Counter): (r: Counter)
    ensures r.Some? <==> a.Some? && b.Some?
    ensures r.Some? ==> r.value == a.value + b.value
  {
    if a.Some? && b.Some? then Some(a.value + b.value) else None
  }

  /** `a * b` on two such counters. */
  function Product(a: Counter, b: Counter): (r: Counter)
    ensures r.Some? <==> a.Some? && b.Some?
    ensures r.Some? ==> r.value == a.value * b.value
  {
    if a.Some? && b.Some? then Some(a.value * b.value) else None
  }

  /** `amount[k]` as a multiplication reads it: a character of a text is
      read as a number, an element of a list is itself, and indexing a number
      or reading past the end gives undefined, which is NaN. */
  function ElementNumber(a: Amount, k: nat): (r: Counter)
    ensures !HasIndex(a, k) ==> r.None?
    ensures a.Numbers? && k < |a.ns| ==> r == Some(a.ns[k])
    ensures a.Text? && k < |a.s| ==> r == StringToNumber([a.s[k]])
  {
    match a
    case Number(_) => None
    case Text(s) => if k < |s| then StringToNumber([s[k]]) else None
    case Numbers(ns) => if k < |ns| then Some(ns[k]) else None
  }

  /** Whether `amount[k]` is defined: a character of a text or an element of a
      list (reading an index of a number gives undefined). */
  predicate HasIndex(a: Amount, k: nat)
  {
    match a
    case Number(_) => false
    case Text(s) => k < |s|
    case Numbers(ns) => k < |ns|
  }

  /** `group[i]` in JavaScript, for a `group` array that may itself be undefined:
      `Err` is the TypeError of indexing undefined, `Ok(None)` an index past the end. */
  function At(group: Option<seq<int>>, i: nat): (r: Result<Option<int>>)
    ensures r.Err? <==> group.None?
    ensures r.Ok? && r.value.Some? ==> i < |group.value| && r.value.value == group.value[i]
    ensures group.Some? && i < |group.value| ==> r == Ok(Some(group.value[i]))
  {
    match group
    case None => Err("TypeError: cannot read properties of undefined")
    case Some(g) => if i < |g| then Ok(Some(g[i])) else Ok(None)
  }

  /** JavaScript's `%` on integers: the remainder takes the sign of the dividend. */
  function JsRem(a: int, n: int): (r: int)
    requires n > 0
    ensures a >= 0 ==> 0 <= r < n
    ensures a < 0 ==> -n < r <= 0
    ensures -n < a < n ==> r == a
    ensures n <= a < 2 * n ==> r == a - n
  {
    if a >= 0 then
      ModSmall(a, n);
      a % n
    else
      ModSmall(-a, n);
      -((-a) % n)
  }

  /** The remainder of a non-negative number below twice the divisor. */
  lemma ModSmall(a: int, n: int)
    requires 0 <= a && n > 0
    ensures 0 <= a % n < n
    ensures a < n ==> a % n == a
    ensures n <= a < 2 * n ==> a % n == a - n
  {
    if n <= a < 2 * n {
      assert a == 1 * n + (a - n);
    }
  }

  /** Index of the first element satisfying `p`, or -1 (JavaScript's `findIndex`). */
  function FindIndex<T>(s: seq<T>, p: T -> bool): (i: int)
    ensures -1 <= i < |s|
    ensures i >= 0 ==> p(s[i]) && forall j :: 0 <= j < i ==> !p(s[j])
    ensures i == -1 <==> forall j :: 0 <= j < |s| ==> !p(s[j])
  {
    if |s| == 0 then -1
    else if p(s[0]) then 0
    else
      var k := FindIndex(s[1..], p);
      assert forall j :: 1 <= j < |s| ==> s[j] == s[1..][j - 1];
      if k == -1 then -1 else k + 1
  }

  /** Number of elements satisfying `p` (the length of JavaScript's `filter`). */
  function CountWhere<T>(s: seq<T>, p: T -> bool): (c: nat)
    ensures c <= |s|
  {
    if |s| == 0 then 0 else (if p(s[0]) then 1 else 0) + CountWhere(s[1..], p)
  }

  /** Elements satisfying `p`, in order (JavaScript's `filter`). */
  function Filter<T>(s: seq<T>, p: T -> bool): (r: seq<T>)
    ensures |r| == CountWhere(s, p)
    ensures forall x :: x in r ==> x in s && p(x)
    ensures forall x :: x in s && p(x) ==> x in r
  {
    if |s| == 0 then [] else (if p(s[0]) then [s[0]] else []) + Filter(s[1..], p)
  }

  /** One die drawn the way the source draws it: `Math.floor(r * faces) + 1`
      where `r` is the value `Math.random()` returned. */
  function DieFace(r: real, faces: nat): (face: int)
    requires 0.0 <= r < 1.0 && faces > 0
    ensures 1 <= face <= faces
  {
    var x := r * faces as real;
    assert x < faces as real;
    x.Floor + 1
  }

  /** Sum of a sequence of reals. */
  function SumReal(s: seq<real>): real
  {
    if |s| == 0 then 0.0 else s[0] + SumReal(s[1..])
  }

  /** Sum of a sequence of integers. */
  function SumInt(s: seq<int>): int
  {
    if |s| == 0 then 0 else s[0] + SumInt(s[1..])
  }

  /** Summing a concatenation sums the parts. */
  lemma {:induction false} SumRealAppend(a: seq<real>, b: seq<real>)
    ensures SumReal(a + b) == SumReal(a) + SumReal(b)
  {
    if |a| == 0 {
      assert a + b == b;
    } else {
      assert (a + b)[1..] == a[1..] + b;
      SumRealAppend(a[1..], b);
    }
  }

  /** Summing a concatenation sums the parts. */
  lemma {:induction false} SumIntAppend(a: seq<int>, b: seq<int>)
    ensures SumInt(a + b) == SumInt(a) + SumInt(b)
  {
    if |a| == 0 {
      assert a + b == b;
    } else {
      assert (a + b)[1..] == a[1..] + b;
      SumIntAppend(a[1..], b);
    }
  }
}

=== FILE: model/communitycards.dfy ===
/** The community chest of the chat-session engine.  Each entry of the card
    table is a factory that builds, for the drawing player, a message and
    an effect; the session calls the effect with the drawing player and
    itself. */
module CommunityCards {
  import opened Common
  import opened Sessions
  import opened CardStacks

  /** The effect a built card carries. */
  datatype Effect =
    | Earn(amount: real)
    | Pay(amount: real)
    | AdvanceBy(steps: int)
    | GoToJail
    | GetOutOfJail
    | CollectFromOthers(amount: real)

  /** The keys of the table the stack is built from, in declaration order.
      Three factories of the module (stock sales, beauty contest, go to
      jail) are not among them and are never drawn. */
  const REFERENCE: seq<string> :=
    ["grandOpera", "lifeInsurance", "incomeTax", "getOutOfJail", "birthday", "consultancy",
     "school", "hospital", "advanceToGo", "doctorFee", "bankError", "inheritance"]

  /** The amounts the cards that pay the drawer carry. */
  function EarnAmount(key: string): (amount: Option<real>)
    ensures amount.Some? <==>
              key in {"lifeInsurance", "incomeTax", "consultancy", "bankError", "inheritance", "saleOfStocks", "beautyContest"}
    ensures amount.Some? ==> 10.0 <= amount.value <= 200.0
  {
    match key
    case "lifeInsurance" => Some(100.0)
    case "incomeTax" => Some(20.0)
    case "consultancy" => Some(25.0)
    case "bankError" => Some(200.0)
    case "inheritance" => Some(100.0)
    case "saleOfStocks" => Some(50.0)
    case "beautyContest" => Some(10.0)
    case _ => None
  }

  /** Building the card a key names for the drawing player.  The Go card
      moves the player onto Go while it is being built and then carries an
      advance of zero steps.  Every key of the table builds a card. */
  method Build(key: string, player: Player) returns (r: Result<Effect>)
    modifies player`position
    ensures key == "advanceToGo" ==> r == Ok(AdvanceBy(0)) && player.position == 0
    ensures key != "advanceToGo" ==> player.position == old(player.position)
    ensures EarnAmount(key).Some? ==> r == Ok(Earn(EarnAmount(key).value))
    ensures key in {"school", "hospital", "doctorFee"} ==> r == Ok(Pay(50.0))
    ensures key == "birthday" ==> r == Ok(CollectFromOthers(10.0))
    ensures key == "grandOpera" ==> r == Ok(CollectFromOthers(50.0))
    ensures key == "getOutOfJail" ==> r == Ok(GetOutOfJail)
    ensures key == "goToJail" ==> r == Ok(GoToJail)
    ensures key in REFERENCE ==> r.Ok?
  {
    var amount := EarnAmount(key);
    if amount.Some? {
      return Ok(Earn(amount.value));
    }
    match key {
      case "school" =>
        r := Ok(Pay(50.0));
      case "hospital" =>
        r := Ok(Pay(50.0));
      case "doctorFee" =>
        r := Ok(Pay(50.0));
      case "birthday" =>
        r := Ok(CollectFromOthers(10.0));
      case "grandOpera" =>
        r := Ok(CollectFromOthers(50.0));
      case "getOutOfJail" =>
        r := Ok(GetOutOfJail);
      case "goToJail" =>
        r := Ok(GoToJail);
      case "advanceToGo" =>
        player.position := 0;
        r := Ok(AdvanceBy(0));
      case _ =>
        r := Err("TypeError: card is not a function");
    }
  }

  /** A built card's effect applied as the session applies it, to the
      drawing player and the session.  The Go card, built on Go, advances
      zero steps and so pays nothing on a board with tiles.  The release
      card's effect takes the drawing player for the session, finds no
      release card in that pool and does nothing.  The two cards that
      collect from every other player walk the ids of the players rather
      than the players, and throw on the first one; with nobody registered
      the drawer earns nothing. */
  method Apply(effect: Effect, player: Player, session: Session) returns (out: Outcome)
    requires player.session == session
    modifies player`position, player`cash, player`isJailed
    ensures effect.Earn? ==> out == Done && player.cash == old(player.cash) + effect.amount
    ensures effect.Pay? ==> out == Done && player.cash == old(player.cash) - effect.amount
    ensures effect == AdvanceBy(0) && old(player.position) == 0 && |session.board| > 0 ==>
              out == Done && player.position == 0 && player.cash == old(player.cash)
    ensures effect == GoToJail ==> out == Done && player.isJailed
    ensures effect == GetOutOfJail ==>
              out == Done && player.ownsFreedomCommunity == old(player.ownsFreedomCommunity)
              && player.cash == old(player.cash)
    ensures effect.CollectFromOthers? ==>
              (out.Threw? <==> session.players != map[]) && player.cash == old(player.cash)
    ensures !effect.AdvanceBy? ==> player.position == old(player.position)
    ensures effect != GoToJail ==> player.isJailed == old(player.isJailed)
  {
    match effect {
      case Earn(amount) =>
        player.Earn(amount);
        out := Done;
      case Pay(amount) =>
        player.Pay(amount);
        out := Done;
      case AdvanceBy(steps) =>
        out := player.Advance(steps);
      case GoToJail =>
        player.Jail("card");
        out := Done;
      case GetOutOfJail =>
        out := Done;
      case CollectFromOthers(amount) =>
        out := CollectFromEachAsWritten(player, session, amount);
    }
  }

  /** The birthday and opera effects as written: the loop destructures each
      entry's key, a user id, compares it with the drawer (never equal) and
      calls `pay` on it, which throws.  With no players the drawer earns the
      empty total. */
  method CollectFromEachAsWritten(drawer: Player, session: Session, amount: real) returns (out: Outcome)
    modifies drawer`cash
    ensures out.Threw? <==> session.players != map[]
    ensures drawer.cash == old(drawer.cash)
  {
    if session.players != map[] {
      return Threw("TypeError: p.pay is not a function");
    }
    drawer.Earn(0.0);
    return Done;
  }

  /** The ids of the registered players other than the drawer, among `ids`. */
  ghost function Others(players: map<string, Player>, drawer: Player, ids: set<string>): set<string>
  {
    set id | id in ids && id in players && players[id] != drawer
  }

  /** What the drawer collects from `payers` players paying `amount` each. */
  function Collected(amount: real, payers: nat): real
  {
    amount * (payers as real)
  }

  /** A set holding exactly the ids whose players are not the drawer is
      the set of others. */
  lemma OthersExactly(players: map<string, Player>, drawer: Player, others: set<string>)
    requires others <= players.Keys
    requires forall id :: id in players ==> (id in others <==> players[id] != drawer)
    ensures others == Others(players, drawer, players.Keys)
  {
  }

  /** The birthday and opera effects as intended: every registered player
      other than the drawer pays `amount`, and the drawer earns what was
      paid, `amount` once per other player. */
  method CollectFromEach(drawer: Player, session: Session, amount: real)
    requires session.DistinctPlayers()
    modifies session.players.Values`cash, drawer`cash
    ensures forall id :: id in session.players && session.players[id] != drawer ==>
              session.players[id].cash == old(session.players[id].cash) - amount
    ensures drawer.cash == old(drawer.cash) + Collected(amount, |Others(session.players, drawer, session.players.Keys)|)
  {
    var players := session.players;
    ghost var before := map id | id in players :: players[id].cash;
    var remaining := players.Keys;
    ghost var others: set<string> := {};
    var count := 0;
    while remaining != {}
      invariant remaining <= players.Keys && others <= players.Keys
      invariant forall id :: id in players && id !in remaining && players[id] != drawer ==>
                  players[id].cash == before[id] - amount
      invariant forall id :: id in remaining ==> players[id].cash == before[id]
      invariant drawer.cash == old(drawer.cash)
      invariant count == |others|
      invariant forall id :: id in players ==> (id in others <==> id !in remaining && players[id] != drawer)
      decreases remaining
    {
      var id :| id in remaining;
      var p := players[id];
      if p != drawer {
        p.Pay(amount);
        others := others + {id};
        count := count + 1;
      }
      remaining := remaining - {id};
    }
    OthersExactly(players, drawer, others);
    drawer.Earn(Collected(amount, count));
  }

  /** The release card as intended: the drawer receives it while the pool
      still holds it, and the pool gives it up. */
  method TakeReleaseCard(drawer: Player, session: Session)
    modifies drawer`ownsFreedomCommunity, session`hasCommunityOutOfJail
    ensures drawer.ownsFreedomCommunity == (old(drawer.ownsFreedomCommunity) || old(session.hasCommunityOutOfJail))
    ensures !session.hasCommunityOutOfJail
  {
    if session.hasCommunityOutOfJail {
      drawer.ownsFreedomCommunity := true;
      session.hasCommunityOutOfJail := false;
    }
  }

  /** The Go card as intended: from any tile the drawer moves onto Go and
      is paid the Go bonus once. */
  method AdvanceToGo(player: Player) returns (out: Outcome)
    modifies player`position, player`cash
    ensures 0 <= old(player.position) < |player.session.board| ==>
              out == Done && player.position == 0 && player.cash == old(player.cash) + GO_BONUS
  {
    if 0 <= player.position < |player.session.board| {
      AdvanceIsModular(player.position, |player.session.board| - player.position, |player.session.board|);
    }
    out := player.Advance(|player.session.board| - player.position);
  }

  /** The stack's order holds the keys of the table, each once. */
  predicate BuiltFromTable(cardful: seq<string>)
  {
    multiset(cardful) == multiset(REFERENCE)
  }

  /** Two orders of the same keys, as many times each, have the same
      length and the same members. */
  lemma SameKeys(a: seq<string>, b: seq<string>)
    requires multiset(a) == multiset(b)
    ensures |a| == |b|
    ensures forall k :: k in a <==> k in b
  {
    assert |multiset(a)| == |multiset(b)|;
    forall k
      ensures k in a <==> k in b
    {
      assert k in a <==> k in multiset(a);
      assert k in b <==> k in multiset(b);
    }
  }

  /** A stack built from the table holds keys of the table only, twelve of
      them, and keys other than the release card, so both of its orders
      are non-empty. */
  lemma TableKeys(cardful: seq<string>)
    requires BuiltFromTable(cardful)
    ensures forall k :: k in cardful ==> k in REFERENCE
    ensures |cardful| == 12 && |Filter(cardful, Cardless)| > 0
  {
    SameKeys(cardful, REFERENCE);
    var first := REFERENCE[0];
    assert first in REFERENCE && Cardless(first);
  }

  /** `card(session)`: the next key of the stack, chosen by whether the
      pool still holds the community release card.  A stack that has keys
      of both kinds (as the one built from the table has) always yields a
      key of its order, and the release card is not drawn once it has left
      the pool. */
  method DrawCard(stack: AbstractStack, session: Session) returns (key: Option<string>)
    requires stack.Valid()
    modifies stack`i
    ensures stack.Valid()
    ensures key.Some? ==> key.value in stack.cardful
    ensures |stack.cardful| > 0 && |stack.cardless| > 0 ==> key.Some?
    ensures !session.hasCommunityOutOfJail ==> key != Some(GET_OUT_OF_JAIL)
  {
    key := stack.Next(session.hasCommunityOutOfJail);
  }
}

=== FILE: model/deck.dfy ===
/** A pile of cards of the class-based engine: cards are drawn from the front
    and put back at the end, so the pile is a first-in first-out queue. */
module Decks {
  import opened Common
  import opened Cards

  /** JavaScript's `shift()`: the first element, if any, and what remains. */
  function Shift<T>(s: seq<T>): (r: (Option<T>, seq<T>))
    ensures r.0.None? <==> |s| == 0
    ensures r.0.None? ==> r.1 == s
    ensures r.0.Some? ==> s == [r.0.value] + r.1
    ensures |s| > 0 ==> |r.1| == |s| - 1
  {
    if |s| == 0 then (None, s) else (Some(s[0]), s[1..])
  }

  /** First in, first out: a card put at the end of a pile is drawn after every
      card already in it, and immediately when the pile was empty. */
  lemma {:induction false} FirstInFirstOut<T>(s: seq<T>, x: T)
    ensures |s| == 0 ==> Shift(s + [x]) == (Some(x), [])
    ensures |s| > 0 ==> Shift(s + [x]) == (Some(s[0]), s[1..] + [x])
  {
    if |s| > 0 {
      assert (s + [x])[1..] == s[1..] + [x];
    }
  }

  /** Drawing a card and putting it back moves it to the end: the pile keeps
      its length and the same cards. */
  lemma RotateKeepsCards<T>(s: seq<T>)
    requires |s| > 0
    ensures var (c, rest) := Shift(s);
            |rest + [c.value]| == |s| && multiset(rest + [c.value]) == multiset(s)
  {
    assert s == [s[0]] + s[1..];
  }

  class Deck {
    var cards: seq<Card>

    /** A deck holding `cards`, first card on top. */
    constructor (cards: seq<Card>)
      ensures this.cards == cards
    {
      this.cards := cards;
    }

    /** `drawCard()`: removes and returns the top card, undefined when empty. */
    method DrawCard() returns (card: Option<Card>)
      modifies this
      ensures (card, cards) == Shift(old(cards))
      ensures card.Some? ==> |cards| == |old(cards)| - 1
      ensures card.None? ==> cards == old(cards) == []
    {
      if |cards| == 0 {
        return None;
      }
      card := Some(cards[0]);
      cards := cards[1..];
    }

    /** `addCard(card)`: puts a card at the bottom. */
    method AddCard(card: Card)
      modifies this
      ensures cards == old(cards) + [card]
    {
      cards := cards + [card];
    }
  }
}

=== FILE: model/dicegame.dfy ===
/** The game of the dice-and-jail engine: the player list, whose turn it is,
    the dice, the jail rules, rent on landing, and the two card piles.

    The game drives its players through the operations of the guarded-payment
    player (`incrementRollsCount`, `payMoney`, `receiveMoney`, `goToJail`, the
    doubles counter), which is the player model used here.

    Rent looks the owner's record up by indexing the owner's property array
    with the property's name and reads a `mortgage` field that the records do
    not have (they carry `mortgaged`): as written every landing on a street
    throws before any money moves (`HandlePropertyAsWritten`).
    `HandleProperty` finds the record by name and reads its mortgage flag.

    The game's card handlers are the copy that does not await the player's
    operations (`GuardedCards.Copy`), and the game calls them without
    awaiting them either. */
module DiceGames {
  import opened Common
  import opened GuardedPlayers
  import opened GuardedCards
  import opened TurnManagers

  const JAIL_FINE := 50

  /** `throwDice()`'s result. */
  datatype DiceRollResult = DiceRollResult(sum: int, double: bool, dice1: int, dice2: int)

  /** What the property file says about a property: its rent and mortgage
      value, each possibly missing. */
  datatype Terms = Terms(rent: Option<int>, mortgage: Option<int>)

  /** `throwDice()` with the two numbers `Math.random()` returned: two faces in
      1..6, their sum, and a double exactly when they are equal. */
  function ThrowDice(r1: real, r2: real): (roll: DiceRollResult)
    requires 0.0 <= r1 < 1.0 && 0.0 <= r2 < 1.0
    ensures 1 <= roll.dice1 <= 6 && 1 <= roll.dice2 <= 6
    ensures roll.sum == roll.dice1 + roll.dice2 && 2 <= roll.sum <= 12
    ensures roll.double <==> roll.dice1 == roll.dice2
  {
    var d1 := DieFace(r1, 6);
    var d2 := DieFace(r2, 6);
    DiceRollResult(d1 + d2, d1 == d2, d1, d2)
  }

  /** Every pair of faces is thrown by some pair of random numbers: the dice
      are not biased away from any outcome. */
  lemma EveryThrowPossible(d1: int, d2: int)
    requires 1 <= d1 <= 6 && 1 <= d2 <= 6
    ensures var roll := ThrowDice((d1 - 1) as real / 6.0, (d2 - 1) as real / 6.0);
            roll.dice1 == d1 && roll.dice2 == d2
  {
    var r1, r2 := (d1 - 1) as real / 6.0, (d2 - 1) as real / 6.0;
    assert r1 * 6.0 == (d1 - 1) as real;
    assert r2 * 6.0 == (d2 - 1) as real;
  }

  /** Number of players who have not left the game. */
  function ActiveCount(ps: seq<Player>): nat
    reads set p | p in ps
  {
    if |ps| == 0 then 0 else (if ps[0].hasLeftGame then 0 else 1) + ActiveCount(ps[1..])
  }

  /** Exactly one player of the list is still in the game. */
  predicate OneActive(ps: seq<Player>)
    reads set p | p in ps
  {
    exists i :: 0 <= i < |ps| && !ps[i].hasLeftGame && forall j :: 0 <= j < |ps| && j != i ==> ps[j].hasLeftGame
  }

  /** The count is 0 exactly when every player has left, and 1 exactly when a
      single entry is still in. */
  lemma {:induction false} ActiveCountOne(ps: seq<Player>)
    ensures ActiveCount(ps) == 0 <==> forall j :: 0 <= j < |ps| ==> ps[j].hasLeftGame
    ensures ActiveCount(ps) == 1 <==> OneActive(ps)
  {
    if |ps| > 0 {
      var rest := ps[1..];
      ActiveCountOne(rest);
      assert forall j :: 1 <= j < |ps| ==> ps[j] == rest[j - 1];
      if ActiveCount(ps) == 1 {
        if ps[0].hasLeftGame {
          var k :| 0 <= k < |rest| && !rest[k].hasLeftGame && forall j :: 0 <= j < |rest| && j != k ==> rest[j].hasLeftGame;
          assert !ps[k + 1].hasLeftGame;
          assert forall j :: 0 <= j < |ps| && j != k + 1 ==> ps[j].hasLeftGame;
        } else {
          assert forall j :: 0 <= j < |ps| && j != 0 ==> ps[j].hasLeftGame;
        }
      }
      if OneActive(ps) {
        var i :| 0 <= i < |ps| && !ps[i].hasLeftGame && forall j :: 0 <= j < |ps| && j != i ==> ps[j].hasLeftGame;
        if i == 0 {
          assert forall j :: 0 <= j < |rest| ==> rest[j].hasLeftGame;
        } else {
          assert ps[0].hasLeftGame;
          assert !rest[i - 1].hasLeftGame && forall j :: 0 <= j < |rest| && j != i - 1 ==> rest[j].hasLeftGame;
        }
      }
    }
  }

  /** What a jailed player's roll does to it: the attempt is counted; a
      double frees it without moving; otherwise it stays as jailed as it was,
      and only on the third attempt pays the 50 fine (guarded) and moves by
      the roll.  The count of a player whose count was never set is NaN, which
      is never 3. */
  twostate predicate JailRollDone(player: Player, roll: DiceRollResult)
    reads player
  {
    player.rollsCount == Add(old(player.rollsCount), 1)
    && (roll.double ==>
          !player.isJailed && player.balance == old(player.balance) && player.position == old(player.position))
    && (!roll.double ==> player.isJailed == old(player.isJailed))
    && (!roll.double && player.rollsCount != Some(3) ==>
          player.balance == old(player.balance) && player.position == old(player.position))
    && (!roll.double && player.rollsCount == Some(3) ==>
          var fined := AfterPayment(old(player.balance), JAIL_FINE);
          player.position == Moved(old(player.position), Some(roll.sum), |player.board|)
          && player.balance == fined + (if Passed(old(player.position), player.position) then GO_BONUS else 0))
    && (old(player.rollsCount).None? ==> player.rollsCount.None? && player.balance == old(player.balance))
  }

  /** What a free player's roll does to it: a double is counted, and the
      third in a row sends it to jail without moving; any other roll moves it
      by the sum, crediting the Go bonus on a wrap, a non-double after
      resetting the count.  A count that was never set is NaN and stays NaN
      through doubles, so it never reaches three. */
  twostate predicate StandardRollDone(player: Player, roll: DiceRollResult)
    reads player
  {
    (roll.double && Add(old(player.doublesCount), 1) == Some(3) ==>
       player.isJailed && player.position == Some(JAIL_POSITION) && player.doublesCount == Some(0)
       && player.balance == old(player.balance))
    && (roll.double && Add(old(player.doublesCount), 1) != Some(3) ==>
          player.doublesCount == Add(old(player.doublesCount), 1) && player.isJailed == old(player.isJailed))
    && (!roll.double ==> player.doublesCount == Some(0) && player.isJailed == old(player.isJailed))
    && (!roll.double || Add(old(player.doublesCount), 1) != Some(3) ==>
          player.position == Moved(old(player.position), Some(roll.sum), |player.board|)
          && player.balance == old(player.balance) + (if Passed(old(player.position), player.position) then GO_BONUS else 0))
    && (old(player.doublesCount).Some? && 0 <= old(player.doublesCount).value < 3 ==>
          player.doublesCount.Some? && 0 <= player.doublesCount.value < 3)
    && (old(player.doublesCount).None? && roll.double ==>
          player.doublesCount.None? && player.isJailed == old(player.isJailed))
  }

  class Monopoly {
    var players: seq<Player>
    var currentPlayerIndex: TurnIndex
    const board: seq<Space>
    const propertyMap: map<string, Terms>
    const chanceCardHandler: ChanceCardHandler
    const communityCardHandler: CommunityCardHandler

    /** `new Monopoly({board, propertyMap, textChannel})`: no players, the
        first turn index, and fresh handlers over the card files, of the copy
        that does not await the player's operations. */
    constructor (board: seq<Space>, propertyMap: map<string, Terms>, boardFile: seq<Space>,
                 chanceCards: seq<CardData>, communityCards: seq<CardData>)
      ensures this.board == board && this.propertyMap == propertyMap
      ensures players == [] && currentPlayerIndex == Index(0)
      ensures fresh(chanceCardHandler) && fresh(communityCardHandler)
      ensures chanceCardHandler.players == None && communityCardHandler.players == None
      ensures chanceCardHandler.copy == NotAwaiting && communityCardHandler.copy == NotAwaiting
    {
      this.board := board;
      this.propertyMap := propertyMap;
      players := [];
      currentPlayerIndex := Index(0);
      chanceCardHandler := new ChanceCardHandler(NotAwaiting, chanceCards, boardFile);
      communityCardHandler := new CommunityCardHandler(NotAwaiting, communityCards);
    }

    /** `addPlayer(player)`: appended at the end of the turn order. */
    method AddPlayer(player: Player)
      modifies this`players
      ensures players == old(players) + [player]
    {
      players := players + [player];
    }

    /** `gameOverConditionMet()`: exactly one player is still in the game. */
    function GameOverConditionMet(): (over: bool)
      reads this, set p | p in players
      ensures over <==> OneActive(players)
    {
      ActiveCountOne(players);
      ActiveCount(players) == 1
    }

    /** The player whose turn it is, undefined for an index off the list. */
    function CurrentPlayer(): (p: Option<Player>)
      reads this
      ensures p.Some? <==> currentPlayerIndex.Index? && 0 <= currentPlayerIndex.value < |players|
      ensures p.Some? ==> p.value == players[currentPlayerIndex.value]
    {
      if currentPlayerIndex.Index? && 0 <= currentPlayerIndex.value < |players|
      then Some(players[currentPlayerIndex.value])
      else None
    }

    /** `handleJailLogic(player, roll)` for a jailed player: the player as
        `JailRollDone` says, and the turn passes unless the roll is a double. */
    method HandleJailLogic(player: Player, roll: DiceRollResult)
      modifies player`rollsCount, player`isJailed, player`balance, player`position, this`currentPlayerIndex
      ensures JailRollDone(player, roll)
      ensures roll.double ==> currentPlayerIndex == old(currentPlayerIndex)
      ensures !roll.double ==> currentPlayerIndex == Advance(old(currentPlayerIndex), |players|)
    {
      player.IncrementRollsCount();
      if roll.double {
        player.isJailed := false;
        return;
      }
      if player.rollsCount == Some(3) {
        player.PayMoney(JAIL_FINE);
        var _ := player.Move(Some(roll.sum));
      }
      currentPlayerIndex := Advance(currentPlayerIndex, |players|);
    }

    /** `standardRollLogic(player, roll)` for a free player: the player as
        `StandardRollDone` says. */
    method StandardRollLogic(player: Player, roll: DiceRollResult)
      modifies player`doublesCount, player`isJailed, player`balance, player`position
      ensures StandardRollDone(player, roll)
    {
      if roll.double {
        player.IncrementDoublesCount();
        if player.doublesCount == Some(3) {
          player.GoToJail();
        } else {
          var _ := player.Move(Some(roll.sum));
        }
      } else {
        player.ResetDoublesCount();
        var _ := player.Move(Some(roll.sum));
      }
    }

    /** `MakeDiceRoll(player)` followed by the turn hand-over of the
        `manageTurns` listener, with the two numbers the dice draw: the
        current player rolls, a jailed one as `JailRollDone` says and a free
        one as `StandardRollDone` says, and the turn passes exactly once
        unless the third double in a row has just jailed the player (for a
        player who stays jailed, the jail logic passes it).  No other player
        changes.  An index off the player list throws. */
    method PlayTurn(r1: real, r2: real) returns (out: Outcome)
      requires 0.0 <= r1 < 1.0 && 0.0 <= r2 < 1.0
      modifies players`rollsCount, players`isJailed, players`balance, players`position, players`doublesCount
      modifies this`currentPlayerIndex
      ensures old(CurrentPlayer()).None? ==>
                out.Threw? && currentPlayerIndex == old(currentPlayerIndex)
                && forall q :: q in old(players) ==> unchanged(q)
      ensures old(CurrentPlayer()).Some? ==>
                var p := old(CurrentPlayer()).value;
                var roll := ThrowDice(r1, r2);
                var third := !old(p.isJailed) && roll.double && Add(old(p.doublesCount), 1) == Some(3);
                out == Done
                && (third ==> p.isJailed && currentPlayerIndex == old(currentPlayerIndex))
                && (!third ==> currentPlayerIndex == Advance(old(currentPlayerIndex), |players|))
                && (old(p.isJailed) ==> JailRollDone(p, roll) && p.doublesCount == old(p.doublesCount))
                && (!old(p.isJailed) ==> StandardRollDone(p, roll) && p.rollsCount == old(p.rollsCount))
                && (forall q :: q in old(players) && q != p ==> unchanged(q))
    {
      var current := CurrentPlayer();
      if current.None? {
        return Threw("TypeError: cannot read properties of undefined (reading 'isJailed')");
      }
      var player := current.value;
      var roll := ThrowDice(r1, r2);
      if player.isJailed {
        HandleJailLogic(player, roll);
      } else {
        StandardRollLogic(player, roll);
      }
      if !player.isJailed {
        currentPlayerIndex := Advance(currentPlayerIndex, |players|);
      }
      return Done;
    }

    /** The balance of the player whose turn it is (0 when there is none). */
    function CurrentBalance(): int
      reads this, set p | p in players
    {
      if CurrentPlayer().Some? then CurrentPlayer().value.balance else 0
    }

    /** `handleProperty(name, cost, owner)` as written.  The rent lookup throws
        when the owner's record array gives undefined for the name (anything
        but an index, `length` or an inherited member) or the property file
        lacks the name; otherwise the rent (never the mortgage value, as the
        field read is missing on a record, a number and a function alike) is
        charged as `ChargeRent` does. */
    method HandlePropertyAsWritten(propertyName: string, propertyCost: int, owner: Player)
      returns (out: Outcome, auctioned: bool)
      modifies players`balance, owner`balance
      ensures owner.properties.None? || ArraySlot(|owner.properties.value|, propertyName).Undefined?
              || propertyName !in propertyMap ==>
                out.Threw? && !auctioned && owner.balance == old(owner.balance)
                && forall p :: p in players ==> p.balance == old(p.balance)
      ensures owner.properties.Some? && !ArraySlot(|owner.properties.value|, propertyName).Undefined?
              && propertyName in propertyMap ==>
                RentCharged(old(CurrentPlayer()), owner, propertyMap[propertyName].rent, propertyCost,
                            old(CurrentBalance()), old(owner.balance), out, auctioned)
      ensures forall p :: p in players && p != owner && Some(p) != old(CurrentPlayer()) ==> p.balance == old(p.balance)
    {
      auctioned := false;
      if owner.properties.None? {
        return Threw("TypeError: cannot read properties of undefined"), false;
      }
      if ArraySlot(|owner.properties.value|, propertyName).Undefined? {
        return Threw("TypeError: cannot read properties of undefined (reading 'mortgage')"), false;
      }
      if propertyName !in propertyMap {
        return Threw("TypeError: cannot read properties of undefined (reading 'rent')"), false;
      }
      out, auctioned := ChargeRent(propertyMap[propertyName].rent, propertyCost, owner);
    }

    /** Landing on an owned property, with the rent looked up by name: the
        rent is the mortgage value when the owner's record of that name is
        mortgaged and the plain rent otherwise, and it is charged as
        `ChargeRent` does.  A name the property file does not know throws. */
    method HandleProperty(propertyName: string, propertyCost: int, owner: Player)
      returns (out: Outcome, auctioned: bool)
      modifies players`balance, owner`balance
      ensures propertyName !in propertyMap ==>
                out.Threw? && !auctioned && owner.balance == old(owner.balance)
                && forall p :: p in players ==> p.balance == old(p.balance)
      ensures propertyName in propertyMap ==>
                RentCharged(old(CurrentPlayer()), owner, RentLookedUp(owner.properties, propertyName, propertyMap[propertyName]),
                            propertyCost, old(CurrentBalance()), old(owner.balance), out, auctioned)
      ensures forall p :: p in players && p != owner && Some(p) != old(CurrentPlayer()) ==> p.balance == old(p.balance)
    {
      auctioned := false;
      if propertyName !in propertyMap {
        return Threw("TypeError: cannot read properties of undefined (reading 'rent')"), false;
      }
      out, auctioned := ChargeRent(RentLookedUp(owner.properties, propertyName, propertyMap[propertyName]), propertyCost, owner);
    }

    /** The money part of landing on a property: the guarded rent payment by
        the current player, the full credit to the owner, then the purchase or
        the auction (`RentCharged`).  No current player throws before any
        money moves. */
    method ChargeRent(rent: Option<int>, propertyCost: int, owner: Player) returns (out: Outcome, auctioned: bool)
      modifies players`balance, owner`balance
      ensures RentCharged(old(CurrentPlayer()), owner, rent, propertyCost, old(CurrentBalance()), old(owner.balance), out, auctioned)
      ensures out.Threw? ==> forall p :: p in players ==> p.balance == old(p.balance)
      ensures forall p :: p in players && p != owner && Some(p) != old(CurrentPlayer()) ==> p.balance == old(p.balance)
    {
      auctioned := false;
      var current := CurrentPlayer();
      if current.None? {
        return Threw("TypeError: cannot read properties of undefined (reading 'name')"), false;
      }
      var payer := current.value;
      if rent.None? {
        if payer == owner {
          return NonNumeric("balance"), false;
        }
        if payer.balance < propertyCost {
          return NonNumeric("balance"), true;
        }
        payer.PayMoney(propertyCost);
        return NonNumeric("balance"), false;
      }
      payer.PayMoney(rent.value);
      owner.ReceiveMoney(rent.value);
      if payer.balance < propertyCost {
        return Done, true;
      }
      payer.PayMoney(propertyCost);
      return Done, false;
    }

    /** `handleChanceCard(player)`: the card the random number draws is
        handled for the player; an empty pile leaves the card undefined and
        the dispatch throws before anything changes.  Otherwise the effect
        is the one `ChanceHandled` gives for the card.  The handler does not
        await the player's operations, so only its own code can throw: a
        board index off the file or an unreadable space name when advancing,
        a missing element of a repairs amount, and the undefined player list. */
    method HandleChanceCard(player: Player, r: real) returns (out: Outcome)
      requires 0.0 <= r < 1.0
      modifies player`position, player`balance, player`doublesCount, player`isJailed, player`ownsFreedomChance
      modifies (if chanceCardHandler.players.Some? then chanceCardHandler.players.value else [])`balance
      ensures |chanceCardHandler.chanceCards| == 0 ==> out.Threw? && player.Snapshot() == old(player.Snapshot())
      ensures |chanceCardHandler.chanceCards| > 0 ==>
                var card := Draw(chanceCardHandler.chanceCards, r).value;
                chanceCardHandler.ChanceHandled(player, card, out)
                && (chanceCardHandler.copy == NotAwaiting && out.Threw? ==>
                      card.kind in {"advance", "repairs", "spend-each-player"})
    {
      var drawn := chanceCardHandler.DrawChanceCard(r);
      if drawn.None? {
        return Threw("TypeError: cannot read properties of undefined (reading 'type')");
      }
      out := chanceCardHandler.HandleChanceCard(player, drawn.value);
    }

    /** `handleCommunityCard(player)`: the same for the community-chest pile,
        with the effect `CommunityHandled` gives, where only a repairs amount
        and the undefined player list can throw. */
    method HandleCommunityCard(player: Player, r: real) returns (out: Outcome)
      requires 0.0 <= r < 1.0
      modifies player`position, player`balance, player`doublesCount, player`isJailed, player`ownsFreedomChance
      modifies (if communityCardHandler.players.Some? then communityCardHandler.players.value else [])`balance
      ensures |communityCardHandler.communityCards| == 0 ==> out.Threw? && player.Snapshot() == old(player.Snapshot())
      ensures |communityCardHandler.communityCards| > 0 ==>
                var card := Draw(communityCardHandler.communityCards, r).value;
                communityCardHandler.CommunityHandled(player, card, out)
                && (communityCardHandler.copy == NotAwaiting && out.Threw? ==> card.kind in {"repairs", "earn-each-player"})
    {
      var drawn := communityCardHandler.DrawCommunityCard(r);
      if drawn.None? {
        return Threw("TypeError: cannot read properties of undefined (reading 'type')");
      }
      out := communityCardHandler.HandleCommunityCard(player, drawn.value);
    }
  }

  /** The balances after the rent and the purchase, for a payer and an owner
      that may be the same player: the payer pays what it can of the rent,
      the owner gets the whole rent, and the purchase goes ahead exactly when
      the payer can then afford the price. */
  predicate RentThenBuy(payer: Player, owner: Player, rent: int, cost: int, payerBefore: int, ownerBefore: int,
                        out: Outcome, auctioned: bool)
    reads payer, owner
  {
    var afterRent := if payer == owner then AfterPayment(payerBefore, rent) + rent else AfterPayment(payerBefore, rent);
    out == Done
    && (auctioned <==> afterRent < cost)
    && (payer != owner ==> owner.balance == ownerBefore + rent)
    && payer.balance == (if auctioned then afterRent else afterRent - cost)
  }

  /** Landing on an owned property once the rent is known: no current player
      throws with nothing changed; a defined rent is charged as `RentThenBuy`
      says; a NaN rent as `NaNRentThenBuy` says. */
  predicate RentCharged(current: Option<Player>, owner: Player, rent: Option<int>, cost: int,
                        payerBefore: int, ownerBefore: int, out: Outcome, auctioned: bool)
    reads owner, if current.Some? then {current.value} else {}
  {
    match current
    case None => out.Threw? && !auctioned && owner.balance == ownerBefore
    case Some(payer) =>
      if rent.Some? then RentThenBuy(payer, owner, rent.value, cost, payerBefore, ownerBefore, out, auctioned)
      else NaNRentThenBuy(payer, owner, cost, payerBefore, ownerBefore, out, auctioned)
  }

  /** A NaN rent: the guarded payment refuses it, and the owner's balance
      becomes NaN, which is reported and not carried (the owner keeps its old
      balance here).  The purchase test then sees the payer's unchanged
      balance; when the payer is the owner it sees NaN, which neither starts
      an auction nor pays. */
  predicate NaNRentThenBuy(payer: Player, owner: Player, cost: int, payerBefore: int, ownerBefore: int,
                           out: Outcome, auctioned: bool)
    reads payer, owner
  {
    out == NonNumeric("balance")
    && owner.balance == ownerBefore
    && (payer == owner ==> !auctioned)
    && (payer != owner ==>
          (auctioned <==> payerBefore < cost)
          && payer.balance == (if auctioned then payerBefore else payerBefore - cost))
  }

  /** The rent the lookup by name gives: the mortgage value for a mortgaged
      record of that name, the plain rent otherwise. */
  function RentLookedUp(records: Option<seq<Deed>>, name: string, terms: Terms): Option<int>
  {
    if RecordMortgaged(records, name) then terms.mortgage else terms.rent
  }

  /** Whether the owner's record of that name is mortgaged. */
  predicate RecordMortgaged(records: Option<seq<Deed>>, name: string)
  {
    records.Some? && LookUp(records.value, name) >= 0 && records.value[LookUp(records.value, name)].mortgaged
  }

  /** Landing on an owned street with a mortgaged record: the rent lookup by
      name sees the mortgage flag, the array lookup throws. */
  lemma MortgagedStreetIsMissed(owner: seq<Deed>)
    requires |owner| > 0 && owner[0].name == "Boardwalk" && owner[0].mortgaged
    ensures RecordMortgaged(Some(owner), "Boardwalk")
    ensures LookUpAsWritten(owner, "Boardwalk") == -1 && ArraySlot(|owner|, "Boardwalk").Undefined?
  {
    assert !IsDigit("Boardwalk"[0]);
  }
}

=== FILE: model/gamemanager.dfy ===
/** The registry of running games of the class-based engine, one per chat
    channel, and the turn driver: the current player moves if it is a computer
    player, then the turn passes. */
module GameManagers {
  import opened Common
  import opened Players
  import opened TurnManagers
  import opened MonopolyGames
  import opened AIPlayers

  class GameManager {
    var games: map<string, MonopolyGame>

    /** An empty registry. */
    constructor ()
      ensures games == map[]
    {
      games := map[];
    }

    /** `getGameForChannel(channelId)`: the registered game, null (`None`) for
        an unknown channel. */
    function GetGameForChannel(channelId: string): (r: Option<MonopolyGame>)
      reads this
      ensures r.None? <==> channelId !in games
      ensures r.Some? ==> r.value == games[channelId]
    {
      if channelId in games then Some(games[channelId]) else None
    }

    /** `addGameForChannel(channelId, game)`: registers the game, replacing any
        game the channel had; other channels keep theirs. */
    method AddGameForChannel(channelId: string, game: MonopolyGame)
      modifies this
      ensures GetGameForChannel(channelId) == Some(game)
      ensures forall c :: c != channelId ==> GetGameForChannel(c) == old(GetGameForChannel(c))
      ensures games == old(games)[channelId := game]
    {
      games := games[channelId := game];
    }

    /** `playTurn(channelId)` with the random numbers a computer player's roll
        would draw.  An unknown channel changes nothing.  Otherwise a computer
        player makes its move as written, as `MoveMade` says, and the turn
        passes exactly once in every case: the move is not awaited, so the
        exception it always ends in does not stop the turn from passing.  A
        human current player, and every other player, is left unchanged. */
    method PlayTurn(channelId: string, r1: real, r2: real)
      requires channelId in games ==> games[channelId].Valid()
      requires 0.0 <= r1 < 1.0 && 0.0 <= r2 < 1.0
      modifies if channelId in games then {games[channelId].turnManager} else {}
      modifies if channelId in games then games[channelId].players else []
      ensures channelId in games ==>
                var tm := games[channelId].turnManager;
                tm.currentPlayerIndex == Advance(old(tm.currentPlayerIndex), |games[channelId].players|)
                && tm.turnCount == old(tm.turnCount) + 1
                && games[channelId].Valid()
      ensures channelId in games ==>
                var game := games[channelId];
                var current := old(game.turnManager.GetCurrentPlayer());
                (current.Some? && current.value.isAI ==> MoveMade(current.value, game, RollDice(r1, r2)))
                && forall q :: q in game.players && !(current.Some? && q == current.value && q.isAI) ==> unchanged(q)
    {
      var found := GetGameForChannel(channelId);
      if found.None? {
        return;
      }
      var game := found.value;
      var currentPlayer := game.turnManager.GetCurrentPlayer();
      if currentPlayer.Some? && currentPlayer.value.isAI {
        var _ := MakeMoveAsWritten(currentPlayer.value, game, r1, r2);
      }
      game.turnManager.NextTurn();
    }
  }
}

=== FILE: model/guardedcards.dfy ===
/** The chance and community-chest handlers of the guarded-payment engine.  A
    handler holds the card file and (for chance) the board file; it draws a
    card with an injected random number and dispatches on the card's type to
    exactly one handler, which acts on the drawing player through the
    player's own operations.  Unknown types change nothing.

    The handlers' list of players is declared and never assigned, so the
    spend-each-player and earn-each-player cards always meet an undefined list
    and throw.

    The handlers come in two copies (`Copy`).  The class engine's handlers
    await the player's asynchronous operations, so a failure inside `move` or
    `calculateRepairCost` reaches the caller.  The dice game's handlers call
    the same operations without waiting for them: such a failure becomes an
    unhandled rejection, whatever the operation changed before it failed
    stays changed, and the handler itself returns normally.  A failure in the
    handler's own code throws in both copies. */
module GuardedCards {
  import opened Common
  import opened GuardedPlayers

  /** Which copy of the handlers runs: the class engine's, which awaits the
      player's operations, or the dice game's, which does not. */
  datatype Copy = Awaiting | NotAwaiting

  /** The outcome of an operation of the player as the handler sees it: a
      failure the handler does not await is not its own. */
  function Seen(copy: Copy, out: Outcome): (r: Outcome)
    ensures copy.Awaiting? ==> r == out
    ensures copy.NotAwaiting? ==> r == Done
  {
    if copy.Awaiting? then out else Done
  }

  /** A card as the card files hold it. */
  datatype CardData = CardData(description: string, kind: string, amount: Amount)

  const CHANCE_TYPES: set<string> := {"advance", "earn", "jail-card", "back", "jail", "repairs", "spend",
                                      "spend-each-player", "fine", "tax"}
  const COMMUNITY_TYPES: set<string> := {"advance", "earn", "spend", "jail-card", "jail", "earn-each-player", "repairs"}

  /** `drawChanceCard()` / `drawCommunityCard()` with the number `Math.random()`
      returned: the card at `Math.floor(r * length)`, undefined for an empty pile. */
  function Draw(cards: seq<CardData>, r: real): (c: Option<CardData>)
    requires 0.0 <= r < 1.0
    ensures c.None? <==> |cards| == 0
    ensures c.Some? ==> c.value in cards
  {
    if |cards| == 0 then None else Some(cards[DieFace(r, |cards|) - 1])
  }

  // ----- Comparing names -----

  /** JavaScript's `a > b` on strings: code unit by code unit, a longer string
      beating its own prefix. */
  predicate LexGreater(a: string, b: string)
  {
    if |a| == 0 then false
    else if |b| == 0 then true
    else if a[0] != b[0] then a[0] > b[0]
    else LexGreater(a[1..], b[1..])
  }

  /** No name is greater than itself, and of two names at most one is greater. */
  lemma {:induction false} LexGreaterStrict(a: string, b: string)
    ensures !LexGreater(a, a)
    ensures !(LexGreater(a, b) && LexGreater(b, a))
  {
    if |a| > 0 {
      LexGreaterStrict(a[1..], a[1..]);
      if |b| > 0 {
        LexGreaterStrict(a[1..], b[1..]);
      }
    }
  }

  // ----- The closest space of a type -----

  /** The `localeCompare` distance the search uses: 0 for the same name, 1 otherwise. */
  function Distance(from: string, name: string): nat
  {
    if from == name then 0 else 1
  }

  /** The space of type `kind` the search settles on: the first one bearing
      the player's own space name if there is one, else the first of the
      type, else -1. */
  function ClosestOfKind(board: seq<Space>, kind: string, from: string): (i: int)
    ensures -1 <= i < |board|
    ensures i == -1 <==> forall j :: 0 <= j < |board| ==> board[j].kind != kind
    ensures i >= 0 ==> board[i].kind == kind
    ensures i >= 0 ==> forall j :: 0 <= j < i && board[j].kind == kind ==> Distance(from, board[j].name) > Distance(from, board[i].name)
    ensures i >= 0 ==> forall j :: 0 <= j < |board| && board[j].kind == kind ==> Distance(from, board[j].name) >= Distance(from, board[i].name)
  {
    var exact := FindIndex(board, (s: Space) => s.kind == kind && s.name == from);
    if exact >= 0 then exact else FindIndex(board, (s: Space) => s.kind == kind)
  }

  /** `findClosestUtility` / `findClosestRailroad`: a pass over the board that
      keeps the first space of the type at the smallest distance so far. */
  method FindClosest(board: seq<Space>, kind: string, from: string) returns (closest: int)
    ensures closest == ClosestOfKind(board, kind, from)
  {
    closest := -1;
    var minDistance := 0x1F_FFFF_FFFF_FFFF;
    var i := 0;
    while i < |board|
      invariant 0 <= i <= |board|
      invariant -1 <= closest < i
      invariant closest == -1 <==> forall j :: 0 <= j < i ==> board[j].kind != kind
      invariant closest == -1 ==> minDistance == 0x1F_FFFF_FFFF_FFFF
      invariant closest >= 0 ==> board[closest].kind == kind && minDistance == Distance(from, board[closest].name)
      invariant closest >= 0 ==>
                  forall j :: 0 <= j < closest && board[j].kind == kind ==> Distance(from, board[j].name) > minDistance
      invariant closest >= 0 ==>
                  forall j :: 0 <= j < i && board[j].kind == kind ==> Distance(from, board[j].name) >= minDistance
    {
      if board[i].kind == kind {
        var distance := Distance(from, board[i].name);
        if distance < minDistance {
          minDistance := distance;
          closest := i;
        }
      }
      i := i + 1;
    }
    ClosestIsUnique(board, kind, from, closest);
  }

  /** The properties `ClosestOfKind` promises single out one index. */
  lemma ClosestIsUnique(board: seq<Space>, kind: string, from: string, c: int)
    requires -1 <= c < |board|
    requires c == -1 <==> forall j :: 0 <= j < |board| ==> board[j].kind != kind
    requires c >= 0 ==> board[c].kind == kind
    requires c >= 0 ==> forall j :: 0 <= j < c && board[j].kind == kind ==> Distance(from, board[j].name) > Distance(from, board[c].name)
    requires c >= 0 ==> forall j :: 0 <= j < |board| && board[j].kind == kind ==> Distance(from, board[j].name) >= Distance(from, board[c].name)
    ensures c == ClosestOfKind(board, kind, from)
  {
  }

  // ----- Handlers shared by both piles -----

  /** `handleEarn(player, Number(amount))`: the amount is credited; a NaN
      amount makes the balance NaN, which the model reports as `NonNumeric`
      and does not carry. */
  method Earn(player: Player, amount: Option<int>) returns (out: Outcome)
    modifies player`balance
    ensures amount.Some? ==> out == Done && player.balance == old(player.balance) + amount.value
    ensures amount.None? ==> out == NonNumeric("balance") && player.balance == old(player.balance)
  {
    if amount.None? {
      return NonNumeric("balance");
    }
    player.ReceiveMoney(amount.value);
    return Done;
  }

  /** `handleSpend`, `handleFine`, `handleTax`: a guarded payment; a NaN
      amount fails the guard and changes nothing. */
  method Spend(player: Player, amount: Option<int>)
    modifies player`balance
    ensures amount.Some? ==> player.balance == AfterPayment(old(player.balance), amount.value)
    ensures amount.None? ==> player.balance == old(player.balance)
    ensures old(player.balance) >= 0 ==> player.balance >= 0
  {
    if amount.Some? {
      player.PayMoney(amount.value);
    }
  }

  /** `handleJailCard(player)`: the chance freedom flag is set, on either pile. */
  method JailCard(player: Player)
    modifies player`ownsFreedomChance
    ensures player.ownsFreedomChance
  {
    player.ownsFreedomChance := true;
  }

  /** `handleRepairs(player, amount[first], amount[second])`: the bill is
      computed and never charged, so nothing changes.  Reading a missing
      element of the amount throws; the bill of a player without records
      fails, which only the awaiting copy sees. */
  method Repairs(copy: Copy, player: Player, amount: Amount, first: nat, second: nat) returns (out: Outcome)
    ensures out.Threw? <==> !HasIndex(amount, first) || !HasIndex(amount, second) || (copy.Awaiting? && player.properties.None?)
    ensures !out.Threw? ==> out == Done
  {
    if !HasIndex(amount, first) || !HasIndex(amount, second) {
      return Threw("TypeError: cannot read properties of undefined");
    }
    var bill := player.CalculateRepairCost(0, 0);
    if bill.Err? {
      return Seen(copy, Threw(bill.reason));
    }
    return Done;
  }

  /** `handleSpendEachPlayer(players, amount)`: an undefined or empty list
      throws; otherwise every listed player makes the guarded payment once per
      time it is listed, and the result is the amount times the length of the
      list (NaN, `None`, for a NaN amount, which nobody pays). */
  method SpendEachPlayer(players: Option<seq<Player>>, amount: Option<int>) returns (r: Result<Option<int>>)
    modifies (if players.Some? then players.value else [])`balance
    ensures r.Err? <==> players.None? || |players.value| == 0
    ensures r.Ok? && amount.None? ==> r.value.None? && forall p :: p in players.value ==> p.balance == old(p.balance)
    ensures r.Ok? && amount.Some? ==>
              r.value == Some(amount.value * |players.value|)
              && forall p :: p in players.value ==>
                   p.balance == AfterPayments(old(p.balance), amount.value, multiset(players.value)[p])
  {
    if players.None? || |players.value| == 0 {
      return Err("Invalid players data");
    }
    var ps := players.value;
    if amount.None? {
      return Ok(None);
    }
    PayEach(ps, amount.value);
    return Ok(Some(amount.value * |ps|));
  }

  /** The loop of `spendEachPlayer`: each listed player makes the guarded
      payment once per time it is listed. */
  method PayEach(ps: seq<Player>, a: int)
    modifies ps`balance
    ensures forall p :: p in ps ==> p.balance == AfterPayments(old(p.balance), a, multiset(ps)[p])
  {
    var i := 0;
    while i < |ps|
      invariant 0 <= i <= |ps|
      invariant forall p :: p in ps ==> p.balance == AfterPayments(old(p.balance), a, multiset(ps[..i])[p])
    {
      CountStep(ps, i);
      ps[i].PayMoney(a);
      i := i + 1;
    }
    assert ps[..|ps|] == ps;
  }

  /** Taking one more listed player into account counts that player once
      more and nobody else. */
  lemma CountStep(ps: seq<Player>, i: nat)
    requires i < |ps|
    ensures forall p :: multiset(ps[..i + 1])[p] == multiset(ps[..i])[p] + (if p == ps[i] then 1 else 0)
  {
    assert ps[..i + 1] == ps[..i] + [ps[i]];
  }

  class ChanceCardHandler {
    const copy: Copy
    const chanceCards: seq<CardData>
    const board: seq<Space>
    /** Declared and never assigned. */
    const players: Option<seq<Player>>

    /** A handler over the chance card file and the board file. */
    constructor (copy: Copy, chanceCards: seq<CardData>, board: seq<Space>)
      ensures this.copy == copy && this.chanceCards == chanceCards && this.board == board && players == None
    {
      this.copy := copy;
      this.chanceCards := chanceCards;
      this.board := board;
      players := None;
    }

    /** `drawChanceCard()`. */
    function DrawChanceCard(r: real): (c: Option<CardData>)
      requires 0.0 <= r < 1.0
      ensures c.None? <==> |chanceCards| == 0
      ensures c.Some? ==> c.value in chanceCards
    {
      Draw(chanceCards, r)
    }

    /** `findClosestUtility(name)`. */
    method FindClosestUtility(from: string) returns (closest: int)
      ensures closest == ClosestOfKind(board, "utility", from)
    {
      closest := FindClosest(board, "utility", from);
    }

    /** `findClosestRailroad(name)`. */
    method FindClosestRailroad(from: string) returns (closest: int)
      ensures closest == ClosestOfKind(board, "railroad", from)
    {
      closest := FindClosest(board, "railroad", from);
    }

    /** What `handleAdvance` does to the player for the amount, with the
        outcome `out`. */
    twostate predicate AdvanceHandled(player: Player, amount: Amount, out: Outcome)
      reads this, player
    {
      (amount.Number? && !(0 <= amount.n < |board|) ==>
          out.Threw? && player.Snapshot() == old(player.Snapshot()))
      && (amount.Number? && 0 <= amount.n < |board| ==>
          var target := board[amount.n].name;
          var here := player.CurrentSpace();
          player.position == Moved(old(player.position), StringToNumber(target), |player.board|)
          && (out.Threw? <==> copy.Awaiting? && here.None?)
          && (!out.Threw? ==> out == Done)
          && player.balance
             == old(player.balance) + (if Passed(old(player.position), player.position) then GO_BONUS else 0)
                + (if here.Some? && LexGreater(here.value.name, target) then GO_BONUS else 0))
      && (amount.Text? && amount.s in {"utility", "railroad"} && old(player.CurrentSpace()).None? ==>
          out.Threw? && player.Snapshot() == old(player.Snapshot()))
      && (amount.Text? && amount.s in {"utility", "railroad"} && old(player.CurrentSpace()).Some? ==>
          out == Done
          && var k := ClosestOfKind(board, amount.s, old(player.CurrentSpace()).value.name);
             (k == -1 ==> player.Snapshot() == old(player.Snapshot()))
             && (k >= 0 ==>
                   player.position == Moved(old(player.position), Some(k), |player.board|)
                   && player.balance
                      == old(player.balance) + GO_BONUS
                         + (if Passed(old(player.position), player.position) then GO_BONUS else 0)))
      && (amount.Numbers? || (amount.Text? && amount.s !in {"utility", "railroad"}) ==>
          out == Done && player.Snapshot() == old(player.Snapshot()))
    }

    /** `handleAdvance(player, amount)`.  A number is an index into the board
        file: the player moves by `Number` of that space's NAME (NaN for every
        street name, which leaves the position NaN), then earns a second 200
        when it stands on a space with a greater name.  'utility' and
        'railroad' credit 200 and move the player BY the index of the closest
        such space, when there is one, without awaiting the move.  Other
        amounts do nothing. */
    method HandleAdvance(player: Player, amount: Amount) returns (out: Outcome)
      modifies player`position, player`balance
      ensures AdvanceHandled(player, amount, out)
    {
      match amount {
        case Number(n) =>
          if !(0 <= n < |board|) {
            return Threw("TypeError: cannot read properties of undefined (reading 'name')");
          }
          var target := board[n].name;
          var moved := player.Move(StringToNumber(target));
          if Seen(copy, moved).Threw? {
            return moved;
          }
          var here := player.CurrentSpace();
          if here.Some? && LexGreater(here.value.name, target) {
            player.ReceiveMoney(GO_BONUS);
          }
          return Done;
        case Text(s) =>
          if s == "utility" || s == "railroad" {
            var here := player.CurrentSpace();
            if here.None? {
              return Threw("TypeError: cannot read properties of undefined (reading 'name')");
            }
            var k := FindClosest(board, s, here.value.name);
            if k != -1 {
              player.ReceiveMoney(GO_BONUS);
              var _ := player.Move(Some(k));
            }
          }
          return Done;
        case Numbers(_) =>
          return Done;
      }
    }

    /** What `handleChanceCard` does to the player for the card, with the
        outcome `out`: one effect per known type, nothing for an unknown
        one. */
    twostate predicate ChanceHandled(player: Player, card: CardData, out: Outcome)
      reads this, player
    {
      (card.kind !in CHANCE_TYPES ==> out == Done && player.Snapshot() == old(player.Snapshot()))
      && (card.kind == "earn" ==>
          var v := AmountToNumber(card.amount);
          (v.Some? ==> out == Done && player.Snapshot() == old(player.Snapshot()).(balance := old(player.balance) + v.value))
          && (v.None? ==> out == NonNumeric("balance") && player.Snapshot() == old(player.Snapshot())))
      && (card.kind in {"spend", "fine", "tax"} ==>
          var v := AmountToNumber(card.amount);
          out == Done
          && player.Snapshot()
             == old(player.Snapshot()).(balance := if v.Some? then AfterPayment(old(player.balance), v.value) else old(player.balance)))
      && (card.kind == "jail-card" ==>
          out == Done && player.Snapshot() == old(player.Snapshot()).(ownsFreedomChance := true))
      && (card.kind == "jail" ==>
          out == Done
          && player.Snapshot()
             == old(player.Snapshot()).(doublesCount := Some(0), isJailed := true, position := Some(JAIL_POSITION)))
      && (card.kind == "back" ==>
          var moved := Moved(old(player.position), Some(-3), |player.board|);
          player.Snapshot()
          == old(player.Snapshot()).(position := moved,
                                     balance := old(player.balance)
                                                + (if Passed(old(player.position), moved) then GO_BONUS else 0))
          && (out.Threw? <==> copy.Awaiting? && player.CurrentSpace().None?)
          && (!out.Threw? ==> out == Done))
      && (card.kind == "repairs" ==>
          player.Snapshot() == old(player.Snapshot())
          && (out.Threw? <==>
                !HasIndex(card.amount, 1) || !HasIndex(card.amount, 2) || (copy.Awaiting? && player.properties.None?)))
      && (card.kind == "spend-each-player" && players.None? ==> out.Threw? && player.Snapshot() == old(player.Snapshot()))
      && (card.kind == "advance" ==>
          AdvanceHandled(player, card.amount, out)
          && player.doublesCount == old(player.doublesCount) && player.isJailed == old(player.isJailed)
          && player.ownsFreedomChance == old(player.ownsFreedomChance))
    }

    /** `handleChanceCard(player, card)`: exactly one handler per known type,
        nothing for an unknown one. */
    method HandleChanceCard(player: Player, card: CardData) returns (out: Outcome)
      modifies player`position, player`balance, player`doublesCount, player`isJailed, player`ownsFreedomChance
      modifies (if players.Some? then players.value else [])`balance
      ensures ChanceHandled(player, card, out)
    {
      var v := AmountToNumber(card.amount);
      match card.kind {
        case "advance" =>
          out := HandleAdvance(player, card.amount);
        case "earn" =>
          out := Earn(player, v);
        case "jail-card" =>
          JailCard(player);
          out := Done;
        case "back" =>
          out := player.Move(Some(-3));
          out := Seen(copy, out);
        case "jail" =>
          player.GoToJail();
          out := Done;
        case "repairs" =>
          out := Repairs(copy, player, card.amount, 1, 2);
        case "spend" =>
          Spend(player, v);
          out := Done;
        case "spend-each-player" =>
          var r := SpendEachPlayer(players, v);
          out := if r.Err? then Threw(r.reason) else Done;
        case "fine" =>
          Spend(player, v);
          out := Done;
        case "tax" =>
          Spend(player, v);
          out := Done;
        case _ =>
          out := Done;
      }
    }
  }

  class CommunityCardHandler {
    const copy: Copy
    const communityCards: seq<CardData>
    /** Declared and never assigned. */
    const players: Option<seq<Player>>

    /** A handler over the community-chest card file. */
    constructor (copy: Copy, communityCards: seq<CardData>)
      ensures this.copy == copy && this.communityCards == communityCards && players == None
    {
      this.copy := copy;
      this.communityCards := communityCards;
      players := None;
    }

    /** `drawCommunityCard()`. */
    function DrawCommunityCard(r: real): (c: Option<CardData>)
      requires 0.0 <= r < 1.0
      ensures c.None? <==> |communityCards| == 0
      ensures c.Some? ==> c.value in communityCards
    {
      Draw(communityCards, r)
    }

    /** `handleAdvance(player, amount)`: the player moves by `Number(amount)`,
        so a NaN amount leaves the position NaN. */
    method HandleAdvance(player: Player, amount: Amount) returns (out: Outcome)
      modifies player`position, player`balance
      ensures player.position == Moved(old(player.position), AmountToNumber(amount), |player.board|)
      ensures player.balance == old(player.balance) + (if Passed(old(player.position), player.position) then GO_BONUS else 0)
      ensures out.Threw? <==> copy.Awaiting? && player.CurrentSpace().None?
      ensures !out.Threw? ==> out == Done
    {
      out := player.Move(AmountToNumber(amount));
      out := Seen(copy, out);
    }

    /** What `handleCommunityCard` does to the player for the card, with
        the outcome `out`. */
    twostate predicate CommunityHandled(player: Player, card: CardData, out: Outcome)
      reads this, player
    {
      (card.kind !in COMMUNITY_TYPES ==> out == Done && player.Snapshot() == old(player.Snapshot()))
      && (card.kind == "earn" ==>
          var v := AmountToNumber(card.amount);
          (v.Some? ==> out == Done && player.Snapshot() == old(player.Snapshot()).(balance := old(player.balance) + v.value))
          && (v.None? ==> out == NonNumeric("balance") && player.Snapshot() == old(player.Snapshot())))
      && (card.kind == "spend" ==>
          var v := AmountToNumber(card.amount);
          out == Done
          && player.Snapshot()
             == old(player.Snapshot()).(balance := if v.Some? then AfterPayment(old(player.balance), v.value) else old(player.balance)))
      && (card.kind == "jail-card" ==>
          out == Done && player.Snapshot() == old(player.Snapshot()).(ownsFreedomChance := true))
      && (card.kind == "jail" ==>
          out == Done
          && player.Snapshot()
             == old(player.Snapshot()).(doublesCount := Some(0), isJailed := true, position := Some(JAIL_POSITION)))
      && (card.kind == "repairs" ==>
          player.Snapshot() == old(player.Snapshot())
          && (out.Threw? <==>
                !HasIndex(card.amount, 0) || !HasIndex(card.amount, 1) || (copy.Awaiting? && player.properties.None?)))
      && (card.kind == "earn-each-player" && players.None? ==> out.Threw? && player.Snapshot() == old(player.Snapshot()))
      && (card.kind == "advance" ==>
          player.doublesCount == old(player.doublesCount) && player.isJailed == old(player.isJailed)
          && player.ownsFreedomChance == old(player.ownsFreedomChance)
          && player.position == Moved(old(player.position), AmountToNumber(card.amount), |player.board|)
          && player.balance == old(player.balance) + (if Passed(old(player.position), player.position) then GO_BONUS else 0)
          && (out.Threw? <==> copy.Awaiting? && player.CurrentSpace().None?)
          && (!out.Threw? ==> out == Done))
    }

    /** `handleCommunityCard(player, card)`: exactly one handler per known
        type, nothing for an unknown one; 'earn-each-player' runs the same
        spend-each handler as the chance pile. */
    method HandleCommunityCard(player: Player, card: CardData) returns (out: Outcome)
      modifies player`position, player`balance, player`doublesCount, player`isJailed, player`ownsFreedomChance
      modifies (if players.Some? then players.value else [])`balance
      ensures CommunityHandled(player, card, out)
    {
      var v := AmountToNumber(card.amount);
      match card.kind {
        case "advance" =>
          out := HandleAdvance(player, card.amount);
        case "earn" =>
          out := Earn(player, v);
        case "spend" =>
          Spend(player, v);
          out := Done;
        case "jail-card" =>
          JailCard(player);
          out := Done;
        case "jail" =>
          player.GoToJail();
          out := Done;
        case "earn-each-player" =>
          var r := SpendEachPlayer(players, v);
          out := if r.Err? then Threw(r.reason) else Done;
        case "repairs" =>
          out := Repairs(copy, player, card.amount, 0, 1);
        case _ =>
          out := Done;
      }
    }
  }
}

=== FILE: model/guardedplayer.dfy ===
/** The player of the guarded-payment engine (the `Player` with a balance, a
    doubles counter and two get-out-of-jail flags).  Payments are refused
    rather than overdrawn, passing Go credits 200, and jail is space 10.

    The player keeps its owned properties as an array of records and its
    mortgage toggles index that array by the property's NAME, which an array
    only answers for index-like names such as "0" or "12", for "length" (a
    number) and for the names of its inherited members (`ArraySlot`): as
    written the toggles never find a property called by its name
    (`ToggleMortgageAsWritten`, `ToggleUnmortgageAsWritten`).  `ToggleMortgage`
    and `ToggleUnmortgage` look the record up by its name. */
module GuardedPlayers {
  import opened Common

  const GO_BONUS := 200
  const JAIL_POSITION := 10

  /** A board space: its name and its type ("property", "utility", "railroad", ...). */
  datatype Space = Space(name: string, kind: string)

  /** A property record held by a player: the owner's username (`None` for
      null), the mortgage flag and the buildings on it. */
  datatype Deed = Deed(name: string, owner: Option<string>, mortgaged: bool, houses: int, hotels: int)

  /** Everything a card or a roll can change on a player, as one value. */
  datatype PlayerState = PlayerState(balance: int, position: Counter, doublesCount: Counter, rollsCount: Counter,
                                     isJailed: bool, ownsFreedomCommunity: bool, ownsFreedomChance: bool,
                                     properties: Option<seq<Deed>>)

  // ----- Moving -----

  /** The index a move of `steps` from `position` computes on a board of
      `length` spaces, with JavaScript's remainder. */
  function Landing(position: int, steps: int, length: nat): int
    requires length > 0
  {
    JsRem(position + steps, length)
  }

  /** A forward move shorter than the board, from a space of the board, stays
      on the board, and ends on a lower index (and so earns the Go bonus)
      exactly when it wraps past the last space. */
  lemma PassingGo(position: int, steps: int, length: nat)
    requires length > 0 && 0 <= position < length && 0 <= steps < length
    ensures 0 <= Landing(position, steps, length) < length
    ensures Landing(position, steps, length) < position <==> position + steps >= length
    ensures position + steps < length ==> Landing(position, steps, length) == position + steps
    ensures position + steps >= length ==> Landing(position, steps, length) == position + steps - length
  {
    ModSmall(position + steps, length);
  }

  /** Moving back three spaces from space 3 or beyond lands on a lower index,
      so the move pays the Go bonus; from spaces 0 to 2 it lands on a negative
      index, off the board. */
  lemma BackwardMovePaysGoBonus(position: int, length: nat)
    requires length > 3 && 0 <= position < length
    ensures position >= 3 ==> Landing(position, -3, length) == position - 3 < position
    ensures position < 3 ==> Landing(position, -3, length) == position - 3 < 0
  {
  }

  /** `(position + steps) % board.length` on values that may be NaN (`None`):
      NaN when either operand is NaN or the board is empty. */
  function Moved(position: Counter, steps: Counter, length: nat): (r: Counter)
    ensures r.Some? <==> position.Some? && steps.Some? && length > 0
  {
    if position.Some? && steps.Some? && length > 0 then Some(Landing(position.value, steps.value, length)) else None
  }

  /** `newPosition < this._position`: the Go-bonus test, false when either side is NaN. */
  predicate Passed(before: Counter, after: Counter)
  {
    before.Some? && after.Some? && after.value < before.value
  }

  /** A player whose position is undefined never gets a position by moving,
      however many moves it makes: only `goToJail` sets it. */
  lemma {:induction false} UnsetPositionStaysUnset(steps: seq<Counter>, length: nat)
    ensures MovedBy(None, steps, length) == None
  {
    if |steps| > 0 {
      UnsetPositionStaysUnset(steps[..|steps| - 1], length);
    }
  }

  /** The position after a sequence of moves. */
  function MovedBy(position: Counter, steps: seq<Counter>, length: nat): Counter
  {
    if |steps| == 0 then position else Moved(MovedBy(position, steps[..|steps| - 1], length), steps[|steps| - 1], length)
  }

  /** A backward move the way the board intends it: it wraps to the end of the
      board instead of leaving it, and pays no bonus. */
  function StepBack(position: int, steps: nat, length: nat): (r: (int, int))
    requires length > 0 && 0 <= position < length && steps < length
    ensures 0 <= r.0 < length
    ensures r.1 == 0
    ensures position >= steps ==> r.0 == position - steps
    ensures position < steps ==> r.0 == position - steps + length
  {
    if position >= steps then (position - steps, 0) else (position - steps + length, 0)
  }

  // ----- Paying -----

  /** The balance after a guarded payment: the amount is taken only when the
      balance covers it. */
  function AfterPayment(balance: int, amount: int): (r: int)
    ensures balance >= amount ==> r == balance - amount
    ensures balance < amount ==> r == balance
    ensures balance >= 0 ==> r >= 0
  {
    if balance >= amount then balance - amount else balance
  }

  /** The balance after `times` guarded payments of the same amount. */
  function AfterPayments(balance: int, amount: int, times: nat): int
  {
    if times == 0 then balance else AfterPayment(AfterPayments(balance, amount, times - 1), amount)
  }

  /** However many guarded payments are made, a balance that was not negative
      never becomes negative, and a non-negative amount never raises it. */
  lemma {:induction false} PaymentsNeverOverdraw(balance: int, amount: int, times: nat)
    ensures balance >= 0 ==> AfterPayments(balance, amount, times) >= 0
    ensures amount >= 0 ==> AfterPayments(balance, amount, times) <= balance
  {
    if times > 0 {
      PaymentsNeverOverdraw(balance, amount, times - 1);
    }
  }

  // ----- Repairs -----

  function TotalHouses(ds: seq<Deed>): int
  {
    if |ds| == 0 then 0 else ds[0].houses + TotalHouses(ds[1..])
  }

  function TotalHotels(ds: seq<Deed>): int
  {
    if |ds| == 0 then 0 else ds[0].hotels + TotalHotels(ds[1..])
  }

  /** The repair bill, summed property by property: each house at the house
      rate and each hotel at the hotel rate. */
  function RepairBill(ds: seq<Deed>, houseCost: int, hotelCost: int): int
  {
    if |ds| == 0 then 0
    else ds[0].houses * houseCost + ds[0].hotels * hotelCost + RepairBill(ds[1..], houseCost, hotelCost)
  }

  /** The bill is the number of houses times the house rate plus the number of
      hotels times the hotel rate. */
  lemma {:induction false} RepairBillByTotals(ds: seq<Deed>, houseCost: int, hotelCost: int)
    ensures RepairBill(ds, houseCost, hotelCost) == TotalHouses(ds) * houseCost + TotalHotels(ds) * hotelCost
  {
    if |ds| > 0 {
      RepairBillByTotals(ds[1..], houseCost, hotelCost);
      var h, t := TotalHouses(ds[1..]), TotalHotels(ds[1..]);
      assert (ds[0].houses + h) * houseCost == ds[0].houses * houseCost + h * houseCost;
      assert (ds[0].hotels + t) * hotelCost == ds[0].hotels * hotelCost + t * hotelCost;
    }
  }

  /** Bills of two lists of properties add up. */
  lemma {:induction false} RepairBillAppend(a: seq<Deed>, b: seq<Deed>, houseCost: int, hotelCost: int)
    ensures RepairBill(a + b, houseCost, hotelCost) == RepairBill(a, houseCost, hotelCost) + RepairBill(b, houseCost, hotelCost)
  {
    if |a| == 0 {
      assert a + b == b;
    } else {
      assert (a + b)[1..] == a[1..] + b;
      RepairBillAppend(a[1..], b, houseCost, hotelCost);
    }
  }

  /** Properties without buildings cost nothing to repair, and with
      non-negative rates and building counts the bill is never negative. */
  lemma {:induction false} RepairBillBounds(ds: seq<Deed>, houseCost: int, hotelCost: int)
    ensures (forall i :: 0 <= i < |ds| ==> ds[i].houses == 0 && ds[i].hotels == 0) ==> RepairBill(ds, houseCost, hotelCost) == 0
    ensures houseCost >= 0 && hotelCost >= 0 && (forall i :: 0 <= i < |ds| ==> ds[i].houses >= 0 && ds[i].hotels >= 0)
            ==> RepairBill(ds, houseCost, hotelCost) >= 0
  {
    if |ds| > 0 {
      RepairBillBounds(ds[1..], houseCost, hotelCost);
      assert forall i :: 0 <= i < |ds[1..]| ==> ds[1..][i] == ds[i + 1];
    }
  }

  // ----- Mortgages -----

  /** The array index a property key denotes: a non-empty string of digits
      without a leading zero (other than "0" itself). */
  function ArrayKey(key: string): (k: Option<nat>)
    ensures k.Some? ==> |key| > 0 && IsDigit(key[0])
    ensures |key| == 1 && IsDigit(key[0]) ==> k == Some(key[0] as int - '0' as int)
  {
    if |key| > 0 && (forall i :: 0 <= i < |key| ==> IsDigit(key[i])) && (|key| == 1 || key[0] != '0')
    then Some(DecimalValue(key))
    else None
  }

  /** The exception of setting a flag on a number in strict code. */
  const NO_FLAG_ON_NUMBER := "TypeError: Cannot create property 'mortgaged' on number"

  /** The names every array answers without an element: the members it
      inherits from `Array.prototype` and `Object.prototype` (ECMAScript
      2023).  Each is a function, or for `__proto__` the prototype object. */
  predicate ArrayMember(key: string)
  {
    key == "at" || key == "concat" || key == "constructor" || key == "copyWithin"
    || key == "entries" || key == "every" || key == "fill" || key == "filter" || key == "find"
    || key == "findIndex" || key == "findLast" || key == "findLastIndex" || key == "flat"
    || key == "flatMap" || key == "forEach" || key == "includes" || key == "indexOf"
    || key == "join" || key == "keys" || key == "lastIndexOf" || key == "map" || key == "pop"
    || key == "push" || key == "reduce" || key == "reduceRight" || key == "reverse"
    || key == "shift" || key == "slice" || key == "some" || key == "sort" || key == "splice"
    || key == "toLocaleString" || key == "toReversed" || key == "toSorted" || key == "toSpliced"
    || key == "toString" || key == "unshift" || key == "values" || key == "with"
    || key == "__defineGetter__" || key == "__defineSetter__" || key == "__lookupGetter__"
    || key == "__lookupSetter__" || key == "__proto__" || key == "hasOwnProperty"
    || key == "isPrototypeOf" || key == "propertyIsEnumerable" || key == "valueOf"
  }

  /** What `array[key]` gives on an array: the element at an index, the
      array's own `length` (a number), an inherited member (an object), or
      undefined. */
  datatype Slot = Element(i: nat) | LengthOf | Member | Undefined

  /** `array[key]` on an array of `n` elements. */
  function ArraySlot(n: nat, key: string): (s: Slot)
    ensures s.Element? <==> ArrayKey(key).Some? && ArrayKey(key).value < n
    ensures s.Element? ==> s.i == ArrayKey(key).value && s.i < n
    ensures ArrayKey(key).None? ==> (s == LengthOf <==> key == "length")
    ensures ArrayKey(key).None? ==> (s == Member <==> key != "length" && ArrayMember(key))
    ensures |key| > 0 && !IsDigit(key[0]) && key != "length" && !ArrayMember(key) ==> s == Undefined
  {
    match ArrayKey(key)
    case Some(k) => if k < n then Element(k) else Undefined
    case None => if key == "length" then LengthOf else if ArrayMember(key) then Member else Undefined
  }

  /** `properties[key]` on the array of records: the record at the index the
      key denotes, or -1 when the key reaches no record. */
  function LookUpAsWritten(ds: seq<Deed>, key: string): (i: int)
    ensures -1 <= i < |ds|
    ensures i >= 0 <==> ArraySlot(|ds|, key).Element?
    ensures i >= 0 ==> ArrayKey(key) == Some(i)
  {
    match ArraySlot(|ds|, key)
    case Element(k) => k
    case _ => -1
  }

  /** The record of the property of that name: the first one, or -1. */
  function LookUp(ds: seq<Deed>, name: string): (i: int)
    ensures -1 <= i < |ds|
    ensures i >= 0 ==> ds[i].name == name && forall j :: 0 <= j < i ==> ds[j].name != name
    ensures i == -1 <==> forall j :: 0 <= j < |ds| ==> ds[j].name != name
  {
    FindIndex(ds, (d: Deed) => d.name == name)
  }

  /** The records with the mortgage flag of record `i` set to `flag` (no
      record for -1). */
  function SetMortgaged(ds: seq<Deed>, i: int, flag: bool): (r: seq<Deed>)
    requires -1 <= i < |ds|
    ensures |r| == |ds|
    ensures forall j :: 0 <= j < |ds| && j != i ==> r[j] == ds[j]
    ensures i >= 0 ==> r[i] == ds[i].(mortgaged := flag)
  {
    if i < 0 then ds else ds[i := ds[i].(mortgaged := flag)]
  }

  /** Setting a flag to the value it has changes nothing. */
  lemma SetSameFlag(ds: seq<Deed>, i: int, flag: bool)
    requires 0 <= i < |ds| && ds[i].mortgaged == flag
    ensures SetMortgaged(ds, i, flag) == ds
  {
  }

  /** Looking up by name does not see the mortgage flags. */
  lemma LookUpIgnoresFlags(ds: seq<Deed>, i: int, flag: bool, name: string)
    requires -1 <= i < |ds|
    ensures LookUp(SetMortgaged(ds, i, flag), name) == LookUp(ds, name)
  {
    var r := SetMortgaged(ds, i, flag);
    assert forall j :: 0 <= j < |ds| ==> r[j].name == ds[j].name;
  }

  /** Mortgaging an owned, unmortgaged property and then unmortgaging it by
      name gives back the same records. */
  lemma MortgageRoundTrip(ds: seq<Deed>, name: string)
    requires LookUp(ds, name) >= 0 && !ds[LookUp(ds, name)].mortgaged
    ensures var m := SetMortgaged(ds, LookUp(ds, name), true);
            SetMortgaged(m, LookUp(m, name), false) == ds
  {
    var i := LookUp(ds, name);
    LookUpIgnoresFlags(ds, i, true, name);
    var m := SetMortgaged(ds, i, true);
    assert SetMortgaged(m, i, false) == ds;
  }

  /** As written the toggles never reach a property by its name: a name that
      does not start with a digit (every street name) is not an array index. */
  lemma NamesAreNotArrayKeys(ds: seq<Deed>, name: string, flag: bool)
    requires |name| > 0 && !IsDigit(name[0])
    ensures LookUpAsWritten(ds, name) == -1
    ensures SetMortgaged(ds, LookUpAsWritten(ds, name), flag) == ds
  {
  }

  /** A player holding only Baltic Avenue, unmortgaged: looking it up by name
      finds it, the array lookup does not. */
  lemma BalticAvenueIsMissed()
    ensures var ds := [Deed("Baltic Avenue", Some("ann"), false, 0, 0)];
            LookUp(ds, "Baltic Avenue") == 0 && LookUpAsWritten(ds, "Baltic Avenue") == -1
            && SetMortgaged(ds, LookUp(ds, "Baltic Avenue"), true)[0].mortgaged
  {
    var ds := [Deed("Baltic Avenue", Some("ann"), false, 0, 0)];
    assert !IsDigit("Baltic Avenue"[0]);
  }

  // ----- Releasing -----

  /** Whether the record names `username` as its owner (`===` with an unset
      username never holds for a string or null owner). */
  predicate OwnedBy(d: Deed, username: Option<string>)
  {
    username.Some? && d.owner == username
  }

  /** The first record owned by `username`, or -1. */
  function FirstOwned(ds: seq<Deed>, username: Option<string>): (i: int)
    ensures -1 <= i < |ds|
    ensures i >= 0 ==> OwnedBy(ds[i], username) && forall j :: 0 <= j < i ==> !OwnedBy(ds[j], username)
    ensures i == -1 <==> forall j :: 0 <= j < |ds| ==> !OwnedBy(ds[j], username)
  {
    FindIndex(ds, (d: Deed) => OwnedBy(d, username))
  }

  function CountOwned(ds: seq<Deed>, username: Option<string>): nat
  {
    CountWhere(ds, (d: Deed) => OwnedBy(d, username))
  }

  /** Clearing the owner of one owned record lowers the count of records the
      user owns by exactly one. */
  lemma {:induction false} ReleaseOneLess(ds: seq<Deed>, i: nat, username: Option<string>)
    requires i < |ds| && OwnedBy(ds[i], username)
    ensures CountOwned(ds[i := ds[i].(owner := None)], username) == CountOwned(ds, username) - 1
  {
    var r := ds[i := ds[i].(owner := None)];
    if i == 0 {
      assert r[1..] == ds[1..];
    } else {
      assert r[1..] == ds[1..][i - 1 := ds[i].(owner := None)];
      ReleaseOneLess(ds[1..], i - 1, username);
    }
  }

  class Player {
    const name: string
    const id: string
    /** The board the player walks, from the game it belongs to. */
    const board: seq<Space>
    var balance: int
    /** `_position`, `doublesCount` and `rollsCount`: undefined (`None`) until
        assigned, and NaN (`None` too) once computed from an undefined value. */
    var position: Counter
    var doublesCount: Counter
    var rollsCount: Counter
    /** Undefined until assigned and only tested for truthiness, as are the
        two freedom flags and `hasLeftGame`: undefined is `false` here. */
    var isJailed: bool
    /** Undefined (`None`) until the game hands the player its records. */
    var properties: Option<seq<Deed>>
    /** Never assigned by the player itself: undefined until set from outside. */
    var username: Option<string>
    var ownsFreedomCommunity: bool
    var ownsFreedomChance: bool
    var hasLeftGame: bool

    /** `new Player(name, balance, guildMember)`: only the name, the balance and
        the id are set; the position and both counters are left undefined, and
        the flags are undefined, which reads as false. */
    constructor (name: string, balance: int, id: string, board: seq<Space>)
      ensures this.name == name && this.balance == balance && this.id == id && this.board == board
      ensures position.None? && doublesCount.None? && rollsCount.None?
      ensures !isJailed && !ownsFreedomCommunity && !ownsFreedomChance && !hasLeftGame
      ensures properties == None && username == None
    {
      this.name := name;
      this.balance := balance;
      this.id := id;
      this.board := board;
      position := None;
      doublesCount := None;
      rollsCount := None;
      isJailed := false;
      properties := None;
      username := None;
      ownsFreedomCommunity := false;
      ownsFreedomChance := false;
      hasLeftGame := false;
    }

    function Snapshot(): PlayerState
      reads this
    {
      PlayerState(balance, position, doublesCount, rollsCount, isJailed, ownsFreedomCommunity, ownsFreedomChance, properties)
    }

    /** The `position` getter: the space the player stands on, undefined off
        the board or for an undefined position. */
    function CurrentSpace(): (s: Option<Space>)
      reads this
      ensures s.Some? <==> position.Some? && 0 <= position.value < |board|
      ensures s.Some? ==> s.value == board[position.value]
    {
      if position.Some? && 0 <= position.value < |board| then Some(board[position.value]) else None
    }

    /** `incrementDoublesCount()`: `++` on an undefined count gives NaN. */
    method IncrementDoublesCount()
      modifies this`doublesCount
      ensures doublesCount == Add(old(doublesCount), 1)
    {
      doublesCount := Add(doublesCount, 1);
    }

    /** `resetDoublesCount()`. */
    method ResetDoublesCount()
      modifies this`doublesCount
      ensures doublesCount == Some(0)
    {
      doublesCount := Some(0);
    }

    /** `incrementRollsCount()`: `++` on an undefined count gives NaN. */
    method IncrementRollsCount()
      modifies this`rollsCount
      ensures rollsCount == Add(old(rollsCount), 1)
    {
      rollsCount := Add(rollsCount, 1);
    }

    /** `getOutOfJail()`. */
    method GetOutOfJail()
      modifies this`isJailed
      ensures !isJailed
    {
      isJailed := false;
    }

    /** `calculateRepairCost(houseCost, hotelCost)`: the bill for the player's
        buildings, without charging it; undefined records throw. */
    function CalculateRepairCost(houseCost: int, hotelCost: int): (r: Result<int>)
      reads this
      ensures r.Err? <==> properties.None?
      ensures r.Ok? ==> r.value == TotalHouses(properties.value) * houseCost + TotalHotels(properties.value) * hotelCost
    {
      match properties
      case None => Err("Invalid properties data")
      case Some(ds) =>
        RepairBillByTotals(ds, houseCost, hotelCost);
        Ok(RepairBill(ds, houseCost, hotelCost))
    }

    /** `move(number)`: the new index is the old one plus the steps, with
        JavaScript's remainder by the board length; a lower index than before
        credits the Go bonus.  An undefined position, a NaN step count or an
        empty board make the new index NaN, which is stored and earns no
        bonus.  Reading the name of the new space then throws when it is not
        on the board, after the move has taken effect. */
    method Move(steps: Counter) returns (out: Outcome)
      modifies this`position, this`balance
      ensures position == Moved(old(position), steps, |board|)
      ensures balance == old(balance) + (if Passed(old(position), position) then GO_BONUS else 0)
      ensures out.Threw? <==> CurrentSpace().None?
      ensures !out.Threw? ==> out == Done
    {
      var newPosition := Moved(position, steps, |board|);
      if Passed(position, newPosition) {
        ReceiveMoney(GO_BONUS);
      }
      position := newPosition;
      if CurrentSpace().None? {
        return Threw("TypeError: cannot read properties of undefined (reading 'name')");
      }
      return Done;
    }

    /** `receiveMoney(amount)`: unconditional. */
    method ReceiveMoney(amount: int)
      modifies this`balance
      ensures balance == old(balance) + amount
    {
      balance := balance + amount;
    }

    /** `goToJail()`: doubles reset, jailed, on space 10. */
    method GoToJail()
      modifies this`doublesCount, this`isJailed, this`position
      ensures doublesCount == Some(0) && isJailed && position == Some(JAIL_POSITION)
    {
      ResetDoublesCount();
      isJailed := true;
      position := Some(JAIL_POSITION);
    }

    /** `payMoney(amount)`: refused, with nothing changed, when the balance
        does not cover the amount; so it never overdraws. */
    method PayMoney(amount: int)
      modifies this`balance
      ensures balance == AfterPayment(old(balance), amount)
      ensures old(balance) >= 0 ==> balance >= 0
    {
      if balance >= amount {
        balance := balance - amount;
      }
    }

    /** `toggleMortgage(name)` as written: the records are indexed by the name,
        so only an index-like name reaches a record; the flag is set when that
        record is unmortgaged.  The key "length" of non-empty records gives a
        number, truthy and without the flag, and setting a flag on a number
        throws; an inherited member takes the flag itself and no record
        changes.  Undefined records throw.  The balance is never touched. */
    method ToggleMortgageAsWritten(name: string) returns (out: Outcome)
      modifies this`properties
      ensures old(properties).None? ==> out.Threw? && properties == None
      ensures old(properties).Some? && name == "length" && |old(properties).value| > 0 ==>
                out == Threw(NO_FLAG_ON_NUMBER) && properties == old(properties)
      ensures old(properties).Some? && !(name == "length" && |old(properties).value| > 0) ==>
                out == Done
                && properties == Some(SetMortgaged(old(properties).value, LookUpAsWritten(old(properties).value, name), true))
    {
      if properties.None? {
        return Threw("TypeError: cannot read properties of undefined");
      }
      var ds := properties.value;
      var slot := ArraySlot(|ds|, name);
      if slot == LengthOf && |ds| > 0 {
        return Threw(NO_FLAG_ON_NUMBER);
      }
      var i := LookUpAsWritten(ds, name);
      if i == -1 {
        return Done;
      }
      if ds[i].mortgaged {
        SetSameFlag(ds, i, true);
        return Done;
      }
      properties := Some(SetMortgaged(ds, i, true));
      return Done;
    }

    /** `toggleUnmortgage(name)` as written: the same lookup, clearing the
        flag.  The number under "length" has no flag, so it is taken as not
        mortgaged and nothing changes, and an inherited member changes no
        record either. */
    method ToggleUnmortgageAsWritten(name: string) returns (out: Outcome)
      modifies this`properties
      ensures old(properties).None? ==> out.Threw? && properties == None
      ensures old(properties).Some? ==>
                out == Done
                && properties == Some(SetMortgaged(old(properties).value, LookUpAsWritten(old(properties).value, name), false))
    {
      if properties.None? {
        return Threw("TypeError: cannot read properties of undefined");
      }
      var ds := properties.value;
      var i := LookUpAsWritten(ds, name);
      if i == -1 {
        return Done;
      }
      if !ds[i].mortgaged {
        SetSameFlag(ds, i, false);
        return Done;
      }
      properties := Some(SetMortgaged(ds, i, false));
      return Done;
    }

    /** Mortgaging by name: an owned, unmortgaged property becomes mortgaged;
        a name the player does not own, or an already mortgaged property,
        changes nothing. */
    method ToggleMortgage(name: string) returns (out: Outcome)
      modifies this`properties
      ensures old(properties).None? ==> out.Threw? && properties == None
      ensures old(properties).Some? ==>
                out == Done
                && properties == Some(SetMortgaged(old(properties).value, LookUp(old(properties).value, name), true))
    {
      if properties.None? {
        return Threw("TypeError: cannot read properties of undefined");
      }
      var ds := properties.value;
      var i := LookUp(ds, name);
      if i == -1 {
        return Done;
      }
      if ds[i].mortgaged {
        SetSameFlag(ds, i, true);
        return Done;
      }
      properties := Some(SetMortgaged(ds, i, true));
      return Done;
    }

    /** Unmortgaging by name: the inverse of `ToggleMortgage`. */
    method ToggleUnmortgage(name: string) returns (out: Outcome)
      modifies this`properties
      ensures old(properties).None? ==> out.Threw? && properties == None
      ensures old(properties).Some? ==>
                out == Done
                && properties == Some(SetMortgaged(old(properties).value, LookUp(old(properties).value, name), false))
    {
      if properties.None? {
        return Threw("TypeError: cannot read properties of undefined");
      }
      var ds := properties.value;
      var i := LookUp(ds, name);
      if i == -1 {
        return Done;
      }
      if !ds[i].mortgaged {
        SetSameFlag(ds, i, false);
        return Done;
      }
      properties := Some(SetMortgaged(ds, i, false));
      return Done;
    }

    /** `jail(reason)`: jailed, whatever the reason; nothing else changes. */
    method Jail(reason: string)
      modifies this`isJailed
      ensures isJailed
    {
      isJailed := true;
    }

    /** `free(reason)`: released; a release by card spends every freedom card
        the player holds, both of them; other reasons keep the cards. */
    method Free(reason: string)
      modifies this`isJailed, this`ownsFreedomCommunity, this`ownsFreedomChance
      ensures !isJailed
      ensures reason == "card" ==> !ownsFreedomCommunity && !ownsFreedomChance
      ensures reason != "card" ==>
                ownsFreedomCommunity == old(ownsFreedomCommunity) && ownsFreedomChance == old(ownsFreedomChance)
    {
      isJailed := false;
      if reason == "card" && (ownsFreedomCommunity || ownsFreedomChance) {
        ownsFreedomCommunity := false;
        ownsFreedomChance := false;
      }
    }

    /** `releaseProperty(records)`: the first record the player's username owns
        loses its owner, and no other record changes; reading the price of a
        name missing from the board's catalogue throws before that.  Returns
        the records as they are afterwards. */
    method ReleaseProperty(records: seq<Deed>, catalogue: set<string>) returns (out: Outcome, released: seq<Deed>)
      ensures var i := FirstOwned(records, username);
              (i == -1 ==> out == Done && released == records)
              && (i >= 0 && records[i].name !in catalogue ==> out.Threw? && released == records)
              && (i >= 0 && records[i].name in catalogue ==>
                    out == Done && released == records[i := records[i].(owner := None)])
      ensures out == Done && released != records ==>
                CountOwned(released, username) == CountOwned(records, username) - 1
    {
      var i := FirstOwned(records, username);
      if i == -1 {
        return Done, records;
      }
      if records[i].name !in catalogue {
        return Threw("TypeError: cannot read properties of undefined (reading 'cost')"), records;
      }
      released := records[i := records[i].(owner := None)];
      ReleaseOneLess(records, i, username);
      return Done, released;
    }
  }
}

=== FILE: model/monopolygame.dfy ===
/** One game of the class-based engine: the players, the board and the turn
    order over the same players.  A turn rolls two dice (the random numbers are
    parameters), moves the current player, applies the space landed on, and
    passes the turn.  Arithmetic on a missing number, which gives NaN in
    JavaScript, ends as `NonNumeric` and the turn goes on. */
module MonopolyGames {
  import opened Common
  import opened Players
  import opened BoardSpaces
  import opened TurnManagers

  /** The exception of reading a space off the board. */
  const NO_SPACE := "TypeError: cannot read properties of undefined"

  /** `rollDice()`: two six-sided dice from the two random numbers drawn. */
  function RollDice(r1: real, r2: real): (roll: int)
    requires 0.0 <= r1 < 1.0 && 0.0 <= r2 < 1.0
    ensures 2 <= roll <= 12
    ensures roll == DieFace(r1, 6) + DieFace(r2, 6)
  {
    DieFace(r1, 6) + DieFace(r2, 6)
  }

  /** Index of the first space of the given type, -1 when there is none. */
  function FirstOfKind(board: seq<BoardSpace>, kind: string): (i: int)
    ensures -1 <= i < |board|
    ensures i >= 0 ==> board[i].kind == kind && forall j :: 0 <= j < i ==> board[j].kind != kind
    ensures i == -1 <==> forall j :: 0 <= j < |board| ==> board[j].kind != kind
  {
    FindIndex(board, (s: BoardSpace) => s.kind == kind)
  }

  class MonopolyGame {
    const players: seq<Player>
    const board: seq<BoardSpace>
    const turnManager: TurnManager

    /** The turn order runs over this game's players. */
    predicate Valid()
      reads this, turnManager
    {
      turnManager.players == players && turnManager.Valid()
    }

    /** A game whose turn order starts with the first player, no turn played. */
    constructor (players: seq<Player>, board: seq<BoardSpace>)
      ensures Valid() && fresh(turnManager)
      ensures this.players == players && this.board == board
      ensures turnManager.currentPlayerIndex == Index(0) && turnManager.turnCount == 0
    {
      this.players := players;
      this.board := board;
      turnManager := new TurnManager(players);
    }

    /** The player's position after landing on the space at `pos`: a 'jail'
        space sends the player to the first jail space, any other keeps it. */
    function PositionAfterLanding(pos: int): int
      reads this
    {
      if 0 <= pos < |board| && board[pos].kind == "jail" then FirstOfKind(board, "jail") else pos
    }

    /** Whether applying the space at `pos` throws: only off the board. */
    predicate LandingThrows(pos: int)
      reads this
    {
      !(0 <= pos < |board|)
    }

    /** Whether applying the space at `pos` leaves the money NaN: a tax space
        without a cost. */
    predicate LandingLeavesNaN(pos: int)
      reads this
    {
      0 <= pos < |board| && board[pos].kind == "tax" && board[pos].cost.None?
    }

    /** `handleSpace(player)`: reads the space under the player (a TypeError
        off the board) and applies it: a tax space charges its cost, a 'jail'
        space sends the player to jail; property, chance and community-chest
        spaces only report, and other types do nothing. */
    method HandleSpace(player: Player) returns (out: Outcome)
      modifies player`money, player`position
      ensures player.properties == old(player.properties) && player.inJail == old(player.inJail)
      ensures out.Threw? <==> LandingThrows(old(player.position))
      ensures out.Threw? ==> out == Threw(NO_SPACE)
      ensures out.NonNumeric? <==> LandingLeavesNaN(old(player.position))
      ensures !(0 <= old(player.position) < |board|) ==>
                player.money == old(player.money) && player.position == old(player.position)
      ensures 0 <= old(player.position) < |board| ==>
                var space := board[old(player.position)];
                (space.kind == "tax" && space.cost.Some? ==>
                   out == Done && player.money == old(player.money) - space.cost.value
                   && player.position == old(player.position))
                && (space.kind == "tax" && space.cost.None? ==>
                      out == NonNumeric("money") && player.position == old(player.position))
                && (space.kind != "tax" ==>
                      out == Done && player.money == old(player.money)
                      && player.position == PositionAfterLanding(old(player.position)))
    {
      if !(0 <= player.position < |board|) {
        return Threw(NO_SPACE);
      }
      var space := board[player.position];
      if space.kind == "property" {
        HandleProperty(player, space);
      } else if space.kind == "chance" {
        HandleChance(player);
      } else if space.kind == "community-chest" {
        HandleCommunityChest(player);
      } else if space.kind == "tax" {
        out := HandleTax(player, space);
        return;
      } else if space.kind == "jail" {
        SendToJail(player);
      }
      return Done;
    }

    /** `handleProperty(player, space)`: only reports the price. */
    method HandleProperty(player: Player, space: BoardSpace)
    {
    }

    /** `handleChance(player)`: only reports the draw. */
    method HandleChance(player: Player)
    {
    }

    /** `handleCommunityChest(player)`: only reports the draw. */
    method HandleCommunityChest(player: Player)
    {
    }

    /** `handleTax(player, space)`: the player pays the space's cost; a space
        without one leaves the money NaN. */
    method HandleTax(player: Player, space: BoardSpace) returns (out: Outcome)
      modifies player`money
      ensures space.cost.Some? ==> out == Done && player.money == old(player.money) - space.cost.value
      ensures space.cost.None? ==> out == NonNumeric("money")
    {
      if space.cost.None? {
        return NonNumeric("money");
      }
      player.UpdateMoney(-space.cost.value);
      return Done;
    }

    /** `sendToJail(player)`: the position becomes the index of the first 'jail'
        space (-1 when the board has none); nothing else changes. */
    method SendToJail(player: Player)
      modifies player`position
      ensures player.position == FirstOfKind(board, "jail")
      ensures player.position >= 0 ==> board[player.position].kind == "jail"
    {
      player.position := FirstOfKind(board, "jail");
    }

    /** `nextTurn()` with the two random numbers of the roll: the current player
        moves by the roll around the board, the space is applied, then the turn
        passes to the next player, also when the space left the money NaN.
        An exception stops the turn before the turn passes; with no players
        there is no current player to move.  Only the current player changes,
        and only in money and position. */
    method NextTurn(r1: real, r2: real) returns (out: Outcome)
      requires Valid()
      requires 0.0 <= r1 < 1.0 && 0.0 <= r2 < 1.0
      modifies turnManager, players
      ensures Valid()
      ensures |players| == 0 || |board| == 0 ==> out.Threw? && turnManager.turnCount == old(turnManager.turnCount)
      ensures |players| > 0 && |board| > 0 ==>
                var p := old(turnManager.GetCurrentPlayer()).value;
                var landed := JsRem(old(p.position) + RollDice(r1, r2), |board|);
                p.properties == old(p.properties) && p.inJail == old(p.inJail)
                && p.getOutOfJailFreeCards == old(p.getOutOfJailFreeCards) && p.name == old(p.name)
                && (forall q :: q in players && q != p ==>
                      q.money == old(q.money) && q.position == old(q.position) && q.properties == old(q.properties)
                      && q.inJail == old(q.inJail) && q.getOutOfJailFreeCards == old(q.getOutOfJailFreeCards)
                      && q.name == old(q.name))
                && (out.Threw? <==> LandingThrows(landed))
                && (out == NonNumeric("money") <==> LandingLeavesNaN(landed))
                && (out.Threw? ==> turnManager.turnCount == old(turnManager.turnCount))
                && (!out.Threw? ==>
                      turnManager.currentPlayerIndex == Advance(old(turnManager.currentPlayerIndex), |players|)
                      && turnManager.turnCount == old(turnManager.turnCount) + 1)
                && (out == Done && board[landed].kind == "tax" ==>
                      p.money == old(p.money) - board[landed].cost.value && p.position == landed)
                && (out == Done && board[landed].kind != "tax" ==>
                      p.money == old(p.money) && p.position == PositionAfterLanding(landed))
    {
      var current := turnManager.GetCurrentPlayer();
      var diceRoll := RollDice(r1, r2);
      if current.None? {
        return Threw(NO_SPACE);
      }
      if |board| == 0 {
        return Threw(NO_SPACE);
      }
      var p := current.value;
      p.Move(diceRoll, |board|);
      out := HandleSpace(p);
      if out.Threw? {
        return;
      }
      turnManager.NextTurn();
    }
  }
}

=== FILE: model/players.dfy ===
/** The player of the class-based engine: a board position, money, the list of
    owned property entries with their mortgage flags, the jail flag and the
    count of get-out-of-jail cards.  The AI player shares this record; it is the
    same class with `isAI` set (see aiplayer.dfy). */
module Players {
  import opened Common

  /** Money every new player starts with. */
  const STARTING_MONEY: real := 1500.0

  /** Factor charged when a property is bought back from the bank: the value plus 10%. */
  const UNMORTGAGE_RATE: real := 1.1

  /** One entry of a player's property list.  Entries added by `addProperty`
      carry only a name and a mortgage flag; the AI keeps board spaces here,
      whose group, price and house price it reads, and the repairs cards read
      house and hotel counts.  Fields an entry lacks are `None`: only the
      entry a property's `buyProperty` pushes has a house count (0), and no
      entry has a hotel count. */
  datatype Holding = Holding(name: string, mortgaged: bool, group: Option<seq<int>>,
                             cost: Option<real>, house: Option<real>, houses: Counter, hotels: Counter)

  /** The entry `addProperty(name)` appends: `{name, mortgaged: false}` and
      nothing else, so its group, prices and building counts are undefined. */
  function NewHolding(name: string): (h: Holding)
    ensures h.name == name && !h.mortgaged
    ensures h.group.None? && h.cost.None? && h.house.None? && h.houses.None? && h.hotels.None?
  {
    Holding(name, false, None, None, None, None, None)
  }

  /** The entry after `FirstWithFlag` found index `i` and set its flag to
      `flag`: that entry alone changes, and only in its flag. */
  predicate FlippedAt(before: seq<Holding>, after: seq<Holding>, i: int, flag: bool)
  {
    0 <= i < |before| && |after| == |before|
    && after[i] == before[i].(mortgaged := flag)
    && forall j :: 0 <= j < |before| && j != i ==> after[j] == before[j]
  }

  /** The money and property list a mortgage operation works on. */
  datatype Ledger = Ledger(money: real, holdings: seq<Holding>)

  /** No two entries of the list share a name. */
  predicate NamesDistinct(hs: seq<Holding>)
  {
    forall i, j :: 0 <= i < j < |hs| ==> hs[i].name != hs[j].name
  }

  /** `isPropertyMortgaged`: the mortgage flag of the first entry with that name,
      false when the player lists no such entry. */
  function MortgagedIn(hs: seq<Holding>, name: string): (m: bool)
    ensures m <==> exists i :: 0 <= i < |hs| && hs[i].name == name && hs[i].mortgaged
                               && forall j :: 0 <= j < i ==> hs[j].name != name
  {
    var i := FindIndex(hs, (h: Holding) => h.name == name);
    i >= 0 && hs[i].mortgaged
  }

  /** Index of the first entry called `name` whose flag equals `flag`, or -1. */
  function FirstWithFlag(hs: seq<Holding>, name: string, flag: bool): (i: int)
    ensures -1 <= i < |hs|
    ensures i >= 0 ==> hs[i].name == name && hs[i].mortgaged == flag
    ensures i >= 0 ==> forall j :: 0 <= j < i ==> !(hs[j].name == name && hs[j].mortgaged == flag)
    ensures i == -1 <==> forall j :: 0 <= j < |hs| ==> !(hs[j].name == name && hs[j].mortgaged == flag)
  {
    FindIndex(hs, (h: Holding) => h.name == name && h.mortgaged == flag)
  }

  /** `mortgageProperty(name, value)`: the first unmortgaged entry called `name`
      becomes mortgaged and `value` is credited; without one, nothing changes. */
  function Mortgage(l: Ledger, name: string, value: real): (r: (bool, Ledger))
    ensures r.0 <==> exists h :: h in l.holdings && h.name == name && !h.mortgaged
    ensures !r.0 ==> r.1 == l
    ensures r.0 ==> r.1.money == l.money + value
    ensures r.0 ==> var i := FirstWithFlag(l.holdings, name, false);
                    !l.holdings[i].mortgaged && FlippedAt(l.holdings, r.1.holdings, i, true)
  {
    var i := FirstWithFlag(l.holdings, name, false);
    if i < 0 then
      (false, l)
    else
      (true, Ledger(l.money + value, l.holdings[i := l.holdings[i].(mortgaged := true)]))
  }

  /** `unmortgageProperty(name, value)`: if some entry called `name` is mortgaged
      and the money covers the value plus 10%, the first such entry is released
      and the value plus 10% is charged; otherwise nothing changes. */
  function Unmortgage(l: Ledger, name: string, value: real): (r: (bool, Ledger))
    ensures r.0 <==> (exists h :: h in l.holdings && h.name == name && h.mortgaged)
                     && l.money >= value * UNMORTGAGE_RATE
    ensures !r.0 ==> r.1 == l
    ensures r.0 ==> r.1.money == l.money - value * UNMORTGAGE_RATE
    ensures r.0 ==> var i := FirstWithFlag(l.holdings, name, true);
                    l.holdings[i].mortgaged && FlippedAt(l.holdings, r.1.holdings, i, false)
  {
    var i := FirstWithFlag(l.holdings, name, true);
    if i >= 0 && l.money >= value * UNMORTGAGE_RATE then
      (true, Ledger(l.money - value * UNMORTGAGE_RATE, l.holdings[i := l.holdings[i].(mortgaged := false)]))
    else
      (false, l)
  }

  /** When names are distinct and the money covers the interest, mortgaging and
      then buying back the same property restores the list and costs exactly
      10% of the value. */
  lemma MortgageRoundTrip(l: Ledger, name: string, value: real)
    requires NamesDistinct(l.holdings)
    requires Mortgage(l, name, value).0
    requires l.money + value >= value * UNMORTGAGE_RATE
    ensures var m := Mortgage(l, name, value).1;
            var u := Unmortgage(m, name, value);
            u.0 && u.1.holdings == l.holdings && u.1.money == l.money - value / 10.0
  {
    var hs := l.holdings;
    var i := FirstWithFlag(hs, name, false);
    var m := Mortgage(l, name, value).1;
    assert m.holdings == hs[i := hs[i].(mortgaged := true)];
    var k := FirstWithFlag(m.holdings, name, true);
    assert m.holdings[i].name == name && m.holdings[i].mortgaged;
    assert k == i;
    assert hs[i].mortgaged == false;
    assert m.holdings[i := m.holdings[i].(mortgaged := false)] == hs;
  }

  /** The entries a bankrupt player hands over: every name, each unmortgaged. */
  function Transferred(hs: seq<Holding>): (r: seq<Holding>)
    ensures |r| == |hs|
    ensures forall i :: 0 <= i < |hs| ==> r[i] == NewHolding(hs[i].name)
  {
    if |hs| == 0 then [] else [NewHolding(hs[0].name)] + Transferred(hs[1..])
  }

  /** Handing over a list one entry further extends the handed-over list by that entry. */
  lemma {:induction false} TransferredSnoc(hs: seq<Holding>, h: Holding)
    ensures Transferred(hs + [h]) == Transferred(hs) + [NewHolding(h.name)]
  {
    var a, b := Transferred(hs + [h]), Transferred(hs) + [NewHolding(h.name)];
    assert |a| == |b|;
    forall i | 0 <= i < |a| ensures a[i] == b[i] {
      assert (hs + [h])[i].name == (if i < |hs| then hs[i].name else h.name);
    }
  }

  class Player {
    var name: string
    var position: int
    var money: real
    var properties: seq<Holding>
    /** Left undefined by the constructor.  It is only ever set to a boolean
        and read for truthiness, where undefined and false agree, so the model
        starts it false. */
    var inJail: bool
    /** Left undefined by the constructor (`None`); `+= 1` keeps it NaN. */
    var getOutOfJailFreeCards: Counter
    /** Whether this object was built as an AI player (`instanceof AIPlayer`). */
    const isAI: bool

    /** A human player at Go with the starting money and no properties; the
        jail flag and the card count are left undefined. */
    constructor (name: string)
      ensures this.name == name && position == 0 && money == STARTING_MONEY && properties == []
      ensures !inJail && getOutOfJailFreeCards.None? && !isAI
    {
      this.name := name;
      position := 0;
      money := STARTING_MONEY;
      properties := [];
      inJail := false;
      getOutOfJailFreeCards := None;
      isAI := false;
    }

    /** An AI player: the same starting record, marked as AI. */
    constructor AI(name: string)
      ensures this.name == name && position == 0 && money == STARTING_MONEY && properties == []
      ensures !inJail && getOutOfJailFreeCards.None? && isAI
    {
      this.name := name;
      position := 0;
      money := STARTING_MONEY;
      properties := [];
      inJail := false;
      getOutOfJailFreeCards := None;
      isAI := true;
    }

    /** The money and property list, as one value. */
    function Books(): Ledger
      reads this
    {
      Ledger(money, properties)
    }

    /** `declareBankruptcy(toPlayer)`: a beneficiary receives every property name,
        unmortgaged, and all the debtor's money; the debtor is then left with no
        properties, no money, out of jail and without cards. */
    method DeclareBankruptcy(toPlayer: Option<Player>)
      modifies this`properties, this`money, this`inJail, this`getOutOfJailFreeCards
      modifies (if toPlayer.Some? then {toPlayer.value} else {})`properties
      modifies (if toPlayer.Some? then {toPlayer.value} else {})`money
      ensures properties == [] && money == 0.0 && !inJail && getOutOfJailFreeCards == Some(0)
      ensures toPlayer.Some? && toPlayer.value != this ==>
                toPlayer.value.properties == old(toPlayer.value.properties) + Transferred(old(properties))
                && toPlayer.value.money == old(toPlayer.value.money) + old(money)
                && toPlayer.value.money + money == old(toPlayer.value.money) + old(money)
      ensures toPlayer.Some? && toPlayer.value != this ==>
                toPlayer.value.inJail == old(toPlayer.value.inJail)
                && toPlayer.value.getOutOfJailFreeCards == old(toPlayer.value.getOutOfJailFreeCards)
    {
      if toPlayer.Some? {
        var to := toPlayer.value;
        var src := properties;
        var i := 0;
        while i < |src|
          invariant 0 <= i <= |src|
          invariant to != this ==> to.properties == old(to.properties) + Transferred(src[..i])
          invariant money == old(money) && to.money == old(to.money)
        {
          TransferredSnoc(src[..i], src[i]);
          assert src[..i + 1] == src[..i] + [src[i]];
          to.AddProperty(src[i].name);
          i := i + 1;
        }
        assert src[..|src|] == src;
        to.UpdateMoney(money);
      }
      properties := [];
      money := 0.0;
      inJail := false;
      getOutOfJailFreeCards := Some(0);
    }

    /** `getCurrentBoardSpaceName(board)`, given the board's space names: the name
        at the player's position, or a TypeError when the position is off the board. */
    function CurrentBoardSpaceName(boardNames: seq<string>): (r: Result<string>)
      reads this
      ensures r.Ok? <==> 0 <= position < |boardNames|
      ensures r.Ok? ==> r.value == boardNames[position]
    {
      if 0 <= position < |boardNames| then Ok(boardNames[position])
      else Err("TypeError: cannot read properties of undefined")
    }

    /** `move(steps, board)`: the position becomes `(position + steps) % board.length`
        with JavaScript's remainder, so moving back past Go leaves a negative
        position; no Go bonus is paid.  An empty board makes the position
        NaN; the callers report that case themselves and do not move. */
    method Move(steps: int, boardLength: nat)
      requires boardLength > 0
      modifies this`position
      ensures position == JsRem(old(position) + steps, boardLength)
      ensures old(position) + steps >= 0 ==> 0 <= position < boardLength
    {
      position := JsRem(position + steps, boardLength);
    }

    /** `isPropertyMortgaged(name)`. */
    function IsPropertyMortgaged(propertyName: string): (m: bool)
      reads this
      ensures m ==> exists h :: h in properties && h.name == propertyName && h.mortgaged
    {
      MortgagedIn(properties, propertyName)
    }

    /** `addProperty(name)`: appends an unmortgaged entry. */
    method AddProperty(property: string)
      modifies this`properties
      ensures properties == old(properties) + [NewHolding(property)]
    {
      properties := properties + [NewHolding(property)];
    }

    /** `updateMoney(amount)`: adds a (possibly negative) amount. */
    method UpdateMoney(amount: real)
      modifies this`money
      ensures money == old(money) + amount
    {
      money := money + amount;
    }

    /** `mortgageProperty(name, value)`. */
    method MortgageProperty(property: string, mortgageValue: real) returns (ok: bool)
      modifies this`money, this`properties
      ensures (ok, Books()) == Mortgage(old(Books()), property, mortgageValue)
    {
      var i := FirstWithFlag(properties, property, false);
      if i >= 0 {
        properties := properties[i := properties[i].(mortgaged := true)];
        UpdateMoney(mortgageValue);
        return true;
      }
      return false;
    }

    /** `unmortgageProperty(name, value)`. */
    method UnmortgageProperty(property: string, mortgageValue: real) returns (ok: bool)
      modifies this`money, this`properties
      ensures (ok, Books()) == Unmortgage(old(Books()), property, mortgageValue)
    {
      var i := FirstWithFlag(properties, property, true);
      if i >= 0 && money >= mortgageValue * UNMORTGAGE_RATE {
        properties := properties[i := properties[i].(mortgaged := false)];
        UpdateMoney(-mortgageValue * UNMORTGAGE_RATE);
        return true;
      }
      return false;
    }
  }
}

=== FILE: model/property.dfy ===
/** A property card of the class-based engine: its prices and rents, its owner,
    and its development (houses, hotel, mortgage).  Money moves to and from the
    owner's `money`; the owner field may be empty, and the operations that charge
    or credit the owner then stop with a TypeError after their first update. */
module PropertyLedger {
  import opened Common
  import opened Players

  /** The most houses a property can carry before a hotel replaces them. */
  const MAX_HOUSES: int := 4

  /** A record of the property data file: what the constructor reads. */
  datatype PropertyData = PropertyData(name: string, cost: real, mortgage: real, color: string,
                                       rent: real, multipliedRent: seq<real>, house: real)

  /** The development of a property: houses, hotel and the `isDeveloped` flag. */
  datatype Development = Development(houses: int, hotel: bool, developed: bool)

  /** A hotel stands alone and there are never more than four houses. */
  predicate WellBuilt(d: Development)
  {
    0 <= d.houses <= MAX_HOUSES && (d.hotel ==> d.houses == 0)
  }

  /** Guard of `buildHouse`, apart from whole-group ownership. */
  predicate CanBuildHouse(d: Development) { d.houses < MAX_HOUSES && !d.hotel }

  /** Guard of `buildHotel`, apart from whole-group ownership. */
  predicate CanBuildHotel(d: Development) { d.houses == MAX_HOUSES && !d.hotel }

  /** Development after a house is built. */
  function HouseBuilt(d: Development): (r: Development)
    requires CanBuildHouse(d)
    ensures WellBuilt(d) ==> WellBuilt(r) && r.houses == d.houses + 1 && r.developed
    ensures r.houses <= MAX_HOUSES && !r.hotel
  {
    Development(d.houses + 1, d.hotel, true)
  }

  /** Development after a hotel replaces the four houses. */
  function HotelBuilt(d: Development): (r: Development)
    requires CanBuildHotel(d)
    ensures WellBuilt(r) && r.hotel && r.houses == 0 && r.developed
  {
    Development(0, true, true)
  }

  /** Development after one house is sold; the property stays developed while a
      house or hotel remains. */
  function HouseSold(d: Development): (r: Development)
    requires d.houses > 0
    ensures WellBuilt(d) ==> WellBuilt(r)
    ensures r.houses == d.houses - 1 && r.hotel == d.hotel
    ensures !r.developed <==> !d.developed || (r.houses == 0 && !r.hotel)
  {
    Development(d.houses - 1, d.hotel, if d.houses - 1 == 0 && !d.hotel then false else d.developed)
  }

  /** Development after the hotel is sold: it turns back into four houses. */
  function HotelSold(d: Development): (r: Development)
    requires d.hotel
    ensures WellBuilt(r) && !r.hotel && r.houses == MAX_HOUSES && !r.developed
  {
    Development(MAX_HOUSES, false, false)
  }

  /** Building a hotel and selling it again leaves the four houses in place. */
  lemma HotelRoundTrip(d: Development)
    requires CanBuildHotel(d)
    ensures var r := HotelSold(HotelBuilt(d)); r.houses == d.houses && r.hotel == d.hotel
  {
  }

  /** The rent table a property is priced by: the base rent, then the
      multiplied rents for one, two, ... houses and the hotel. */
  function RentTable(rent: real, multipliedRent: seq<real>): seq<real>
  {
    [rent] + multipliedRent
  }

  /** The table entry a development is charged at: 5 with a hotel, the number
      of houses otherwise (0 without any). */
  function Level(d: Development): nat
  {
    if d.hotel then 5 else if d.houses > 0 then d.houses else 0
  }

  /** The rent of a property with the given development, as a lookup in the
      rent table; `None` is JavaScript's undefined for an entry past the end.
      `calculateRent` is proved to agree with it. */
  function RentFor(d: Development, rent: real, multipliedRent: seq<real>): (r: Option<real>)
  {
    var table := RentTable(rent, multipliedRent);
    if Level(d) < |table| then Some(table[Level(d)]) else None
  }

  /** With the five multiplied rents of the data file every well-built property
      has a defined rent, and a property with houses charges one of the
      multiplied rents. */
  lemma RentAlwaysDefined(d: Development, rent: real, multipliedRent: seq<real>)
    requires WellBuilt(d) && |multipliedRent| >= 5
    ensures RentFor(d, rent, multipliedRent).Some?
    ensures d.hotel || d.houses > 0 ==> RentFor(d, rent, multipliedRent).value in multipliedRent
  {
    if d.hotel || d.houses > 0 {
      assert RentTable(rent, multipliedRent)[Level(d)] == multipliedRent[Level(d) - 1];
    }
  }

  /** A hotel charges the last of the five multiplied rents; an undeveloped
      property the base rent. */
  lemma HotelAndBaseRent(d: Development, rent: real, multipliedRent: seq<real>)
    requires |multipliedRent| == 5
    ensures d.hotel ==> RentFor(d, rent, multipliedRent) == Some(multipliedRent[|multipliedRent| - 1])
    ensures !d.hotel && d.houses <= 0 ==> RentFor(d, rent, multipliedRent) == Some(rent)
  {
  }

  /** Whether the rents never fall as the property is developed. */
  predicate RentsRise(rent: real, multipliedRent: seq<real>)
  {
    forall i, j :: 0 <= i <= j < |RentTable(rent, multipliedRent)| ==>
      RentTable(rent, multipliedRent)[i] <= RentTable(rent, multipliedRent)[j]
  }

  /** With rising rents, building never lowers the rent: a development with at
      least as many houses, or a hotel, charges at least as much. */
  lemma RentMonotone(d: Development, e: Development, rent: real, multipliedRent: seq<real>)
    requires WellBuilt(d) && WellBuilt(e) && |multipliedRent| >= 5
    requires RentsRise(rent, multipliedRent)
    requires e.hotel || (!d.hotel && d.houses <= e.houses)
    ensures RentFor(d, rent, multipliedRent).value <= RentFor(e, rent, multipliedRent).value
  {
    assert Level(d) <= Level(e);
  }

  /** With non-negative rents, the rent charged is never negative. */
  lemma RentNonNegative(d: Development, rent: real, multipliedRent: seq<real>)
    requires rent >= 0.0 && forall i :: 0 <= i < |multipliedRent| ==> multipliedRent[i] >= 0.0
    ensures RentFor(d, rent, multipliedRent).Some? ==> RentFor(d, rent, multipliedRent).value >= 0.0
  {
    if Level(d) > 0 && Level(d) < |RentTable(rent, multipliedRent)| {
      assert RentTable(rent, multipliedRent)[Level(d)] == multipliedRent[Level(d) - 1];
    }
  }

  /** The group and owner of a property, as `ownsEntireGroup` compares them. */
  datatype GroupKey = GroupKey(group: Option<seq<int>>, owner: Option<Player>)

  /** The keys of a list of properties, in order. */
  function GroupKeys(ps: seq<Property>): (r: seq<GroupKey>)
    reads ps
    ensures |r| == |ps| && forall i :: 0 <= i < |ps| ==> r[i] == GroupKey(ps[i].group, ps[i].owner)
  {
    seq(|ps|, i reads ps requires 0 <= i < |ps| => GroupKey(ps[i].group, ps[i].owner))
  }

  /** The filter's test: same first and third group numbers, same owner. */
  predicate SameGroupAndOwner(k: GroupKey, group: Option<seq<int>>, owner: Option<Player>)
  {
    At(k.group, 0) == At(group, 0) && At(k.group, 2) == At(group, 2) && k.owner == owner
  }

  /** How many of `ps` share the first and third group numbers of `group` and
      have the given owner: the count `ownsEntireGroup` compares, or the TypeError
      raised when one of them has no group. */
  function GroupMatchCount(ps: seq<Property>, group: Option<seq<int>>, owner: Option<Player>): (r: Result<nat>)
    reads ps
    requires group.Some?
    ensures r.Err? <==> exists k :: 0 <= k < |ps| && ps[k].group.None?
    ensures r.Ok? ==> r.value == CountWhere(GroupKeys(ps), (k: GroupKey) => SameGroupAndOwner(k, group, owner))
    ensures r.Ok? ==> r.value <= |ps|
    ensures r.Ok? && r.value > 0 ==> exists k :: 0 <= k < |ps| && ps[k].owner == owner
  {
    if |ps| == 0 then Ok(0)
    else
      var p := ps[0];
      var rest := GroupMatchCount(ps[1..], group, owner);
      assert forall k :: 1 <= k < |ps| ==> ps[1..][k - 1] == ps[k];
      assert GroupKeys(ps)[1..] == GroupKeys(ps[1..]);
      if p.group.None? then Err("TypeError: cannot read properties of undefined")
      else if rest.Err? then rest
      else
        var hit := At(p.group, 0) == At(group, 0) && At(p.group, 2) == At(group, 2) && p.owner == owner;
        Ok((if hit then 1 else 0) + rest.value)
  }

  class Property {
    var name: string
    var cost: real
    var mortgage: real
    var color: string
    var rent: real
    var multipliedRent: seq<real>
    var houseCost: real
    var hotelCost: real
    var owner: Option<Player>
    var houses: int
    var hotel: bool
    var isOwned: bool
    var isDeveloped: bool
    var mortgaged: bool
    /** Declared but never set by the constructor: undefined until a caller assigns it. */
    var group: Option<seq<int>>

    /** The property's development state. */
    function Dev(): Development
      reads this
    {
      Development(houses, hotel, isDeveloped)
    }

    /** The property invariant every operation keeps. */
    predicate Valid()
      reads this
    {
      WellBuilt(Dev())
    }

    /** A fresh, unowned, undeveloped, unmortgaged property.  Both the house and
        the hotel price are taken from the data's `house` price. */
    constructor (data: PropertyData)
      ensures Valid()
      ensures name == data.name && cost == data.cost && mortgage == data.mortgage
      ensures color == data.color && rent == data.rent && multipliedRent == data.multipliedRent
      ensures houseCost == data.house && hotelCost == data.house
      ensures owner == None && houses == 0 && !hotel && !isOwned && !isDeveloped && !mortgaged
      ensures group == None
    {
      name := data.name;
      cost := data.cost;
      mortgage := data.mortgage;
      color := data.color;
      rent := data.rent;
      multipliedRent := data.multipliedRent;
      houseCost := data.house;
      hotelCost := data.house;
      owner := None;
      houses := 0;
      hotel := false;
      isOwned := false;
      isDeveloped := false;
      mortgaged := false;
      group := None;
    }

    /** `isMortgaged()`. */
    function IsMortgaged(): (m: bool)
      reads this
      ensures m == mortgaged
    {
      mortgaged
    }

    /** `calculateRent()`. */
    function CalculateRent(): (r: Option<real>)
      reads this
      ensures r == RentFor(Dev(), rent, multipliedRent)
      ensures Valid() && |multipliedRent| >= 5 ==> r.Some?
    {
      if hotel then (if 4 < |multipliedRent| then Some(multipliedRent[4]) else None)
      else if houses > 0 then (if houses - 1 < |multipliedRent| then Some(multipliedRent[houses - 1]) else None)
      else Some(rent)
    }

    /** `buyProperty(player)`: an unowned property passes to the buyer, who pays
        its cost and lists it; an owned one is left as it is. */
    method BuyProperty(player: Player)
      modifies this, player
      ensures old(isOwned) ==> Dev() == old(Dev()) && owner == old(owner) && isOwned
      ensures old(isOwned) ==> player.money == old(player.money) && player.properties == old(player.properties)
      ensures !old(isOwned) ==> owner == Some(player) && isOwned
      ensures !old(isOwned) ==> player.money == old(player.money) - cost
      ensures !old(isOwned) ==> player.properties == old(player.properties) + [Holding(name, mortgaged, group, None, Some(0.0), Some(0), None)]
      ensures Dev() == old(Dev()) && mortgaged == old(mortgaged) && cost == old(cost) && name == old(name)
      ensures group == old(group)
    {
      if !isOwned {
        owner := Some(player);
        isOwned := true;
        player.money := player.money - cost;
        player.properties := player.properties + [Holding(name, mortgaged, group, None, Some(0.0), Some(0), None)];
      }
    }

    /** `mortgageProperty()`: an unmortgaged property becomes mortgaged and the
        owner is credited the mortgage value; without an owner the flag is set and
        the credit throws. */
    method MortgageProperty() returns (out: Outcome)
      modifies this`mortgaged, if owner.Some? then {owner.value} else {}
      ensures old(mortgaged) ==> mortgaged && out == Done
      ensures !old(mortgaged) ==> mortgaged
      ensures !old(mortgaged) && owner.Some? ==> out == Done && owner.value.money == old(owner.value.money) + mortgage
      ensures !old(mortgaged) && owner.None? ==> out.Threw?
      ensures owner.Some? && old(mortgaged) ==> owner.value.money == old(owner.value.money)
      ensures owner.Some? ==> owner.value.properties == old(owner.value.properties)
    {
      if !IsMortgaged() {
        mortgaged := true;
        if owner.None? {
          return Threw("TypeError: cannot read properties of null");
        }
        owner.value.money := owner.value.money + mortgage;
      }
      return Done;
    }

    /** `unmortgageProperty()`: a mortgaged property is released and the owner
        pays back the mortgage value, with no interest. */
    method UnmortgageProperty() returns (out: Outcome)
      modifies this`mortgaged, if owner.Some? then {owner.value} else {}
      ensures !old(mortgaged) ==> !mortgaged && out == Done
      ensures old(mortgaged) ==> !mortgaged
      ensures old(mortgaged) && owner.Some? ==> out == Done && owner.value.money == old(owner.value.money) - mortgage
      ensures old(mortgaged) && owner.None? ==> out.Threw?
      ensures owner.Some? && !old(mortgaged) ==> owner.value.money == old(owner.value.money)
      ensures owner.Some? ==> owner.value.properties == old(owner.value.properties)
    {
      if IsMortgaged() {
        mortgaged := false;
        if owner.None? {
          return Threw("TypeError: cannot read properties of null");
        }
        owner.value.money := owner.value.money - mortgage;
      }
      return Done;
    }

    /** `ownsEntireGroup(properties)`: whether the number of listed properties
        sharing this one's first and third group numbers and its owner equals the
        third group number.  A TypeError when this property or a listed one has no
        group. */
    function OwnsEntireGroup(properties: seq<Property>): (r: Result<bool>)
      reads this, properties
      ensures r.Err? <==> group.None? || exists k :: 0 <= k < |properties| && properties[k].group.None?
      ensures r.Ok? ==> (r.value <==> At(group, 2) == Ok(Some(GroupMatchCount(properties, group, owner).value)))
      ensures r == Ok(true) ==> 2 < |group.value| && 0 <= group.value[2] <= |properties|
    {
      if group.None? then Err("TypeError: cannot read properties of undefined")
      else
        var c := GroupMatchCount(properties, group, owner);
        if c.Err? then Err(c.reason)
        else Ok(At(group, 2) == Ok(Some(c.value)))
    }

    /** `buildHouse(properties)`: with fewer than four houses, no hotel and the
        whole group, one house is added and the owner pays the house price. */
    method BuildHouse(properties: seq<Property>) returns (out: Outcome)
      requires Valid()
      modifies this`houses, this`isDeveloped, if owner.Some? then {owner.value} else {}
      ensures Valid()
      ensures !CanBuildHouse(old(Dev())) ==> out == Done && Dev() == old(Dev())
      ensures CanBuildHouse(old(Dev())) && old(OwnsEntireGroup(properties)).Err? ==>
                out.Threw? && Dev() == old(Dev())
      ensures CanBuildHouse(old(Dev())) && old(OwnsEntireGroup(properties)) == Ok(false) ==>
                out == Done && Dev() == old(Dev())
      ensures CanBuildHouse(old(Dev())) && old(OwnsEntireGroup(properties)) == Ok(true) && owner.Some? ==>
                out == Done && Dev() == HouseBuilt(old(Dev()))
                && owner.value.money == old(owner.value.money) - houseCost
      ensures CanBuildHouse(old(Dev())) && old(OwnsEntireGroup(properties)) == Ok(true) && owner.None? ==>
                out.Threw? && houses == old(houses) + 1 && isDeveloped == old(isDeveloped)
      ensures owner.Some? && out == Done && Dev() == old(Dev()) ==> owner.value.money == old(owner.value.money)
      ensures owner.Some? ==> owner.value.properties == old(owner.value.properties)
    {
      if houses < MAX_HOUSES && !hotel {
        var whole := OwnsEntireGroup(properties);
        if whole.Err? {
          return Threw(whole.reason);
        }
        if whole.value {
          houses := houses + 1;
          if owner.None? {
            return Threw("TypeError: cannot read properties of null");
          }
          owner.value.money := owner.value.money - houseCost;
          isDeveloped := true;
        }
      }
      return Done;
    }

    /** `buildHotel(properties)`: with exactly four houses, no hotel and the whole
        group, the houses give way to a hotel and the owner pays the hotel price. */
    method BuildHotel(properties: seq<Property>) returns (out: Outcome)
      requires Valid()
      modifies this`houses, this`hotel, this`isDeveloped, if owner.Some? then {owner.value} else {}
      ensures Valid()
      ensures !CanBuildHotel(old(Dev())) ==> out == Done && Dev() == old(Dev())
      ensures CanBuildHotel(old(Dev())) && old(OwnsEntireGroup(properties)).Err? ==>
                out.Threw? && Dev() == old(Dev())
      ensures CanBuildHotel(old(Dev())) && old(OwnsEntireGroup(properties)) == Ok(false) ==>
                out == Done && Dev() == old(Dev())
      ensures CanBuildHotel(old(Dev())) && old(OwnsEntireGroup(properties)) == Ok(true) && owner.Some? ==>
                out == Done && Dev() == HotelBuilt(old(Dev()))
                && owner.value.money == old(owner.value.money) - hotelCost
      ensures CanBuildHotel(old(Dev())) && old(OwnsEntireGroup(properties)) == Ok(true) && owner.None? ==>
                out.Threw? && hotel && houses == 0 && isDeveloped == old(isDeveloped)
      ensures owner.Some? && out == Done && Dev() == old(Dev()) ==> owner.value.money == old(owner.value.money)
      ensures owner.Some? ==> owner.value.properties == old(owner.value.properties)
    {
      if houses == MAX_HOUSES && !hotel {
        var whole := OwnsEntireGroup(properties);
        if whole.Err? {
          return Threw(whole.reason);
        }
        if whole.value {
          hotel := true;
          houses := 0;
          if owner.None? {
            return Threw("TypeError: cannot read properties of null");
          }
          owner.value.money := owner.value.money - hotelCost;
          isDeveloped := true;
        }
      }
      return Done;
    }

    /** `sellHouse()`: with at least one house, one is removed and the owner is
        refunded half the house price. */
    method SellHouse() returns (out: Outcome)
      requires Valid()
      modifies this`houses, this`isDeveloped, if owner.Some? then {owner.value} else {}
      ensures Valid()
      ensures old(houses) <= 0 ==> out == Done && Dev() == old(Dev())
      ensures old(houses) > 0 && owner.Some? ==>
                out == Done && Dev() == HouseSold(old(Dev()))
                && owner.value.money == old(owner.value.money) + houseCost / 2.0
      ensures old(houses) > 0 && owner.None? ==>
                out.Threw? && houses == old(houses) - 1 && isDeveloped == old(isDeveloped)
      ensures owner.Some? && old(houses) <= 0 ==> owner.value.money == old(owner.value.money)
      ensures owner.Some? ==> owner.value.properties == old(owner.value.properties)
    {
      if houses > 0 {
        houses := houses - 1;
        if owner.None? {
          return Threw("TypeError: cannot read properties of null");
        }
        owner.value.money := owner.value.money + houseCost / 2.0;
        if houses == 0 && !hotel {
          isDeveloped := false;
        }
      }
      return Done;
    }

    /** `sellHotel()`: a hotel turns back into four houses and the owner is
        refunded half the hotel price. */
    method SellHotel() returns (out: Outcome)
      requires Valid()
      modifies this`houses, this`hotel, this`isDeveloped, if owner.Some? then {owner.value} else {}
      ensures Valid()
      ensures !old(hotel) ==> out == Done && Dev() == old(Dev())
      ensures old(hotel) && owner.Some? ==>
                out == Done && Dev() == HotelSold(old(Dev()))
                && owner.value.money == old(owner.value.money) + hotelCost / 2.0
      ensures old(hotel) && owner.None? ==> out.Threw? && !hotel && houses == MAX_HOUSES
      ensures owner.Some? && !old(hotel) ==> owner.value.money == old(owner.value.money)
      ensures owner.Some? ==> owner.value.properties == old(owner.value.properties)
    {
      if hotel {
        hotel := false;
        houses := MAX_HOUSES;
        if owner.None? {
          return Threw("TypeError: cannot read properties of null");
        }
        owner.value.money := owner.value.money + hotelCost / 2.0;
        isDeveloped := false;
      }
      return Done;
    }
  }
}

=== FILE: model/rewards.dfy ===
/** Colour-group bookkeeping over the property data file.  A property's group is
    a list of numbers; two properties are in the same group when their first and
    third numbers agree, and the third number is the size the group should have.
    The same helpers appear verbatim at the top of the property class file. */
module Rewards {
  import opened Common

  /** The fields of a property data record these helpers read. */
  datatype PropertyRecord = PropertyRecord(name: string, group: seq<int>)

  /** The dictionary key `${group[0]}-${group[2]}`: the first and third group
      numbers, either of which may be missing (printed "undefined"). */
  datatype GroupKey = GroupKey(first: Option<int>, third: Option<int>)

  function KeyOf(group: seq<int>): GroupKey
  {
    GroupKey(if 0 < |group| then Some(group[0]) else None,
             if 2 < |group| then Some(group[2]) else None)
  }

  /** Number of records whose key is `k`. */
  function CountKey(ps: seq<PropertyRecord>, k: GroupKey): (n: nat)
    ensures n <= |ps|
  {
    if |ps| == 0 then 0
    else CountKey(ps[..|ps| - 1], k) + (if KeyOf(ps[|ps| - 1].group) == k then 1 else 0)
  }

  /** The dictionary `calculateGroupSizes` builds: records processed in order,
      each one adding one to its key's entry (created at 0 when missing). */
  function GroupSizes(ps: seq<PropertyRecord>): (m: map<GroupKey, nat>)
    ensures forall k :: k in m <==> CountKey(ps, k) > 0
    ensures forall k :: k in m ==> m[k] == CountKey(ps, k)
  {
    if |ps| == 0 then map[]
    else
      var prev := GroupSizes(ps[..|ps| - 1]);
      var k := KeyOf(ps[|ps| - 1].group);
      prev[k := (if k in prev then prev[k] else 0) + 1]
  }

  /** The keys in the order they first appear. */
  function KeyOrder(ps: seq<PropertyRecord>): (o: seq<GroupKey>)
  {
    if |ps| == 0 then []
    else
      var prev := KeyOrder(ps[..|ps| - 1]);
      var k := KeyOf(ps[|ps| - 1].group);
      if k in prev then prev else prev + [k]
  }

  predicate Distinct<T(==)>(s: seq<T>)
  {
    forall i, j :: 0 <= i < j < |s| ==> s[i] != s[j]
  }

  /** Sum of the entries of `m` at the keys listed in `ks`. */
  function SumAt(ks: seq<GroupKey>, m: map<GroupKey, nat>): int
    requires forall k :: k in ks ==> k in m
  {
    if |ks| == 0 then 0 else m[ks[0]] + SumAt(ks[1..], m)
  }

  /** Raising one listed entry by one raises the sum by one. */
  lemma {:induction false} SumAtBump(ks: seq<GroupKey>, m: map<GroupKey, nat>, k: GroupKey)
    requires Distinct(ks) && k in ks
    requires forall x :: x in ks ==> x in m
    ensures forall x :: x in ks ==> x in m[k := m[k] + 1]
    ensures SumAt(ks, m[k := m[k] + 1]) == SumAt(ks, m) + 1
  {
    var m' := m[k := m[k] + 1];
    if ks[0] == k {
      assert k !in ks[1..] by {
        forall j | 0 <= j < |ks[1..]| ensures ks[1..][j] != k { assert ks[1..][j] == ks[j + 1]; }
      }
      SumAtSame(ks[1..], m, m');
    } else {
      assert k in ks[1..];
      assert Distinct(ks[1..]) by {
        forall i, j | 0 <= i < j < |ks[1..]| ensures ks[1..][i] != ks[1..][j] {
          assert ks[1..][i] == ks[i + 1] && ks[1..][j] == ks[j + 1];
        }
      }
      SumAtBump(ks[1..], m, k);
    }
  }

  /** The sum only looks at the listed keys. */
  lemma {:induction false} SumAtSame(ks: seq<GroupKey>, m: map<GroupKey, nat>, m': map<GroupKey, nat>)
    requires forall x :: x in ks ==> x in m && x in m' && m[x] == m'[x]
    ensures SumAt(ks, m) == SumAt(ks, m')
  {
    if |ks| > 0 {
      assert ks[0] in ks;
      SumAtSame(ks[1..], m, m');
    }
  }

  /** A key appended at the end adds its entry to the sum. */
  lemma {:induction false} SumAtSnoc(ks: seq<GroupKey>, m: map<GroupKey, nat>, k: GroupKey)
    requires forall x :: x in ks ==> x in m
    requires k in m
    ensures SumAt(ks + [k], m) == SumAt(ks, m) + m[k]
  {
    if |ks| == 0 {
      assert ks + [k] == [k];
    } else {
      assert (ks + [k])[1..] == ks[1..] + [k];
      SumAtSnoc(ks[1..], m, k);
    }
  }

  /** The group sizes add up to the number of records: every record is counted
      once, under exactly one key. */
  lemma {:induction false} GroupSizesSumToCount(ps: seq<PropertyRecord>)
    ensures Distinct(KeyOrder(ps))
    ensures forall k :: k in KeyOrder(ps) <==> k in GroupSizes(ps)
    ensures SumAt(KeyOrder(ps), GroupSizes(ps)) == |ps|
  {
    if |ps| > 0 {
      var init := ps[..|ps| - 1];
      GroupSizesSumToCount(init);
      var prev, o := GroupSizes(init), KeyOrder(init);
      var k := KeyOf(ps[|ps| - 1].group);
      var m := GroupSizes(ps);
      assert m == prev[k := (if k in prev then prev[k] else 0) + 1];
      if k in o {
        assert KeyOrder(ps) == o;
        SumAtBump(o, prev, k);
      } else {
        assert KeyOrder(ps) == o + [k];
        assert Distinct(o + [k]) by {
          forall i, j | 0 <= i < j < |o + [k]| ensures (o + [k])[i] != (o + [k])[j] {
            if j == |o| { assert (o + [k])[i] == o[i] && o[i] in o; }
          }
        }
        SumAtSame(o, prev, m);
        SumAtSnoc(o, m, k);
      }
    }
  }

  /** `calculateGroupSizes(properties)`: one pass over the records, counting each
      under its key. */
  method CalculateGroupSizes(properties: seq<PropertyRecord>) returns (groupSizes: map<GroupKey, nat>)
    ensures forall k :: k in groupSizes <==> CountKey(properties, k) > 0
    ensures forall k :: k in groupSizes ==> groupSizes[k] == CountKey(properties, k)
  {
    groupSizes := map[];
    var i := 0;
    while i < |properties|
      invariant 0 <= i <= |properties|
      invariant groupSizes == GroupSizes(properties[..i])
    {
      var groupKey := KeyOf(properties[i].group);
      if groupKey !in groupSizes {
        groupSizes := groupSizes[groupKey := 0];
      }
      groupSizes := groupSizes[groupKey := groupSizes[groupKey] + 1];
      assert properties[..i + 1][..i] == properties[..i];
      i := i + 1;
    }
    assert properties[..i] == properties;
  }

  /** `getTotalPropertiesInGroup(group)` against the sizes of `properties`: the
      number of records in the group, 0 for a key no record has. */
  function TotalPropertiesInGroup(properties: seq<PropertyRecord>, group: seq<int>): (n: nat)
    ensures n == CountKey(properties, KeyOf(group))
    ensures (forall p :: p in properties ==> KeyOf(p.group) != KeyOf(group)) ==> n == 0
  {
    NoMatchNoCount(properties, KeyOf(group));
    var sizes := GroupSizes(properties);
    var key := KeyOf(group);
    if key in sizes then sizes[key] else 0
  }

  /** A key no record has counts zero. */
  lemma {:induction false} NoMatchNoCount(ps: seq<PropertyRecord>, k: GroupKey)
    ensures (forall p :: p in ps ==> KeyOf(p.group) != k) ==> CountKey(ps, k) == 0
  {
    if |ps| > 0 && forall p :: p in ps ==> KeyOf(p.group) != k {
      assert ps[|ps| - 1] in ps;
      assert forall p :: p in ps[..|ps| - 1] ==> p in ps;
      NoMatchNoCount(ps[..|ps| - 1], k);
    }
  }

  /** `ownsWholeGroup(properties, group)`: the number of records sharing the
      group's key equals the group's third number. */
  function OwnsWholeGroup(properties: seq<PropertyRecord>, group: seq<int>): (owns: bool)
    ensures owns <==> 2 < |group| && CountKey(properties, KeyOf(group)) == group[2]
  {
    var owned := CountMatching(properties, group);
    KeyOf(group).third == Some(owned)
  }

  /** The length of `properties.filter(p => p.group[0] === group[0] && p.group[2] === group[2])`. */
  function CountMatching(properties: seq<PropertyRecord>, group: seq<int>): (n: nat)
    ensures n == CountKey(properties, KeyOf(group))
  {
    if |properties| == 0 then 0
    else
      var last := properties[|properties| - 1];
      CountMatching(properties[..|properties| - 1], group)
      + (if KeyOf(last.group).first == KeyOf(group).first && KeyOf(last.group).third == KeyOf(group).third
         then 1 else 0)
  }

  /** Owning the whole group means the dictionary's size for the group equals the
      group's third number. */
  lemma OwnsWholeGroupBySizes(properties: seq<PropertyRecord>, group: seq<int>)
    ensures OwnsWholeGroup(properties, group) <==>
              2 < |group| && TotalPropertiesInGroup(properties, group) == group[2]
  {
  }

  /** `findGroupArray(name, properties)`: the group of the first record with that
      name, or null. */
  function FindGroupArray(propertyName: string, properties: seq<PropertyRecord>): (r: Option<seq<int>>)
    ensures r.None? <==> forall p :: p in properties ==> p.name != propertyName
    ensures r.Some? ==> exists i :: 0 <= i < |properties| && properties[i].name == propertyName
                                    && properties[i].group == r.value
                                    && forall j :: 0 <= j < i ==> properties[j].name != propertyName
  {
    var i := FindIndex(properties, (p: PropertyRecord) => p.name == propertyName);
    if i >= 0 then Some(properties[i].group) else None
  }
}

=== FILE: model/session.dfy ===
/** The chat-session engine: a session holding the players by user id, the
    board, who owns which tile, the pool of jail-release cards and the turn
    order; and its player, who moves round the board with cash.

    Each tile's owner is written on the tile object itself, and both the
    session and its players share the same board, so the owners are kept
    here as one map on the session, from board index to player.  The session
    also records each purchase in `occupied`, which releasing a tile does not
    undo. */
module Sessions {
  import opened Common
  import DiceGames

  const STARTING_CASH: real := 1500.0
  const GO_BONUS: real := 200.0
  const JAIL_FINE: real := 50.0
  const TURNS_IN_JAIL := 3

  /** A tile of the board file; `cost` and `rent` are missing on tiles that
      cannot be bought. */
  datatype Tile = Tile(name: string, kind: string, cost: Option<real>, rent: Option<real>)

  /** What the session goes on to do after a synchronous step: hand the turn
      on, start the bankruptcy procedure, put the tile to auction, or nothing
      at all (the turn stalls).  The steps that would ask the player to
      choose (jail options, a purchase, a sale) build their message with
      `createEmbed`, which the file never imports, so they throw before
      asking.  The other hand-overs first flush the stacked messages, which
      throws too (`NO_FLUSH`); only the corrected `HandleProperty` reports
      the hand-over it would start. */
  datatype Next = ToggleTurns | Bankruptcy | Auction | Stall

  /** The error every `createEmbed` call raises. */
  const NO_EMBED := "ReferenceError: createEmbed is not defined"

  /** The error of `flushMessages()`: the session calls the message
      handler's `flushMessages` without the list it maps over. */
  const NO_FLUSH := "TypeError: Cannot read properties of undefined (reading 'map')"

  /** The error of `sendMessage`: the session's `channel` is never assigned. */
  const NO_CHANNEL := "TypeError: Cannot read properties of undefined (reading 'send')"

  /** The error of `occupiedProperties.keyArray()` on a collection without
      that method. */
  const NO_KEY_ARRAY := "TypeError: session.occupiedProperties.keyArray is not a function"

  /** The card draw on a card tile names the deck of that tile's kind, and
      the file imports neither deck: the conditional evaluates only the
      branch it picks. */
  function NoDeck(kind: string): (e: string)
    ensures kind == "community-chest" <==> e == "ReferenceError: Community is not defined"
    ensures kind != "community-chest" <==> e == "ReferenceError: Chance is not defined"
  {
    if kind == "community-chest" then "ReferenceError: Community is not defined"
    else "ReferenceError: Chance is not defined"
  }

  /** `format` and `capitalize` only upper-case ASCII letters here. */
  function Upper(c: char): char
  {
    if 'a' <= c <= 'z' then (c as int - 32) as char else c
  }

  /** `capitalize(str)`: the regular expression matches every character
      (after any run of non-word characters), so every character is
      upper-cased. */
  function Capitalize(s: string): (r: string)
    ensures |r| == |s|
    ensures forall i :: 0 <= i < |s| ==> r[i] == Upper(s[i])
    ensures forall i :: 0 <= i < |r| ==> !('a' <= r[i] <= 'z')
  {
    seq(|s|, i requires 0 <= i < |s| => Upper(s[i]))
  }

  /** Capitalizing twice is capitalizing once. */
  lemma CapitalizeIdempotent(s: string)
    ensures Capitalize(Capitalize(s)) == Capitalize(s)
  {
  }

  /** Number of occurrences of a character. */
  function Occurrences(s: string, c: char): nat
  {
    if |s| == 0 then 0 else (if s[0] == c then 1 else 0) + Occurrences(s[1..], c)
  }

  lemma {:induction false} OccurrencesAppend(a: string, b: string, c: char)
    ensures Occurrences(a + b, c) == Occurrences(a, c) + Occurrences(b, c)
  {
    if |a| > 0 {
      assert (a + b)[1..] == a[1..] + b;
      OccurrencesAppend(a[1..], b, c);
    } else {
      assert a + b == b;
    }
  }

  /** Upper-casing keeps the dashes where they are. */
  lemma {:induction false} CapitalizeKeepsDashes(s: string)
    ensures Occurrences(Capitalize(s), '-') == Occurrences(s, '-')
  {
    if |s| > 0 {
      assert Capitalize(s)[1..] == Capitalize(s[1..]);
      CapitalizeKeepsDashes(s[1..]);
    }
  }

  /** `format(str)`: the first "-" is removed (a string pattern replaces
      one occurrence only), then the whole string is capitalized. */
  function Format(s: string): (r: string)
    ensures Occurrences(r, '-') == if Occurrences(s, '-') == 0 then 0 else Occurrences(s, '-') - 1
    ensures |r| == if Occurrences(s, '-') == 0 then |s| else |s| - 1
  {
    var k := FindIndex(s, (c: char) => c == '-');
    var stripped := if k == -1 then s else s[..k] + s[k + 1..];
    DashCount(s, k);
    CapitalizeKeepsDashes(stripped);
    Capitalize(stripped)
  }

  /** The first dash found by `FindIndex` accounts for one occurrence. */
  lemma DashCount(s: string, k: int)
    requires k == FindIndex(s, (c: char) => c == '-')
    ensures k == -1 <==> Occurrences(s, '-') == 0
    ensures k >= 0 ==> Occurrences(s[..k] + s[k + 1..], '-') == Occurrences(s, '-') - 1
  {
    if k == -1 {
      NoDash(s);
    } else {
      assert s == s[..k] + [s[k]] + s[k + 1..];
      OccurrencesAppend(s[..k] + [s[k]], s[k + 1..], '-');
      OccurrencesAppend(s[..k], [s[k]], '-');
      OccurrencesAppend(s[..k], s[k + 1..], '-');
      NoDash(s[..k]);
    }
  }

  lemma {:induction false} NoDash(s: string)
    requires forall j :: 0 <= j < |s| ==> s[j] != '-'
    ensures Occurrences(s, '-') == 0
  {
    if |s| > 0 {
      NoDash(s[1..]);
    }
  }

  /** `throwDice()` as written: `Math.floor(Math.random() * 5) + 1` gives
      faces 1 to 5. */
  function ThrowDiceAsWritten(r1: real, r2: real): (roll: DiceGames.DiceRollResult)
    requires 0.0 <= r1 < 1.0 && 0.0 <= r2 < 1.0
    ensures 1 <= roll.dice1 <= 5 && 1 <= roll.dice2 <= 5 && roll.sum == roll.dice1 + roll.dice2
    ensures roll.double <==> roll.dice1 == roll.dice2
  {
    var d1 := DieFace(r1, 5);
    var d2 := DieFace(r2, 5);
    DiceGames.DiceRollResult(d1 + d2, d1 == d2, d1, d2)
  }

  /** No random number throws a six or a total above ten, whereas the
      six-sided throw reaches both. */
  lemma SixIsNeverThrown(r1: real, r2: real)
    requires 0.0 <= r1 < 1.0 && 0.0 <= r2 < 1.0
    ensures ThrowDiceAsWritten(r1, r2).dice1 != 6 && ThrowDiceAsWritten(r1, r2).sum <= 10
    ensures DiceGames.ThrowDice(5.0 / 6.0, 5.0 / 6.0).dice1 == 6 && DiceGames.ThrowDice(5.0 / 6.0, 5.0 / 6.0).sum == 12
  {
    DiceGames.EveryThrowPossible(6, 6);
  }

  /** The random numbers of a sequence of throws are all draws of
      `Math.random()`. */
  predicate ValidThrows(throws: seq<(real, real)>)
  {
    forall k :: 0 <= k < |throws| ==> 0.0 <= throws[k].0 < 1.0 && 0.0 <= throws[k].1 < 1.0
  }

  /** One throw of the two dice. */
  function RollOf(t: (real, real)): DiceGames.DiceRollResult
    requires 0.0 <= t.0 < 1.0 && 0.0 <= t.1 < 1.0
  {
    DiceGames.ThrowDice(t.0, t.1)
  }

  /** Sum of all the throws. */
  function TotalOf(throws: seq<(real, real)>): (total: int)
    requires ValidThrows(throws)
    ensures 2 * |throws| <= total <= 12 * |throws|
  {
    if |throws| == 0 then 0 else TotalOf(throws[..|throws| - 1]) + RollOf(throws[|throws| - 1]).sum
  }

  /** Number of doubles among the throws. */
  function DoublesOf(throws: seq<(real, real)>): (count: nat)
    requires ValidThrows(throws)
    ensures count <= |throws|
  {
    if |throws| == 0 then 0
    else DoublesOf(throws[..|throws| - 1]) + (if RollOf(throws[|throws| - 1]).double then 1 else 0)
  }

  /** One more throw adds its sum to the total and its double to the count. */
  lemma ThrowsStep(throws: seq<(real, real)>, i: nat)
    requires ValidThrows(throws) && i < |throws|
    ensures ValidThrows(throws[..i]) && ValidThrows(throws[..i + 1])
    ensures TotalOf(throws[..i + 1]) == TotalOf(throws[..i]) + RollOf(throws[i]).sum
    ensures DoublesOf(throws[..i + 1]) == DoublesOf(throws[..i]) + (if RollOf(throws[i]).double then 1 else 0)
  {
    assert throws[..i + 1][..i] == throws[..i];
  }

  /** How many throws a turn takes: up to and including the first that is
      not a double, and never more than three. */
  function StreakLength(throws: seq<(real, real)>): (m: nat)
    requires ValidThrows(throws) && |throws| >= 3
    ensures 1 <= m <= 3
    ensures forall k :: 0 <= k < m - 1 ==> RollOf(throws[k]).double
    ensures m < 3 ==> !RollOf(throws[m - 1]).double
  {
    if !RollOf(throws[0]).double then 1
    else if !RollOf(throws[1]).double then 2
    else 3
  }

  class Player {
    const id: string
    const username: string
    const session: Session
    var cash: real
    var isJailed: bool
    var ownsFreedomChance: bool
    var ownsFreedomCommunity: bool
    /** `_position`, an index into the board. */
    var position: int
    var turnsInJail: int

    /** `new Player(user, session)`: 1500 in cash on Go, free and without
        cards. */
    constructor (id: string, username: string, session: Session)
      ensures this.id == id && this.username == username && this.session == session
      ensures cash == STARTING_CASH && position == 0 && turnsInJail == 0
      ensures !isJailed && !ownsFreedomChance && !ownsFreedomCommunity
    {
      this.id := id;
      this.username := username;
      this.session := session;
      cash := STARTING_CASH;
      isJailed := false;
      ownsFreedomChance := false;
      ownsFreedomCommunity := false;
      position := 0;
      turnsInJail := 0;
    }

    /** Number of jail-release cards held. */
    function CardCount(): nat
      reads this
    {
      (if ownsFreedomChance then 1 else 0) + (if ownsFreedomCommunity then 1 else 0)
    }

    /** `canBeFreed`: the player holds at least one release card. */
    predicate CanBeFreed()
      reads this
      ensures CanBeFreed() <==> CardCount() > 0
    {
      ownsFreedomCommunity || ownsFreedomChance
    }

    /** The `position` getter: the tile under the player, undefined off the
        board. */
    function Tile(): (t: Option<Tile>)
      reads this
      ensures t.Some? <==> 0 <= position < |session.board|
      ensures t.Some? ==> t.value == session.board[position]
    {
      if 0 <= position < |session.board| then Some(session.board[position]) else None
    }

    /** `earn(amount)`. */
    method Earn(amount: real)
      modifies this`cash
      ensures cash == old(cash) + amount
    {
      cash := cash + amount;
    }

    /** `pay(amount)`: unconditional, so the cash may go negative. */
    method Pay(amount: real)
      modifies this`cash
      ensures cash == old(cash) - amount
    {
      cash := cash - amount;
    }

    /** `advance(number)`: the new position is wrapped once by the board
        length and reaching or passing Go earns 200.  Passing Go reports the
        tile reached, which throws after the bonus is paid when one wrap
        leaves the position off the board. */
    method Advance(steps: int) returns (out: Outcome)
      modifies this`position, this`cash
      ensures position == Advanced(old(position), steps, |session.board|)
      ensures cash == old(cash) + (if old(position) + steps >= |session.board| then GO_BONUS else 0.0)
      ensures out.Threw? <==> old(position) + steps > |session.board| && Tile().None?
      ensures !out.Threw? ==> out == Done
    {
      var newPosition := position + steps;
      if newPosition >= |session.board| {
        position := newPosition - |session.board|;
      } else {
        position := newPosition;
      }
      if newPosition == |session.board| {
        Earn(GO_BONUS);
      } else if newPosition > |session.board| {
        Earn(GO_BONUS);
        if Tile().None? {
          return Threw("TypeError: cannot read properties of undefined (reading 'name')");
        }
      }
      return Done;
    }

    /** `goBack(number)`: the position drops by `number` and is wrapped once
        when it falls below zero; no bonus is involved. */
    method GoBack(steps: int)
      modifies this`position
      ensures position == WentBack(old(position), steps, |session.board|)
    {
      position := position - steps;
      if position < 0 {
        position := position + |session.board|;
      }
    }

    /** `buy(property, amount)`: the price is `amount` when truthy and the
        tile's cost otherwise; the player pays it, becomes the tile's owner
        and the session records the purchase.  A missing price makes the
        cash NaN and the purchase still goes through; the model keeps the
        cash and reports the NaN. */
    method Buy(tile: nat, amount: Option<real>) returns (out: Outcome)
      requires tile < |session.board|
      modifies this`cash, session`owners, session`occupied
      ensures session.owners == old(session.owners)[tile := this]
      ensures session.occupied == old(session.occupied)[tile := this]
      ensures var price := Price(amount, session.board[tile].cost);
              (price.None? ==> out == NonNumeric("cash") && cash == old(cash))
              && (price.Some? ==> out == Done && cash == old(cash) - price.value)
    {
      var price := Price(amount, session.board[tile].cost);
      out := Done;
      if price.None? {
        out := NonNumeric("cash");
      } else {
        Pay(price.value);
      }
      session.owners := session.owners[tile := this];
      session.occupied := session.occupied[tile := this];
    }

    /** `jail(reason)`. */
    method Jail(reason: string)
      modifies this`isJailed
      ensures isJailed
    {
      isJailed := true;
    }

    /** `free(reason)`: the player leaves jail; freed by a card, the player
        gives up exactly one card, the community card before the chance
        card. */
    method Free(reason: string)
      modifies this`isJailed, this`ownsFreedomCommunity, this`ownsFreedomChance
      ensures !isJailed
      ensures reason == "card" && old(CanBeFreed()) ==> CardCount() == old(CardCount()) - 1
      ensures reason == "card" && old(ownsFreedomCommunity) ==> ownsFreedomChance == old(ownsFreedomChance)
      ensures reason != "card" || !old(CanBeFreed()) ==>
                ownsFreedomCommunity == old(ownsFreedomCommunity) && ownsFreedomChance == old(ownsFreedomChance)
    {
      isJailed := false;
      if reason == "card" {
        if ownsFreedomCommunity {
          ownsFreedomCommunity := false;
        } else if ownsFreedomChance {
          ownsFreedomChance := false;
        }
      }
    }

    /** `releaseProperty(tile, getMoney)`: the tile loses its owner, and with
        `getMoney` the player earns half its cost (NaN for a tile without a
        cost, which the model reports with the cash kept). */
    method ReleaseProperty(tile: nat, getMoney: bool) returns (out: Outcome)
      requires tile < |session.board|
      modifies session`owners, this`cash
      ensures session.owners == old(session.owners) - {tile}
      ensures getMoney && session.board[tile].cost.Some? ==>
                out == Done && cash == old(cash) + session.board[tile].cost.value / 2.0
      ensures getMoney && session.board[tile].cost.None? ==> out == NonNumeric("cash") && cash == old(cash)
      ensures !getMoney ==> out == Done && cash == old(cash)
    {
      session.owners := session.owners - {tile};
      if getMoney {
        var cost := session.board[tile].cost;
        if cost.None? {
          return NonNumeric("cash");
        }
        Earn(cost.value / 2.0);
      }
      return Done;
    }
  }

  /** The position `advance` computes. */
  function Advanced(position: int, steps: int, length: nat): int
  {
    var p := position + steps;
    if p >= length then p - length else p
  }

  /** The position `goBack` computes. */
  function WentBack(position: int, steps: int, length: nat): int
  {
    var p := position - steps;
    if p < 0 then p + length else p
  }

  /** On the board and moving by at most a lap, `advance` is addition modulo
      the board length, and the 200 is paid exactly when the move wraps. */
  lemma AdvanceIsModular(position: int, steps: int, length: nat)
    requires 0 <= position < length && 0 <= steps <= length
    ensures Advanced(position, steps, length) == (position + steps) % length
    ensures 0 <= Advanced(position, steps, length) < length
    ensures position + steps >= length <==> Advanced(position, steps, length) < position || steps == length
  {
    ModSmall(position + steps, length);
  }

  /** On the board and moving back by at most a lap, `goBack` is subtraction
      modulo the board length. */
  lemma GoBackIsModular(position: int, steps: int, length: nat)
    requires 0 <= position < length && 0 <= steps <= length
    ensures WentBack(position, steps, length) == (position - steps) % length
    ensures 0 <= WentBack(position, steps, length) < length
  {
    var p := position - steps;
    if p < 0 {
      assert p == -1 * length + (p + length);
    } else {
      assert p == 0 * length + p;
    }
  }

  /** `goBack(-3)` moves three tiles forward and never wraps: from the last
      three tiles of a forty-tile board it leaves the board. */
  lemma GoBackMinusThreeLeavesBoard()
    ensures WentBack(38, -3, 40) == 41
    ensures forall p :: 0 <= p ==> WentBack(p, -3, 40) == p + 3
  {
  }

  /** The price `buy` charges: a truthy amount, else the tile's cost. */
  function Price(amount: Option<real>, cost: Option<real>): Option<real>
  {
    if amount.Some? && amount.value != 0.0 then amount else cost
  }

  /** A winning bid of 0 is falsy: the buyer pays the full cost. */
  lemma ZeroBidPaysCost(cost: real)
    ensures Price(Some(0.0), Some(cost)) == Some(cost)
    ensures Price(None, Some(cost)) == Some(cost)
  {
  }

  /** The player at a given position of the turn order, undefined past
      its end. */
  function OrderAt(order: seq<string>, i: nat): Option<string>
  {
    if i < |order| then Some(order[i]) else None
  }

  /** The turn toggler's next index: the one after, back to 0 after the
      last. */
  function TogglerStep(i: nat, n: nat): nat
  {
    if i + 1 == n then 0 else i + 1
  }

  /** The index the toggler yields on its `k + 1`-th call. */
  function TogglerAfter(k: nat, n: nat): nat
  {
    if k == 0 then 0 else TogglerStep(TogglerAfter(k - 1, n), n)
  }

  /** The toggler visits the turn order round-robin: its `k + 1`-th call
      yields entry `k mod n`. */
  lemma {:induction false} TogglerIsRoundRobin(k: nat, n: nat)
    requires n > 0
    ensures TogglerAfter(k, n) == k % n
  {
    if k > 0 {
      TogglerIsRoundRobin(k - 1, n);
      var q := (k - 1) / n;
      var r := (k - 1) % n;
      if r + 1 == n {
        ModUnique(k, n, q + 1, 0);
      } else {
        ModUnique(k, n, q, r + 1);
      }
    }
  }

  /** The remainder is the only one below `n`. */
  lemma ModUnique(x: int, n: int, q: int, r: int)
    requires n > 0 && 0 <= r < n && x == q * n + r
    ensures x % n == r
  {
    var d := q - x / n;
    assert d * n == x % n - r;
  }

  /** Sum of the half-costs of the board tiles below `k` that the session
      records as bought and that are still owned by `player`; NaN (`None`)
      when one of them has no cost. */
  function SaleValue(board: seq<Tile>, occupied: map<nat, Player>, owners: map<nat, Player>, player: Player, k: nat)
    : Option<real>
    requires k <= |board|
  {
    if k == 0 then Some(0.0)
    else
      var rest := SaleValue(board, occupied, owners, player, k - 1);
      if !(k - 1 in occupied && k - 1 in owners && owners[k - 1] == player) then rest
      else if rest.None? || board[k - 1].cost.None? then None
      else Some(rest.value + board[k - 1].cost.value / 2.0)
  }

  /** Whether some recorded purchase below `k` is still owned by `player`. */
  predicate OwnsSome(occupied: map<nat, Player>, owners: map<nat, Player>, player: Player, k: nat)
  {
    exists j :: 0 <= j < k && j in occupied && j in owners && owners[j] == player
  }

  /** Selling back only ever raises money. */
  lemma {:induction false} SaleValueNonNegative(board: seq<Tile>, occupied: map<nat, Player>, owners: map<nat, Player>,
                                                player: Player, k: nat)
    requires k <= |board|
    requires forall j :: 0 <= j < |board| && board[j].cost.Some? ==> board[j].cost.value >= 0.0
    ensures SaleValue(board, occupied, owners, player, k).Some? ==> SaleValue(board, occupied, owners, player, k).value >= 0.0
    ensures !OwnsSome(occupied, owners, player, k) ==> SaleValue(board, occupied, owners, player, k) == Some(0.0)
  {
    if k > 0 {
      SaleValueNonNegative(board, occupied, owners, player, k - 1);
    }
  }

  /** The jailed player's options: waiting, paying the fine when the cash
      covers it, using a card when one is held. */
  function JailOptions(cash: real, canBeFreed: bool): (count: nat)
    ensures 1 <= count <= 3
    ensures count == 3 <==> cash >= JAIL_FINE && canBeFreed
    ensures count == 1 <==> cash < JAIL_FINE && !canBeFreed
  {
    1 + (if cash >= JAIL_FINE then 1 else 0) + (if canBeFreed then 1 else 0)
  }

  /** No player object is registered under two ids. */
  predicate Distinct(players: map<string, Player>)
  {
    forall a, b :: a in players && b in players && a != b ==> players[a] != players[b]
  }

  class Session {
    const id: string
    const board: seq<Tile>
    var players: map<string, Player>
    var occupied: map<nat, Player>
    var owners: map<nat, Player>
    var hotels: int
    var houses: int
    var hasChanceOutOfJail: bool
    var hasCommunityOutOfJail: bool
    var started: bool
    var orderedPlayers: Option<seq<string>>
    /** The turn toggler's counter, whether the generator has started, and
        whether it has finished (a generator that throws is finished). */
    var turn: nat
    var turnStarted: bool
    var turnHandlerDone: bool

    /** `new Session(user)`: no players, nothing owned, 12 hotels and 32
        houses, both jail cards in the pool, not started. */
    constructor (id: string, board: seq<Tile>)
      ensures this.id == id && this.board == board
      ensures players == map[] && occupied == map[] && owners == map[]
      ensures hotels == 12 && houses == 32 && hasChanceOutOfJail && hasCommunityOutOfJail && !started
      ensures orderedPlayers == None && turn == 0 && !turnStarted && !turnHandlerDone
      ensures DistinctPlayers()
    {
      this.id := id;
      this.board := board;
      players := map[];
      occupied := map[];
      owners := map[];
      hotels := 12;
      houses := 32;
      hasChanceOutOfJail := true;
      hasCommunityOutOfJail := true;
      started := false;
      orderedPlayers := None;
      turn := 0;
      turnStarted := false;
      turnHandlerDone := false;
    }

    /** Every registered id has a player of its own. */
    predicate DistinctPlayers()
      reads this
    {
      Distinct(players)
    }

    /** `addPlayer(message)` with the user the message names, if any.  The
        membership test looks the user object up among keys that are ids, so
        it never succeeds: a user who joins again gets a fresh player. */
    method AddPlayer(user: Option<(string, string)>) returns (added: bool)
      modifies this`players
      ensures added <==> user.Some?
      ensures user.None? ==> players == old(players)
      ensures user.Some? ==>
                user.value.0 in players && fresh(players[user.value.0])
                && players == old(players)[user.value.0 := players[user.value.0]]
                && players[user.value.0].cash == STARTING_CASH && players[user.value.0].session == this
      ensures old(DistinctPlayers()) ==> DistinctPlayers()
    {
      if user.None? {
        return false;
      }
      var p := new Player(user.value.0, user.value.1, this);
      players := players[user.value.0 := p];
      return true;
    }

    /** `removePlayer(message)`: null without a user, otherwise whether the
        user was registered; a registered user is removed. */
    method RemovePlayer(userId: Option<string>) returns (removed: Option<bool>)
      modifies this`players
      ensures userId.None? ==> removed == None && players == old(players)
      ensures userId.Some? ==> removed == Some(userId.value in old(players)) && players == old(players) - {userId.value}
      ensures old(DistinctPlayers()) ==> DistinctPlayers()
    {
      if userId.None? {
        return None;
      }
      removed := Some(userId.value in players);
      players := players - {userId.value};
    }

    /** `clearPlayerList()`: whether there was anyone to remove. */
    method ClearPlayerList() returns (cleared: bool)
      modifies this`players
      ensures cleared <==> old(players) != map[]
      ensures players == map[] && DistinctPlayers()
    {
      cleared := players != map[];
      players := map[];
    }

    /** `startGame()`: the game is marked started, then the turn order is
        computed from `this.players.size[0]`, which is undefined, and the
        shuffle throws on its length. */
    method StartGame() returns (out: Outcome)
      modifies this`started
      ensures started && out.Threw?
    {
      started := true;
      return Threw("TypeError: cannot read properties of undefined (reading 'length')");
    }

    /** `turnHandler.next().value`: the first call yields entry 0, and each
        later call moves to the next entry, back to 0 after the last.  An
        undefined turn order throws, and the generator, finished by the
        throw, yields undefined on every later call whatever the order is
        by then. */
    method NextInTurn() returns (r: Result<Option<string>>)
      modifies this`turn, this`turnStarted, this`turnHandlerDone
      ensures old(turnHandlerDone) ==>
                r == Ok(None) && turnHandlerDone && turn == old(turn) && turnStarted == old(turnStarted)
      ensures !old(turnHandlerDone) && orderedPlayers.None? ==>
                r.Err? && turnHandlerDone && turn == old(turn) && turnStarted == old(turnStarted)
      ensures !old(turnHandlerDone) && orderedPlayers.Some? ==>
                !turnHandlerDone && turnStarted
                && turn == (if old(turnStarted) then TogglerStep(old(turn), |orderedPlayers.value|) else 0)
                && r == Ok(OrderAt(orderedPlayers.value, turn))
      ensures !old(turnHandlerDone) && orderedPlayers.Some? && old(turnStarted) && 0 <= old(turn) < |orderedPlayers.value| ==>
                turn == (old(turn) + 1) % |orderedPlayers.value| && r.value.Some?
    {
      if turnHandlerDone {
        return Ok(None);
      }
      if orderedPlayers.None? {
        turnHandlerDone := true;
        return Err("TypeError: cannot read properties of undefined (reading '" + (if turnStarted then "length" else "0") + "')");
      }
      if turnStarted {
        turn := TogglerStep(turn, |orderedPlayers.value|);
        if old(turn) < |orderedPlayers.value| {
          ModSmall(old(turn) + 1, |orderedPlayers.value|);
        }
      } else {
        turn := 0;
        turnStarted := true;
      }
      return Ok(OrderAt(orderedPlayers.value, turn));
    }

    /** `makeDiceRoll(player, iterations)` with the random numbers of the
        throws.  With a truthy number of iterations exactly that many throws
        are made (none for a negative number); otherwise the player throws
        until a throw is not a double or three doubles are thrown.  Each
        throw uses six-sided dice. */
    method MakeDiceRoll(iterations: int, throws: seq<(real, real)>) returns (rollTotal: int, doubleCount: int)
      requires ValidThrows(throws)
      requires |throws| >= if iterations > 0 then iterations else 3
      ensures iterations != 0 ==>
                var k := if iterations > 0 then iterations else 0;
                rollTotal == TotalOf(throws[..k]) && doubleCount == DoublesOf(throws[..k]) && 0 <= doubleCount <= k
      ensures iterations == 0 ==>
                var m := StreakLength(throws);
                rollTotal == TotalOf(throws[..m]) && doubleCount == DoublesOf(throws[..m])
                && (doubleCount == 3 <==> m == 3 && RollOf(throws[2]).double)
                && (doubleCount < 3 ==> doubleCount == m - 1)
    {
      if iterations != 0 {
        rollTotal, doubleCount := RollTimes(if iterations > 0 then iterations else 0, throws);
      } else {
        rollTotal, doubleCount := RollStreak(throws);
      }
    }

    /** The counted branch of `makeDiceRoll`: `times` throws. */
    method RollTimes(times: nat, throws: seq<(real, real)>) returns (rollTotal: int, doubleCount: int)
      requires ValidThrows(throws) && |throws| >= times
      ensures rollTotal == TotalOf(throws[..times]) && doubleCount == DoublesOf(throws[..times])
    {
      doubleCount := 0;
      rollTotal := 0;
      var i := 0;
      while i < times
        invariant 0 <= i <= times
        invariant rollTotal == TotalOf(throws[..i]) && doubleCount == DoublesOf(throws[..i])
      {
        var roll := RollOf(throws[i]);
        ThrowsStep(throws, i);
        rollTotal := rollTotal + roll.sum;
        if roll.double {
          doubleCount := doubleCount + 1;
        }
        i := i + 1;
      }
    }

    /** The open-ended branch of `makeDiceRoll`: throws until one is not a
        double or three doubles are thrown. */
    method RollStreak(throws: seq<(real, real)>) returns (rollTotal: int, doubleCount: int)
      requires ValidThrows(throws) && |throws| >= 3
      ensures var m := StreakLength(throws);
              rollTotal == TotalOf(throws[..m]) && doubleCount == DoublesOf(throws[..m])
              && (doubleCount == 3 <==> m == 3 && RollOf(throws[2]).double)
              && (doubleCount < 3 ==> doubleCount == m - 1)
    {
      doubleCount := 0;
      rollTotal := 0;
      var i := 0;
      while doubleCount < 3
        invariant 0 <= i <= 3 && doubleCount == i
        invariant forall k :: 0 <= k < i ==> RollOf(throws[k]).double
        invariant rollTotal == TotalOf(throws[..i]) && doubleCount == DoublesOf(throws[..i])
      {
        var roll := RollOf(throws[i]);
        ThrowsStep(throws, i);
        rollTotal := rollTotal + roll.sum;
        if roll.double {
          doubleCount := doubleCount + 1;
        }
        if !roll.double {
          assert StreakLength(throws) == i + 1;
          return;
        }
        i := i + 1;
      }
      assert StreakLength(throws) == 3;
    }

    /** `killPlayer(player)`: the player leaves the session and any release
        card the player holds goes back to the pool (the player keeps
        holding it too).  The player's own property map is never filled, so
        no tile is released.  The closing report goes through `sendMessage`
        and throws after all that. */
    method KillPlayer(player: Player) returns (out: Outcome)
      modifies this`players, this`hasChanceOutOfJail, this`hasCommunityOutOfJail
      ensures players == old(players) - {player.id}
      ensures old(DistinctPlayers()) ==> DistinctPlayers()
      ensures hasChanceOutOfJail == (old(hasChanceOutOfJail) || player.ownsFreedomChance)
      ensures hasCommunityOutOfJail == (old(hasCommunityOutOfJail) || player.ownsFreedomCommunity)
      ensures out == Threw(NO_CHANNEL)
    {
      players := players - {player.id};
      if player.ownsFreedomChance {
        hasChanceOutOfJail := true;
      }
      if player.ownsFreedomCommunity {
        hasCommunityOutOfJail := true;
      }
      return Threw(NO_CHANNEL);
    }

    /** `manageBankruptPlayer(session, player)`.  Its first line lists the
        owned tiles with `keyArray()`, which the collections of discord.js 13
        and later no longer have; `keyArrayDefined` says whether the library
        in use still has it.  Without it the call throws at once.  With it,
        a player owning recorded tiles whose half-costs cover the debt would
        be offered to sell, but building that offer calls `createEmbed` and
        throws; a player owning recorded tiles that do not cover the debt
        is told so through `sendMessage`, which throws before the player is
        removed; a player owning none is removed by `KillPlayer`, whose
        report throws afterwards.  So the call always throws, and only in
        the last case after a change. */
    method ManageBankruptPlayer(player: Player, keyArrayDefined: bool) returns (out: Outcome)
      modifies this`players, this`hasChanceOutOfJail, this`hasCommunityOutOfJail
      ensures out.Threw?
      ensures var value := SaleValue(board, occupied, owners, player, |board|);
              var debt := if player.cash < 0.0 then -player.cash else player.cash;
              var owns := OwnsSome(occupied, owners, player, |board|);
              out.reason == (if !keyArrayDefined then NO_KEY_ARRAY
                             else if owns && value.Some? && value.value >= debt then NO_EMBED
                             else NO_CHANNEL)
      ensures keyArrayDefined && !OwnsSome(occupied, owners, player, |board|) ==>
                players == old(players) - {player.id}
                && hasChanceOutOfJail == (old(hasChanceOutOfJail) || player.ownsFreedomChance)
                && hasCommunityOutOfJail == (old(hasCommunityOutOfJail) || player.ownsFreedomCommunity)
      ensures !keyArrayDefined || OwnsSome(occupied, owners, player, |board|) ==>
                players == old(players)
                && hasChanceOutOfJail == old(hasChanceOutOfJail) && hasCommunityOutOfJail == old(hasCommunityOutOfJail)
    {
      if !keyArrayDefined {
        return Threw(NO_KEY_ARRAY);
      }
      if OwnsSome(occupied, owners, player, |board|) {
        var value := SaleValue(board, occupied, owners, player, |board|);
        var debt := if player.cash < 0.0 then -player.cash else player.cash;
        if value.Some? && value.value >= debt {
          return Threw(NO_EMBED);
        }
        return Threw(NO_CHANNEL);
      }
      out := KillPlayer(player);
    }

    /** The synchronous decision of `handleJailedPlayer`: after three turns
        in jail the player is freed and throws once; a double ends there,
        anything else costs the 50 fine and a fresh turn.  Before that, the
        options (`JailOptions`) are listed and showing them calls
        `createEmbed`, which throws. */
    method HandleJailedPlayer(player: Player, throws: seq<(real, real)>) returns (r: Result<Next>)
      requires player.session == this && player.isJailed
      requires ValidThrows(throws) && |throws| >= 4
      modifies player`isJailed, player`cash, player`position
      ensures player.turnsInJail != TURNS_IN_JAIL ==>
                r == Err(NO_EMBED)
                && player.isJailed && player.cash == old(player.cash) && player.position == old(player.position)
      ensures player.turnsInJail == TURNS_IN_JAIL && RollOf(throws[0]).double ==>
                r == Ok(Stall) && !player.isJailed && player.cash == old(player.cash) && player.position == old(player.position)
      ensures player.turnsInJail == TURNS_IN_JAIL && !RollOf(throws[0]).double ==>
                var rest := throws[1..];
                (DoublesOf(rest[..StreakLength(rest)]) == 3 ==>
                   r == Ok(Stall) && player.isJailed && player.position == old(player.position)
                   && player.cash == old(player.cash) - JAIL_FINE)
                && (DoublesOf(rest[..StreakLength(rest)]) < 3 ==>
                      var total := TotalOf(rest[..StreakLength(rest)]);
                      var paid := old(player.cash) - JAIL_FINE + (if old(player.position) + total >= |board| then GO_BONUS else 0.0);
                      player.position == Advanced(old(player.position), total, |board|)
                      && (old(player.position) + total > |board| && player.Tile().None? ==>
                            r.Err? && player.cash == paid && !player.isJailed)
                      && (!(old(player.position) + total > |board| && player.Tile().None?) ==>
                            TileResolved(player.Tile(), player.position, player, paid, player.cash, false, player.isJailed, r)))
    {
      if player.turnsInJail == TURNS_IN_JAIL {
        player.isJailed := false;
        var dice := RollOf(throws[0]);
        if !dice.double {
          player.Pay(JAIL_FINE);
          r := FreeTurn(player, throws[1..]);
          return;
        }
        return Ok(Stall);
      }
      return Err(NO_EMBED);
    }

    /** `executeTurn(player)`: a jailed player goes through the jail
        decision; a free player throws the dice for the turn. */
    method ExecuteTurn(player: Player, throws: seq<(real, real)>) returns (r: Result<Next>)
      requires player.session == this
      requires ValidThrows(throws) && |throws| >= 4
      modifies player`isJailed, player`cash, player`position
      ensures old(player.isJailed) && player.turnsInJail != TURNS_IN_JAIL ==>
                r == Err(NO_EMBED) && player.isJailed && player.cash == old(player.cash)
                && player.position == old(player.position)
      ensures old(player.isJailed) && player.turnsInJail == TURNS_IN_JAIL && RollOf(throws[0]).double ==>
                r == Ok(Stall) && !player.isJailed && player.cash == old(player.cash) && player.position == old(player.position)
      ensures old(player.isJailed) && player.turnsInJail == TURNS_IN_JAIL && !RollOf(throws[0]).double ==>
                var rest := throws[1..];
                (DoublesOf(rest[..StreakLength(rest)]) == 3 ==>
                   r == Ok(Stall) && player.isJailed && player.position == old(player.position)
                   && player.cash == old(player.cash) - JAIL_FINE)
                && (DoublesOf(rest[..StreakLength(rest)]) < 3 ==>
                      var total := TotalOf(rest[..StreakLength(rest)]);
                      var paid := old(player.cash) - JAIL_FINE + (if old(player.position) + total >= |board| then GO_BONUS else 0.0);
                      player.position == Advanced(old(player.position), total, |board|)
                      && (old(player.position) + total > |board| && player.Tile().None? ==>
                            r.Err? && player.cash == paid && !player.isJailed)
                      && (!(old(player.position) + total > |board| && player.Tile().None?) ==>
                            TileResolved(player.Tile(), player.position, player, paid, player.cash, false, player.isJailed, r)))
      ensures !old(player.isJailed) && DoublesOf(throws[..StreakLength(throws)]) == 3 ==>
                r == Ok(Stall) && player.isJailed && player.position == old(player.position) && player.cash == old(player.cash)
      ensures !old(player.isJailed) && DoublesOf(throws[..StreakLength(throws)]) < 3 ==>
                var total := TotalOf(throws[..StreakLength(throws)]);
                var paid := old(player.cash) + (if old(player.position) + total >= |board| then GO_BONUS else 0.0);
                player.position == Advanced(old(player.position), total, |board|)
                && (old(player.position) + total > |board| && player.Tile().None? ==>
                      r.Err? && player.cash == paid && !player.isJailed)
                && (!(old(player.position) + total > |board| && player.Tile().None?) ==>
                      TileResolved(player.Tile(), player.position, player, paid, player.cash, false, player.isJailed, r))
    {
      if player.isJailed {
        r := HandleJailedPlayer(player, throws);
        return;
      }
      r := FreeTurn(player, throws);
    }

    /** The turn of a free player: three doubles in a row jail the player
        where they stand; otherwise the player advances by the total and the
        tile is resolved. */
    method FreeTurn(player: Player, throws: seq<(real, real)>) returns (r: Result<Next>)
      requires player.session == this && !player.isJailed
      requires ValidThrows(throws) && |throws| >= 3
      modifies player`isJailed, player`cash, player`position
      ensures DoublesOf(throws[..StreakLength(throws)]) == 3 ==>
                r == Ok(Stall) && player.isJailed && player.position == old(player.position) && player.cash == old(player.cash)
      ensures DoublesOf(throws[..StreakLength(throws)]) < 3 ==>
                var total := TotalOf(throws[..StreakLength(throws)]);
                var paid := old(player.cash) + (if old(player.position) + total >= |board| then GO_BONUS else 0.0);
                player.position == Advanced(old(player.position), total, |board|)
                && (old(player.position) + total > |board| && player.Tile().None? ==>
                      r.Err? && player.cash == paid && !player.isJailed)
                && (!(old(player.position) + total > |board| && player.Tile().None?) ==>
                      TileResolved(player.Tile(), player.position, player, paid, player.cash, false, player.isJailed, r))
    {
      var rollTotal, doubleCount := MakeDiceRoll(0, throws);
      if doubleCount == 3 {
        player.Jail("doubles");
        return Ok(Stall);
      }
      var moved := player.Advance(rollTotal);
      if moved.Threw? {
        return Err(moved.reason);
      }
      r := HandleTileAction(player);
    }

    /** `handleTileAction(player)`: exactly one branch runs, chosen by the
        tile under the player: Go To Jail, a tax, a card tile, a property or
        railroad, Go or free parking; on any other tile nothing happens.
        Jailing, the tax and Go or free parking then flush the messages
        before handing the turn on, and that throws (`NO_FLUSH`).  A tax
        tile without a cost leaves the cash NaN (kept here).  The card
        branch names the deck of the tile's kind, which the file never
        imports, and throws: `Community` on a community chest, `Chance` on
        a chance tile (`NoDeck`).  A
        position off the board throws. */
    method HandleTileAction(player: Player) returns (r: Result<Next>)
      requires player.session == this
      modifies player`isJailed, player`cash
      ensures TileResolved(player.Tile(), player.position, player, old(player.cash), player.cash,
                           old(player.isJailed), player.isJailed, r)
    {
      var t := player.Tile();
      if t.None? {
        return Err("TypeError: cannot read properties of undefined (reading 'name')");
      }
      var tile := t.value;
      if tile.name == "Go To Jail" {
        player.Jail("tile");
        return Err(NO_FLUSH);
      }
      if tile.kind == "tax" {
        if tile.cost.Some? {
          player.Pay(tile.cost.value);
        }
        return Err(NO_FLUSH);
      }
      if tile.kind in {"community-chest", "chance"} {
        return Err(NoDeck(tile.kind));
      }
      if tile.kind in {"railroad", "property"} {
        r := HandlePropertyAsWritten(player);
        return;
      }
      if tile.kind in {"go", "free-parking"} {
        return Err(NO_FLUSH);
      }
      return Ok(Stall);
    }

    /** What `handleTileAction` does to the player on the tile `t` at index
        `i`, from the cash and jail flag before to those after, with the
        result `r`. */
    predicate TileResolved(t: Option<Tile>, i: int, player: Player, cashBefore: real, cashAfter: real,
                           jailedBefore: bool, jailedAfter: bool, r: Result<Next>)
      reads this
    {
      if t.None? then r.Err? && cashAfter == cashBefore && jailedAfter == jailedBefore
      else if t.value.name == "Go To Jail" then r == Err(NO_FLUSH) && jailedAfter && cashAfter == cashBefore
      else
        jailedAfter == jailedBefore
        && if t.value.kind == "tax" then
             r == Err(NO_FLUSH) && cashAfter == cashBefore - (if t.value.cost.Some? then t.value.cost.value else 0.0)
           else if t.value.kind in {"community-chest", "chance"} then
             r == Err(NoDeck(t.value.kind)) && cashAfter == cashBefore
           else if t.value.kind in {"railroad", "property"} then
             PropertyLanded(i, t.value, player, cashBefore, cashAfter, r)
           else if t.value.kind in {"go", "free-parking"} then
             r == Err(NO_FLUSH) && cashAfter == cashBefore
           else
             r == Ok(Stall) && cashAfter == cashBefore
    }

    /** What `handleProperty` as written does to the lander on the tile `t`
        at index `i`: on one's own tile the messages are flushed to hand the
        turn on, which throws; on a tile another player owns, the lander
        pays the rent (a missing rent leaves NaN, kept here) and the call to
        `owner.receive` throws; an unowned tile the lander can pay for
        throws building the purchase offer, and any other unowned tile goes
        to `handleAuction`, whose flush throws. */
    predicate PropertyLanded(i: int, t: Tile, player: Player, before: real, after: real, r: Result<Next>)
      reads this
    {
      if i in occupied && occupied[i] == player then
        r == Err(NO_FLUSH) && after == before
      else if i in occupied then
        r == Err("TypeError: owner.receive is not a function")
        && after == before - (if t.rent.Some? then t.rent.value else 0.0)
      else if t.cost.Some? && before >= t.cost.value then
        r == Err(NO_EMBED) && after == before
      else
        r == Err(NO_FLUSH) && after == before
    }

    /** `handleProperty(player, roll)` as written: on a tile another player
        owns, the lander pays the rent and the session then calls
        `owner.receive`, which players do not have, so it throws with the
        owner never credited. */
    method HandlePropertyAsWritten(player: Player) returns (r: Result<Next>)
      requires player.session == this
      modifies player`cash
      ensures player.Tile().None? ==> r.Err? && player.cash == old(player.cash)
      ensures player.Tile().Some? ==>
                PropertyLanded(player.position, player.Tile().value, player, old(player.cash), player.cash, r)
    {
      var t := player.Tile();
      if t.None? {
        return Err("TypeError: cannot read properties of undefined (reading 'cost')");
      }
      var i := player.position;
      if i in occupied {
        var owner := occupied[i];
        if owner == player {
          return Err(NO_FLUSH);
        }
        if t.value.rent.Some? {
          player.Pay(t.value.rent.value);
        }
        return Err("TypeError: owner.receive is not a function");
      }
      if t.value.cost.Some? && player.cash >= t.value.cost.value {
        return Err(NO_EMBED);
      }
      return Err(NO_FLUSH);
    }

    /** Landing on a property or railroad with the owner credited: on a
        tile another player owns, exactly the rent moves from the lander to
        the owner, and a lander left in debt goes bankrupt; on one's own tile
        no money moves; an unowned tile the lander can pay for throws
        building the purchase offer, and any other is auctioned.  A missing
        rent leaves both players' cash NaN (kept here), which is not below
        zero, so the turn passes on.  The corrected step also flushes its
        messages properly, so the result is the hand-over it starts. */
    method HandleProperty(player: Player) returns (r: Result<Next>)
      requires player.session == this
      modifies player`cash, occupied.Values`cash
      ensures player.Tile().None? ==> r.Err? && player.cash == old(player.cash)
      ensures player.Tile().Some? && player.position !in occupied ==>
                var cost := player.Tile().value.cost;
                player.cash == old(player.cash)
                && r == (if cost.Some? && player.cash >= cost.value then Err(NO_EMBED) else Ok(Auction))
      ensures player.Tile().Some? && player.position in occupied && occupied[player.position] == player ==>
                r == Ok(ToggleTurns) && player.cash == old(player.cash)
      ensures player.Tile().Some? && player.position in occupied && occupied[player.position] != player ==>
                var owner := occupied[player.position];
                var rent := player.Tile().value.rent;
                (rent.None? ==> r == Ok(ToggleTurns) && player.cash == old(player.cash) && owner.cash == old(owner.cash))
                && (rent.Some? ==>
                      player.cash == old(player.cash) - rent.value && owner.cash == old(owner.cash) + rent.value
                      && r == Ok(if player.cash < 0.0 then Bankruptcy else ToggleTurns))
      ensures forall p :: p in occupied.Values && p != player && !(player.position in occupied && p == occupied[player.position]) ==>
                p.cash == old(p.cash)
    {
      var t := player.Tile();
      if t.None? {
        return Err("TypeError: cannot read properties of undefined (reading 'cost')");
      }
      var i := player.position;
      if i in occupied {
        var owner := occupied[i];
        if owner == player {
          return Ok(ToggleTurns);
        }
        var rent := t.value.rent;
        if rent.None? {
          return Ok(ToggleTurns);
        }
        player.Pay(rent.value);
        owner.Earn(rent.value);
        return Ok(if player.cash < 0.0 then Bankruptcy else ToggleTurns);
      }
      if t.value.cost.Some? && player.cash >= t.value.cost.value {
        return Err(NO_EMBED);
      }
      return Ok(Auction);
    }
  }
}

=== FILE: model/trade.dfy ===
/** A proposed sale of one property between two players of the class-based
    engine: the offering player hands over the property and receives the
    amount.  The trade runs only once it is accepted and the offering player
    still lists the property. */
module Trades {
  import opened Common
  import opened Players
  import opened PropertyLedger

  /** The property list without any entry of the given name (the `filter` the
      trade applies): every entry of that name goes, every other one stays, in order. */
  function WithoutName(hs: seq<Holding>, name: string): (r: seq<Holding>)
    ensures forall h :: h in r ==> h in hs && h.name != name
    ensures forall h :: h in hs && h.name != name ==> h in r
    ensures |r| <= |hs|
  {
    Filter(hs, (h: Holding) => h.name != name)
  }

  /** Removing a name the list does not hold changes nothing. */
  lemma {:induction false} WithoutAbsentName(hs: seq<Holding>, name: string)
    requires forall h :: h in hs ==> h.name != name
    ensures WithoutName(hs, name) == hs
  {
    if |hs| > 0 {
      assert forall h :: h in hs[1..] ==> h in hs;
      WithoutAbsentName(hs[1..], name);
      assert hs == [hs[0]] + hs[1..];
    }
  }

  class Trade {
    const fromPlayer: Player
    const toPlayer: Player
    const property: Property
    const amount: real
    var isAccepted: bool

    /** A trade offer, not yet accepted. */
    constructor (fromPlayer: Player, toPlayer: Player, property: Property, amount: real)
      ensures this.fromPlayer == fromPlayer && this.toPlayer == toPlayer
      ensures this.property == property && this.amount == amount
      ensures !isAccepted
    {
      this.fromPlayer := fromPlayer;
      this.toPlayer := toPlayer;
      this.property := property;
      this.amount := amount;
      isAccepted := false;
    }

    /** `validateTrade()`: the offering player lists an entry with the property's name. */
    function ValidateTrade(): (ok: bool)
      reads this, fromPlayer, property
      ensures ok <==> exists h :: h in fromPlayer.properties && h.name == property.name
    {
      var name := property.name;
      FindIndex(fromPlayer.properties, (h: Holding) => h.name == name) >= 0
    }

    /** `executeTrade()`: when valid and accepted, the money and then the
        property change hands; otherwise nothing changes.  The two players'
        money adds up to the same total either way, and their positions, jail
        flags, cards and names stay as they were. */
    method ExecuteTrade()
      modifies fromPlayer`money, fromPlayer`properties, toPlayer`money, toPlayer`properties, property`owner
      ensures fromPlayer.money + toPlayer.money == old(fromPlayer.money + toPlayer.money)
      ensures !(old(ValidateTrade()) && isAccepted) ==>
                fromPlayer.money == old(fromPlayer.money) && toPlayer.money == old(toPlayer.money)
                && fromPlayer.properties == old(fromPlayer.properties)
                && toPlayer.properties == old(toPlayer.properties)
                && property.owner == old(property.owner)
      ensures old(ValidateTrade()) && isAccepted && fromPlayer != toPlayer ==>
                fromPlayer.money == old(fromPlayer.money) + amount
                && toPlayer.money == old(toPlayer.money) - amount
                && fromPlayer.properties == WithoutName(old(fromPlayer.properties), property.name)
                && toPlayer.properties == old(toPlayer.properties) + [NewHolding(property.name)]
                && property.owner == Some(toPlayer)
      ensures old(ValidateTrade()) && isAccepted && fromPlayer == toPlayer ==>
                fromPlayer.money == old(fromPlayer.money)
                && fromPlayer.properties
                   == WithoutName(old(fromPlayer.properties), property.name) + [NewHolding(property.name)]
                && property.owner == Some(toPlayer)
      ensures fromPlayer.position == old(fromPlayer.position) && toPlayer.position == old(toPlayer.position)
      ensures fromPlayer.inJail == old(fromPlayer.inJail) && toPlayer.inJail == old(toPlayer.inJail)
      ensures fromPlayer.getOutOfJailFreeCards == old(fromPlayer.getOutOfJailFreeCards)
              && toPlayer.getOutOfJailFreeCards == old(toPlayer.getOutOfJailFreeCards)
      ensures fromPlayer.name == old(fromPlayer.name) && toPlayer.name == old(toPlayer.name)
    {
      if ValidateTrade() && isAccepted {
        UpdatePlayerMoney();
        UpdatePlayerProperties();
      }
    }

    /** `updatePlayerProperties()`: the offering player drops every entry of the
        name, the receiving player gets a fresh entry, and owns the property. */
    method UpdatePlayerProperties()
      modifies fromPlayer`properties, toPlayer`properties, property`owner
      ensures fromPlayer != toPlayer ==>
                fromPlayer.properties == WithoutName(old(fromPlayer.properties), property.name)
                && toPlayer.properties == old(toPlayer.properties) + [NewHolding(property.name)]
      ensures fromPlayer == toPlayer ==>
                fromPlayer.properties
                == WithoutName(old(fromPlayer.properties), property.name) + [NewHolding(property.name)]
      ensures property.owner == Some(toPlayer)
    {
      fromPlayer.properties := WithoutName(fromPlayer.properties, property.name);
      toPlayer.AddProperty(property.name);
      property.owner := Some(toPlayer);
    }

    /** `updatePlayerMoney()`: the offering player receives the amount and the
        receiving player pays it. */
    method UpdatePlayerMoney()
      modifies fromPlayer`money, toPlayer`money
      ensures fromPlayer.money + toPlayer.money == old(fromPlayer.money + toPlayer.money)
      ensures fromPlayer != toPlayer ==>
                fromPlayer.money == old(fromPlayer.money) + amount && toPlayer.money == old(toPlayer.money) - amount
      ensures fromPlayer == toPlayer ==> fromPlayer.money == old(fromPlayer.money)
    {
      fromPlayer.UpdateMoney(amount);
      toPlayer.UpdateMoney(-amount);
    }

    /** `acceptTrade()`. */
    method AcceptTrade()
      modifies this`isAccepted
      ensures isAccepted
    {
      isAccepted := true;
    }

    /** `rejectTrade()`. */
    method RejectTrade()
      modifies this`isAccepted
      ensures !isAccepted
    {
      isAccepted := false;
    }

    /** `cancelTrade()`. */
    method CancelTrade()
      modifies this`isAccepted
      ensures !isAccepted
    {
      isAccepted := false;
    }
  }
}

=== FILE: model/turnmanager.dfy ===
/** Round-robin turn order of the class-based engine: an index into the player
    list that wraps around, and a count of turns played. */
module TurnManagers {
  import opened Common
  import opened Players

  /** The turn index.  With no players `(i + 1) % 0` is NaN, and stays NaN. */
  datatype TurnIndex = Index(value: int) | NotANumber

  /** The index after one `nextTurn` or `skipTurn` over `n` players. */
  function Advance(idx: TurnIndex, n: nat): (r: TurnIndex)
    ensures n > 0 && idx.Index? && 0 <= idx.value < n ==> r.Index? && 0 <= r.value < n
    ensures n > 0 && idx.Index? && 0 <= idx.value < n - 1 ==> r == Index(idx.value + 1)
    ensures n > 0 && idx == Index(n - 1) ==> r == Index(0)
    ensures n == 0 || idx.NotANumber? ==> r.NotANumber?
  {
    if n == 0 || idx.NotANumber? then NotANumber else Index(JsRem(idx.value + 1, n))
  }

  /** The index after `k` advances. */
  function AdvanceTimes(idx: TurnIndex, n: nat, k: nat): TurnIndex
  {
    if k == 0 then idx else Advance(AdvanceTimes(idx, n, k - 1), n)
  }

  /** Within one round the index moves `k` places forward, wrapping once. */
  lemma {:induction false} AdvanceTimesWraps(i: int, n: nat, k: nat)
    requires 0 <= i < n && k <= n
    ensures AdvanceTimes(Index(i), n, k) == Index(if i + k < n then i + k else i + k - n)
  {
    if k > 0 {
      AdvanceTimesWraps(i, n, k - 1);
    }
  }

  /** A full round of `n` turns gives the turn back to the player who had it. */
  lemma FullRoundReturns(i: int, n: nat)
    requires 0 <= i < n
    ensures AdvanceTimes(Index(i), n, n) == Index(i)
  {
    AdvanceTimesWraps(i, n, n);
  }

  class TurnManager {
    const players: seq<Player>
    var currentPlayerIndex: TurnIndex
    var turnCount: int

    /** The index points at a player whenever there is one. */
    predicate Valid()
      reads this
    {
      |players| > 0 ==> currentPlayerIndex.Index? && 0 <= currentPlayerIndex.value < |players|
    }

    /** Starts with the first player and no turns played. */
    constructor (players: seq<Player>)
      ensures Valid()
      ensures this.players == players && currentPlayerIndex == Index(0) && turnCount == 0
    {
      this.players := players;
      currentPlayerIndex := Index(0);
      turnCount := 0;
    }

    /** `getCurrentPlayer()`: the player at the index, undefined (`None`) when
        there are no players. */
    function GetCurrentPlayer(): (p: Option<Player>)
      reads this
      requires Valid()
      ensures p.Some? <==> |players| > 0
      ensures p.Some? ==> p.value == players[currentPlayerIndex.value] && p.value in players
    {
      if currentPlayerIndex.Index? && 0 <= currentPlayerIndex.value < |players|
      then Some(players[currentPlayerIndex.value]) else None
    }

    /** `nextTurn()`: the next player's turn, and one more turn played. */
    method NextTurn()
      requires Valid()
      modifies this
      ensures Valid()
      ensures currentPlayerIndex == Advance(old(currentPlayerIndex), |players|)
      ensures turnCount == old(turnCount) + 1
    {
      currentPlayerIndex := Advance(currentPlayerIndex, |players|);
      turnCount := turnCount + 1;
    }

    /** `resetTurns()`: back to the first player with no turns played. */
    method ResetTurns()
      modifies this
      ensures Valid()
      ensures currentPlayerIndex == Index(0) && turnCount == 0
    {
      currentPlayerIndex := Index(0);
      turnCount := 0;
    }

    /** `skipTurn()`: the index moves on as in `nextTurn`, the turn count does not. */
    method SkipTurn()
      requires Valid()
      modifies this
      ensures Valid()
      ensures currentPlayerIndex == Advance(old(currentPlayerIndex), |players|)
      ensures turnCount == old(turnCount)
    {
      currentPlayerIndex := Advance(currentPlayerIndex, |players|);
    }

    /** `getTurnCount()`. */
    function GetTurnCount(): (n: int)
      reads this
      ensures n == turnCount
    {
      turnCount
    }
  }
}
